=== FILE: README.md ===
# Sloeber internal builder: build rules, staleness and the build runner

This project models the core of Sloeber's internal incremental builder. The
builder is the part of the Arduino IDE for Eclipse that runs compiler commands
without `make`. The model covers:

- **Build rules** (`MakeRule`): target files grouped by output category and
  prerequisite files grouped by input category, both in insertion order. The
  rules also derive dependency files. The model covers the `add*` operations
  and the flattening getters, the build-variable ("macro") views, recipe
  validation and recipe generation. It also covers command-line pattern
  expansion and the staleness decision `needsExecuting`, with its
  dependency-file scan `getDepFileTimeStamp`.
- **The internal build runner** (`InternalBuildRunner`): the control flow of
  `invokeBuild` and `invokeClean`, modelled as a sequential state machine.
  This covers:
  - the optional pre-build step;
  - the `do … while` loop over sequence groups 0, 1, 2, …;
  - target preparation: the recursive `createFolder` and deleting old
    targets;
  - each worker's recipe loop `RuleRunner.run`;
  - the exit-code mapping of `launchCommand`;
  - the optional post-build step.
- **`LinkObjectNameProvider.getOutputFileName`**: an archive input is ignored
  (`None`). Any other input is named after its file name, followed by `.o`.
- **Private Arduino libraries** (`ArduinoPrivateLibraryVersion`): both
  constructors, the fully qualified name and breadcrumbs, the example folder,
  and the private/hardware flags.
- **Managed projects** (`ManagedProject`): the insertion-ordered
  configuration registry, keeping `projectType` and `projectTypeId` in step,
  and attribute storage (`serializeProjectInfo`, `loadFromProject`).

Layout, one module per file:

| file | module | concept |
|---|---|---|
| wrappers.dfy | Wrappers | `Option` |
| linked_maps.dfy | LinkedMaps | `LinkedHashMap` as ordered keys plus a map |
| java_strings.dfy | JavaStrings | `isBlank`, `trim`, `replace`, `split`, `String.join` |
| paths.dfy | Paths | `IPath` as a sequence of segments; `append` with `.` / `..` canonicalisation |
| file_systems.dfy | FileSystems | a workspace snapshot: file time stamps, folders with their times, text of files, the current time; `createFolder` |
| make_rules.dfy | MakeRules | the build rule |
| staleness.dfy | Staleness | `getDepFileTimeStamp`, `needsExecuting` |
| recipes.dfy | Recipes | `getRecipes` |
| command_line.dfy | CommandLines | `expandCommandLinePattern` |
| build_runner.dfy | BuildRunner | `invokeBuild`, `RuleRunner.run`, `launchCommand`, `invokeClean` |
| link_object_names.dfy | LinkObjectNames | `getOutputFileName` |
| private_libraries.dfy | PrivateLibraries | `ArduinoPrivateLibraryVersion` |
| managed_projects.dfy | ManagedProjects | `ManagedProject` |

Each operation comes with a reference that its contract or a lemma ties it
to. Some operations are tied to their own set-union or membership reading:
the flattening getters, `getDependencies`, the name lists of `getRecipes`.
`needsExecuting` is a loop method proved equal to a one-clause-per-reason
predicate (`Staleness.Stale`). Each build group's submissions are pinned down
by `BuildRunner.GroupSubmissions`, which admits exactly one answer
(`BuildRunner.GroupSubmissionsUnique`). Pattern expansion, five successive
`String.replace` calls, is proved equal to filling the placeholders of a
pattern read as text pieces and placeholders.

## How the model reads the code

- Files are paths: sequences of segments. Java `null` inputs are collapsed
  into the empty value, or into `None` where the code tells them apart.
- Time stamps are unbounded integers. `Long.MIN_VALUE` and `Long.MAX_VALUE`
  are the constants `FileSystems.MinTime` and `FileSystems.MaxTime`. No time
  stamp is added to, so the model needs no wrap-around.
- Project types and configurations are compared by value. The code compares
  project types by reference in `setProjectType`.
- Some constants are defined in files that are not part of this model
  (`AutoBuildConstants`, `AutoBuildCommon`, the schema and Eclipse
  interfaces), so their values here are assumed:
  - `DEPENDENCY_SUFFIX` (`"_DEPS"`);
  - the default command-line pattern,
    `${COMMAND} ${FLAGS} ${OUTPUT_FLAG}${OUTPUT_PREFIX}${OUTPUT} ${INPUTS}`;
  - `makeVariable`, which turns a parameter name `NAME` into `${NAME}`;
  - the parameter names `CMD_LINE_PRM_NAME`, `FLAGS_PRM_NAME`,
    `OUTPUT_FLAG_PRM_NAME`, `OUTPUT_PRM_NAME`, `INPUTS_PRM_NAME` and
    `OUTPUT_PREFIX_PRM_NAME` (`"COMMAND"`, `"FLAGS"`, `"OUTPUT_FLAG"`,
    `"OUTPUT"`, `"INPUTS"`, `"OUTPUT_PREFIX"`);
  - `WHITESPACE` and `BLANK` (`" "`), `DOUBLE_QUOTE` (`"\""`), `COLON`
    (`":"`) and `EMPTY_STRING` (`""`);
  - `TARGET_OBJECTS` (`"objects"`);
  - the segments of `SLOEBER_LIBRARY_FQN` (`["Libraries"]`);
  - `PRIVATE`;
  - `EXAMPLES_FOLDER` and `eXAMPLES_FODER`;
  - `ISchemaObject.ID` and `NAME`;
  - `PROJECTTYPE`;
  - `SEMI_COLON`;
  - `IResource.NULL_STAMP` (`-1`).

  Several proofs use these values. `CommandLines.ExpandDefault` spells out
  the default pattern. `CommandLines.ExpandFillsPlaceholders` and the
  substitution lemmas rely on `makeVariable` giving `${NAME}` and on no
  parameter name holding `}`. The quoting lemmas rely on `DOUBLE_QUOTE`,
  the header scan on `COLON` and `BLANK`, the inputs string and the flags
  on `WHITESPACE`, and `MakeRules.PrerequisiteMacros` on `EMPTY_STRING`.
  The dependency-key lemmas hold for any suffix.
- Behaviour that follows the code where its own comments or design say
  otherwise:
  - `getDepFileTimeStamp` is documented to return 0 when a referenced file
    is missing. In the code any `IOException` makes it return
    `Long.MAX_VALUE`: an unreadable dependency file, or a header line
    naming neither a file nor a folder (`Staleness.MissingHeaderIsMax`).
    A line naming a folder is read like a file, with the folder's time
    (`Staleness.FolderHeaderIsRead`).
  - `isSimpleRule` tests the number of output categories twice. It never
    looks at the number of files or input categories
    (`MakeRules.SimpleRuleWithTwoTargets`).
  - A post-build step that fails ends `invokeBuild` whether or not
    stop-on-first-error is set. A failing pre-build step ends it only under
    stop-on-first-error.
  - `invokeBuild` returns false on every path. Its error flag `isError` is
    never set, so no failure stops the group loop
    (`BuildRunner.FailuresDoNotStopGroups`).
  - Output categories that share a build variable share a dependency key.
    The later one overwrites the earlier one, so the earlier targets'
    dependency files drop out of the staleness check
    (`MakeRules.CollidingCategoriesLoseDependency`).
  - `setProjectType` does nothing when the type is unchanged. After a failed
    `loadFromProject`, the type is null but the loaded type id remains, and
    clearing the type keeps that stale id
    (`ManagedProjects.LoadedTypeIdOutlivesClearing`).
  - A library name is appended to the fully qualified name as by
    `IPath.append`, so a name such as `..` climbs out of the private
    segment (`PrivateLibraries.ParentNameEscapesPrivateSegment`).
  - The default pattern contains `${OUTPUT_PREFIX}`, which expansion never
    replaces (that replacement is commented out). It stays in the command
    line (`CommandLines.ExpandDefault`).

## Model

| member | source | states |
|---|---|---|
| MakeRules.TargetFiles | io.sloeber.ManagedBuild/src/io/sloeber/autoBuild/extensionPoint/providers/MakeRule.java:88-94 | the `addAll` loop over the output categories' sets, in iteration order, collects a file exactly when some output category holds it |
| MakeRules.PrerequisiteFiles | io.sloeber.ManagedBuild/src/io/sloeber/autoBuild/extensionPoint/providers/MakeRule.java:76-82 | the `addAll` loop over the input categories' sets, in iteration order, collects a file exactly when some input category holds it |
| LinkedMaps.AddAllSetsMembers | io.sloeber.ManagedBuild/src/io/sloeber/autoBuild/extensionPoint/providers/MakeRule.java:76-94 | after a loop of `addAll` calls, an element is present exactly when it was there at the start or one of the visited sets holds it |
| MakeRules.AddTarget | io.sloeber.ManagedBuild/src/io/sloeber/autoBuild/extensionPoint/providers/MakeRule.java:160-169 | a known category gains exactly the file and keeps its place; a new category goes last holding the file alone; every other category, the prerequisites, the dependency cache, the tool and the group are unchanged |
| MakeRules.AddPrerequisite | io.sloeber.ManagedBuild/src/io/sloeber/autoBuild/extensionPoint/providers/MakeRule.java:171-180 | a known input category gains exactly the file and keeps its place; a new one goes last holding the file alone; every other category, the targets, the dependency cache, the tool and the group are unchanged |
| MakeRules.AddPrerequisites | io.sloeber.ManagedBuild/src/io/sloeber/autoBuild/extensionPoint/providers/MakeRule.java:314-323 | a known input category gains exactly the given files; a new one goes last holding exactly those files (the rule keeps a copy, so later changes by the caller are not seen); nothing else changes |
| MakeRules.AddTargetPresentIsNoOp | io.sloeber.ManagedBuild/src/io/sloeber/autoBuild/extensionPoint/providers/MakeRule.java:160-169 | adding a target already in its category gives back the same rule |
| MakeRules.AddPrerequisitePresentIsNoOp | io.sloeber.ManagedBuild/src/io/sloeber/autoBuild/extensionPoint/providers/MakeRule.java:171-180 | adding a prerequisite already in its category gives back the same rule |
| MakeRules.AddPrerequisitesPresentIsNoOp | io.sloeber.ManagedBuild/src/io/sloeber/autoBuild/extensionPoint/providers/MakeRule.java:314-323 | adding files that are all present gives back the same rule |
| MakeRules.AddTargetUnion | io.sloeber.ManagedBuild/src/io/sloeber/autoBuild/extensionPoint/providers/MakeRule.java:160-169 | the flattened target set grows by exactly the added file |
| MakeRules.AddPrerequisiteUnion | io.sloeber.ManagedBuild/src/io/sloeber/autoBuild/extensionPoint/providers/MakeRule.java:171-180 | the flattened prerequisite set grows by exactly the added file |
| MakeRules.AddPrerequisitesUnion | io.sloeber.ManagedBuild/src/io/sloeber/autoBuild/extensionPoint/providers/MakeRule.java:314-323 | the flattened prerequisite set grows by exactly the added files |
| MakeRules.NewRule | io.sloeber.ManagedBuild/src/io/sloeber/autoBuild/extensionPoint/providers/MakeRule.java:45-51 | the new rule has one input category holding the input file, one output category holding the output file, an empty dependency cache, and the given tool and group |
| MakeRules.NewRuleFromSet | io.sloeber.ManagedBuild/src/io/sloeber/autoBuild/extensionPoint/providers/MakeRule.java:53-59 | as above, with the prerequisite files equal to the given set |
| MakeRules.DepFilesOf | io.sloeber.ManagedBuild/src/io/sloeber/autoBuild/extensionPoint/providers/MakeRule.java:67-71 | the loop adds every target's dependency file, `null` included, then removes `null`: a file is kept exactly when the tool names it for one of the targets |
| MakeRules.DepFilesOfUnion | io.sloeber.ManagedBuild/src/io/sloeber/autoBuild/extensionPoint/providers/MakeRule.java:67-71 | the result distributes over a union of target sets, and one target gives its dependency file or nothing, so the order the targets are visited in does not matter |
| MakeRules.DepMapShape | io.sloeber.ManagedBuild/src/io/sloeber/autoBuild/extensionPoint/providers/MakeRule.java:61-74 | the rebuilt map has a key exactly for each output category's build variable plus the suffix, each holding the dependency files of a category with that key |
| MakeRules.DepMapPerCategory | io.sloeber.ManagedBuild/src/io/sloeber/autoBuild/extensionPoint/providers/MakeRule.java:61-74 | when no two categories share a key, every category's key holds exactly its own targets' dependency files |
| MakeRules.GetDependencies | io.sloeber.ManagedBuild/src/io/sloeber/autoBuild/extensionPoint/providers/MakeRule.java:61-74 | only the dependency cache changes; its keys are exactly the output categories' build variables plus the suffix |
| MakeRules.GetDependenciesIgnoresCache | io.sloeber.ManagedBuild/src/io/sloeber/autoBuild/extensionPoint/providers/MakeRule.java:61-62 | the cache is cleared first: rules that differ only in their old cache agree afterwards |
| MakeRules.DependencyFiles | io.sloeber.ManagedBuild/src/io/sloeber/autoBuild/extensionPoint/providers/MakeRule.java:96-103 | the call leaves the rule with its dependency cache rebuilt by `getDependencies` and returns the union of the rebuilt sets; each such file is the dependency file of some target |
| MakeRules.DependencyFilesExact | io.sloeber.ManagedBuild/src/io/sloeber/autoBuild/extensionPoint/providers/MakeRule.java:96-103 | with distinct dependency keys, the returned files are exactly the non-null dependency files of all targets |
| MakeRules.CollidingCategoriesKeepLast | io.sloeber.ManagedBuild/src/io/sloeber/autoBuild/extensionPoint/providers/MakeRule.java:63-73 | two output categories with the same build variable leave only the second category's dependency files |
| MakeRules.CollidingCategoriesLoseDependency | io.sloeber.ManagedBuild/src/io/sloeber/autoBuild/extensionPoint/providers/MakeRule.java:61-103 | so a target's dependency file can be missing from the dependency files although the tool names it |
| MakeRules.TargetMacros | io.sloeber.ManagedBuild/src/io/sloeber/autoBuild/extensionPoint/providers/MakeRule.java:116-122 | the output categories' build variables, each once |
| MakeRules.PrerequisiteMacros | io.sloeber.ManagedBuild/src/io/sloeber/autoBuild/extensionPoint/providers/MakeRule.java:124-131 | the input categories' build variables, each once, without the empty one |
| MakeRules.DependencyMacros | io.sloeber.ManagedBuild/src/io/sloeber/autoBuild/extensionPoint/providers/MakeRule.java:133-138 | the call leaves the rule with its dependency cache rebuilt and lists that cache's keys, each once, exactly the keys of the rebuilt map |
| MakeRules.AllMacros | io.sloeber.ManagedBuild/src/io/sloeber/autoBuild/extensionPoint/providers/MakeRule.java:109-114 | the call leaves the rule with its dependency cache rebuilt; the result is the union of the target, prerequisite and dependency macros, without repeats, with the target macros first in their own order |
| MakeRules.MacroElements | io.sloeber.ManagedBuild/src/io/sloeber/autoBuild/extensionPoint/providers/MakeRule.java:140-158 | after the loop over the output categories, the loop over the input categories and the lookup in the cache, a file is an element exactly when a category with that build variable holds it or the cached set under that name does; a missing cache entry adds nothing |
| MakeRules.MacroElementsOfTargetMacro | io.sloeber.ManagedBuild/src/io/sloeber/autoBuild/extensionPoint/providers/MakeRule.java:140-158 | a target macro's elements include its category's files, and every element is a target, a prerequisite or a cached dependency file |
| MakeRules.MacroElementsAfterAllMacros | io.sloeber.ManagedBuild/src/io/sloeber/autoBuild/extensionPoint/providers/MakeRule.java:61-158 | once `getAllMacros` has rebuilt the cache, a dependency macro's elements include its category's dependency files, whatever the cache held before |
| MakeRules.AllMacrosNameOnlyRuleFiles | io.sloeber.ManagedBuild/src/io/sloeber/autoBuild/extensionPoint/providers/MakeRule.java:96-158 | every element of every macro `getAllMacros` lists, on the rule it leaves, is a target, a prerequisite or a dependency file of the rule |
| MakeRules.AllMacrosCoverFiles | io.sloeber.ManagedBuild/src/io/sloeber/autoBuild/extensionPoint/providers/MakeRule.java:96-158 | every target file, every dependency file and every prerequisite file of a category with a build variable is an element of some listed macro |
| MakeRules.NewRuleIsValid | io.sloeber.ManagedBuild/src/io/sloeber/autoBuild/extensionPoint/providers/MakeRule.java:188-200 | a rule from the one-file constructor passes recipe validation |
| MakeRules.NewRuleFromSetValidIff | io.sloeber.ManagedBuild/src/io/sloeber/autoBuild/extensionPoint/providers/MakeRule.java:188-200 | a rule from the set constructor passes validation exactly when the set is not empty |
| MakeRules.SecondTargetInvalidates | io.sloeber.ManagedBuild/src/io/sloeber/autoBuild/extensionPoint/providers/MakeRule.java:188-200 | adding a second distinct target file, in any category, fails validation |
| MakeRules.ConstructedRulesAreSimple | io.sloeber.ManagedBuild/src/io/sloeber/autoBuild/extensionPoint/providers/MakeRule.java:333-352 | rules from both constructors are simple |
| MakeRules.SimpleIffOneOutputCategory | io.sloeber.ManagedBuild/src/io/sloeber/autoBuild/extensionPoint/providers/MakeRule.java:333-352 | a rule is simple exactly when it has one output category: adding prerequisites never changes that, a target in a known category keeps it, a target in a new category ends it |
| MakeRules.SimpleRuleWithTwoTargets | io.sloeber.ManagedBuild/src/io/sloeber/autoBuild/extensionPoint/providers/MakeRule.java:325-352 | against its documentation, a rule with two input categories and two target files in one category is simple, yet fails recipe validation |
| MakeRules.IsForFolderIff | io.sloeber.ManagedBuild/src/io/sloeber/autoBuild/extensionPoint/providers/MakeRule.java:366-375 | a rule is for a folder exactly when some prerequisite file lies directly in it |
| MakeRules.AddPrerequisiteIsForFolder | io.sloeber.ManagedBuild/src/io/sloeber/autoBuild/extensionPoint/providers/MakeRule.java:366-375 | after adding a prerequisite, the rule is for that file's folder and still for every folder it was for |
| Staleness.ScanMissingHeader | io.sloeber.ManagedBuild/src/io/sloeber/autoBuild/extensionPoint/providers/MakeRule.java:439-451 | a `name:` line naming neither a file nor a folder, anywhere in the lines, ends the scan at `Long.MAX_VALUE` |
| Staleness.ScanAllPresent | io.sloeber.ManagedBuild/src/io/sloeber/autoBuild/extensionPoint/providers/MakeRule.java:439-447 | when every header line names a file or a folder, the scan yields the newest of the start value and their last-modified times |
| Staleness.FolderHeaderIsRead | io.sloeber.ManagedBuild/src/io/sloeber/autoBuild/extensionPoint/providers/MakeRule.java:439-447 | a header line naming a folder is read like a file: the folder's time joins the maximum and the scan goes on |
| Staleness.BareColonReadsBuildFolder | io.sloeber.ManagedBuild/src/io/sloeber/autoBuild/extensionPoint/providers/MakeRule.java:437-447 | a dependency file holding only `:` names the build folder itself, so its time stamp is that folder's time and not `Long.MAX_VALUE` |
| Staleness.UnreadableDepFile | io.sloeber.ManagedBuild/src/io/sloeber/autoBuild/extensionPoint/providers/MakeRule.java:437-452 | a dependency file that cannot be read yields `Long.MAX_VALUE` |
| Staleness.MissingHeaderIsMax | io.sloeber.ManagedBuild/src/io/sloeber/autoBuild/extensionPoint/providers/MakeRule.java:423-452 | a header naming neither a file nor a folder yields `Long.MAX_VALUE`, not the documented 0 |
| Staleness.NoHeadersIsMin | io.sloeber.ManagedBuild/src/io/sloeber/autoBuild/extensionPoint/providers/MakeRule.java:434-453 | a readable dependency file with no `name:` line yields `Long.MIN_VALUE` |
| Staleness.DepFileTimeStampIsNewestHeader | io.sloeber.ManagedBuild/src/io/sloeber/autoBuild/extensionPoint/providers/MakeRule.java:433-454 | with all headers present, the result is at least every header's last-modified time and is one of them, or `Long.MIN_VALUE` |
| Staleness.NeedsExecuting | io.sloeber.ManagedBuild/src/io/sloeber/autoBuild/extensionPoint/providers/MakeRule.java:377-421 | the rule needs executing exactly when a target is missing, a dependency file is missing, a prerequisite is strictly newer than a target, or a dependency file's headers are at least as new as a target (a target stamped `Long.MIN_VALUE` counts as such); the dependency cache is rebuilt only once every target was found |
| Staleness.CheckRest | io.sloeber.ManagedBuild/src/io/sloeber/autoBuild/extensionPoint/providers/MakeRule.java:392-421 | given the oldest target time, the rest of the decision agrees with the same reference |
| Staleness.CheckDependenciesExist | io.sloeber.ManagedBuild/src/io/sloeber/autoBuild/extensionPoint/providers/MakeRule.java:393-400 | reports a missing file exactly when some dependency file does not exist |
| Staleness.NewestStamp | io.sloeber.ManagedBuild/src/io/sloeber/autoBuild/extensionPoint/providers/MakeRule.java:402-407 | the newest prerequisite time bounds every prerequisite and is one of them, or `Long.MIN_VALUE` |
| Staleness.NewestHeaderTime | io.sloeber.ManagedBuild/src/io/sloeber/autoBuild/extensionPoint/providers/MakeRule.java:412-416 | the newest header time bounds every dependency file's time and is one of them, or `Long.MIN_VALUE` |
| Staleness.PrerequisiteNewer | io.sloeber.ManagedBuild/src/io/sloeber/autoBuild/extensionPoint/providers/MakeRule.java:402-410 | a newest prerequisite strictly after the oldest target means some prerequisite is strictly newer than some target |
| Staleness.PrerequisitesNotNewer | io.sloeber.ManagedBuild/src/io/sloeber/autoBuild/extensionPoint/providers/MakeRule.java:402-410 | otherwise no prerequisite is strictly newer than any target: equal times do not make the rule stale |
| Staleness.HeaderDecision | io.sloeber.ManagedBuild/src/io/sloeber/autoBuild/extensionPoint/providers/MakeRule.java:412-420 | when the earlier checks pass, the rule is stale exactly when the newest header time is at least the oldest target time, and fresh otherwise |
| Recipes.SingleTarget | io.sloeber.ManagedBuild/src/io/sloeber/autoBuild/extensionPoint/providers/MakeRule.java:206-208 | the one target file of a rule that has exactly one |
| Recipes.NameListsShape | io.sloeber.ManagedBuild/src/io/sloeber/autoBuild/extensionPoint/providers/MakeRule.java:210-221 | the name lists have a key exactly for each command variable with prerequisite files, holding the names of exactly those files |
| Recipes.Flags | io.sloeber.ManagedBuild/src/io/sloeber/autoBuild/extensionPoint/providers/MakeRule.java:222-228 | the loop over the input categories and their files collects a flag exactly when the tool gives it for some prerequisite and the target; a throwing call adds nothing |
| Recipes.FlagsAddPrerequisite | io.sloeber.ManagedBuild/src/io/sloeber/autoBuild/extensionPoint/providers/MakeRule.java:222-228 | adding a prerequisite adds exactly the flags the tool gives for it; when that call throws, the flags stay the same |
| Recipes.ResolveLine | io.sloeber.ManagedBuild/src/io/sloeber/autoBuild/extensionPoint/providers/MakeRule.java:235-242 | a line whose resolution is not blank becomes that resolution; otherwise the raw line is used; a line blank both ways is dropped |
| Recipes.ResolveLines | io.sloeber.ManagedBuild/src/io/sloeber/autoBuild/extensionPoint/providers/MakeRule.java:234-244 | no more lines than the tool gave, none blank |
| Recipes.ResolveLinesAppend | io.sloeber.ManagedBuild/src/io/sloeber/autoBuild/extensionPoint/providers/MakeRule.java:234-244 | resolution works line by line in tool order: resolving two runs of lines is resolving each and concatenating |
| Recipes.ResolveOneLine | io.sloeber.ManagedBuild/src/io/sloeber/autoBuild/extensionPoint/providers/MakeRule.java:235-242 | a single line yields its resolved form or nothing |
| Recipes.ResolveLinesMembership | io.sloeber.ManagedBuild/src/io/sloeber/autoBuild/extensionPoint/providers/MakeRule.java:234-244 | a line is kept exactly when it is the resolved form of some tool line |
| Recipes.GetRecipes | io.sloeber.ManagedBuild/src/io/sloeber/autoBuild/extensionPoint/providers/MakeRule.java:202-205 | a rule failing validation has no recipes; no recipe is blank |
| Recipes.ValidRuleRecipes | io.sloeber.ManagedBuild/src/io/sloeber/autoBuild/extensionPoint/providers/MakeRule.java:202-244 | a valid rule's recipes are the tool's lines for its one target, resolved in order, never more than the tool gave |
| CommandLines.EffectivePattern | io.sloeber.ManagedBuild/src/io/sloeber/autoBuild/extensionPoint/providers/MakeRule.java:277-280 | a null or empty pattern is replaced by the default one; any other is kept |
| CommandLines.ToolCommandIsTrimmedOrRaw | io.sloeber.ManagedBuild/src/io/sloeber/autoBuild/extensionPoint/providers/MakeRule.java:265-269 | the command handed to the pattern is the raw command or a non-empty text that trimming leaves alone; a trimmed command that resolves to itself is kept |
| CommandLines.QuoteOutputRoundTrip | io.sloeber.ManagedBuild/src/io/sloeber/autoBuild/extensionPoint/providers/MakeRule.java:282-286 | removing the quotes added to the output name gives the name back; the command shows a leading quote exactly when the name is non-empty and not a `$(` macro reference |
| CommandLines.QuoteInput | io.sloeber.ManagedBuild/src/io/sloeber/autoBuild/extensionPoint/providers/MakeRule.java:291-295 | an input is quoted unless it starts with `$(` |
| CommandLines.QuotedInputs | io.sloeber.ManagedBuild/src/io/sloeber/autoBuild/extensionPoint/providers/MakeRule.java:289-298 | empty inputs are skipped: the result is empty exactly when every input is; every part starts with a quote or `$` |
| CommandLines.AccumulatedIsJoin | io.sloeber.ManagedBuild/src/io/sloeber/autoBuild/extensionPoint/providers/MakeRule.java:288-298 | the loop's text is the quoted non-empty inputs joined by blanks, with a blank after each |
| CommandLines.InputsStringIsJoin | io.sloeber.ManagedBuild/src/io/sloeber/autoBuild/extensionPoint/providers/MakeRule.java:288-300 | the inputs string is the quoted non-empty inputs joined by single blanks, then trimmed |
| CommandLines.InputsStringQuotedOnly | io.sloeber.ManagedBuild/src/io/sloeber/autoBuild/extensionPoint/providers/MakeRule.java:288-300 | without macro references, trimming removes nothing beyond the trailing blank |
| CommandLines.ReplacePlaceholders | io.sloeber.ManagedBuild/src/io/sloeber/autoBuild/extensionPoint/providers/MakeRule.java:304-309 | a pattern without any placeholder comes out unchanged |
| CommandLines.ValuePlaceholderIsReplacedAgain | io.sloeber.ManagedBuild/src/io/sloeber/autoBuild/extensionPoint/providers/MakeRule.java:304-309 | each replacement rescans what the earlier ones put in: a command named `${FLAGS}` in the pattern `${COMMAND}` turns into the flags |
| CommandLines.ExpandCommandLinePattern | io.sloeber.ManagedBuild/src/io/sloeber/autoBuild/extensionPoint/providers/MakeRule.java:274-311 | a chosen pattern without any placeholder is the command line itself |
| CommandLines.ReplaceIsSubstitute | io.sloeber.ManagedBuild/src/io/sloeber/autoBuild/extensionPoint/providers/MakeRule.java:304-309 | one `String.replace` of a placeholder replaces exactly the occurrences of that placeholder in a well-formed pattern |
| CommandLines.ExpandFillsPlaceholders | io.sloeber.ManagedBuild/src/io/sloeber/autoBuild/extensionPoint/providers/MakeRule.java:302-311 | expansion fills `${COMMAND}`, `${FLAGS}`, `${OUTPUT_FLAG}`, `${OUTPUT}` and `${INPUTS}` with the command, the blank-joined flags, the output flag, the quoted output and the inputs string, and leaves every other placeholder |
| CommandLines.ExpandDefault | io.sloeber.ManagedBuild/src/io/sloeber/autoBuild/extensionPoint/providers/MakeRule.java:277-311 | without a pattern, and for a command, flags, output flag and output name without `$`, the command line is the command, the flags, the output flag with `${OUTPUT_PREFIX}` left in and the quoted output, then the inputs, separated by blanks |
| FileSystems.CreateFolder | io.sloeber.autoBuild/src/io/sloeber/autoBuild/extensionPoint/providers/InternalBuildRunner.java:73-82 | afterwards the folder exists; only folders of its enclosing chain are added, each with the current time; existing folders keep their times; files are untouched; an existing folder changes nothing |
| FileSystems.CreateFolderAddsChain | io.sloeber.autoBuild/src/io/sloeber/autoBuild/extensionPoint/providers/InternalBuildRunner.java:73-82 | in a workspace whose folders' parents exist, exactly the folder's enclosing chain is added, and that property is kept |
| FileSystems.DeleteFile | io.sloeber.autoBuild/src/io/sloeber/autoBuild/extensionPoint/providers/InternalBuildRunner.java:182-184 | the file and its text are gone; every other file keeps its stamp and its text; every folder and the clock are unchanged |
| BuildRunner.ExitCodeZeroIff | io.sloeber.autoBuild/src/io/sloeber/autoBuild/extensionPoint/providers/InternalBuildRunner.java:295-311 | a command succeeds exactly when it started, exited with 0, and its wait was OK or errors do not stop the build |
| BuildRunner.ExitCodeIgnoresWaitWithoutStop | io.sloeber.autoBuild/src/io/sloeber/autoBuild/extensionPoint/providers/InternalBuildRunner.java:301-305 | without stop-on-first-error the wait status never changes the exit code |
| BuildRunner.RunRecipes | io.sloeber.autoBuild/src/io/sloeber/autoBuild/extensionPoint/providers/InternalBuildRunner.java:257-265 | the recipes launched are a prefix of the rule's recipes: all of them without stop-on-first-error; with it, all before the last succeeded and an early stop means the last failed |
| BuildRunner.RunRecipesStopsAtFirstFailure | io.sloeber.autoBuild/src/io/sloeber/autoBuild/extensionPoint/providers/InternalBuildRunner.java:257-265 | with stop-on-first-error, the launched recipes run up to and including the first failing one |
| BuildRunner.RunRecipesAllSucceed | io.sloeber.autoBuild/src/io/sloeber/autoBuild/extensionPoint/providers/InternalBuildRunner.java:257-265 | when none fails, every recipe is launched |
| BuildRunner.PrepareTarget | io.sloeber.autoBuild/src/io/sloeber/autoBuild/extensionPoint/providers/InternalBuildRunner.java:176-185 | afterwards the target file does not exist and its folder does; every other file keeps its stamp, existence and text; existing folders keep their times; every new folder is in the target folder's chain |
| BuildRunner.PrepareTargets | io.sloeber.autoBuild/src/io/sloeber/autoBuild/extensionPoint/providers/InternalBuildRunner.java:174-190 | afterwards no target exists and every target's folder does; every file that is not a target keeps its stamp, existence and text; existing folders keep their times; every new folder is in some target folder's chain |
| BuildRunner.PrepareTargetFolders | io.sloeber.autoBuild/src/io/sloeber/autoBuild/extensionPoint/providers/InternalBuildRunner.java:176-180 | preparing one target adds exactly its folder's enclosing chain |
| BuildRunner.PrepareTargetsFolders | io.sloeber.autoBuild/src/io/sloeber/autoBuild/extensionPoint/providers/InternalBuildRunner.java:174-190 | preparing all targets adds exactly the union of their folder chains, whatever order the targets are visited in |
| BuildRunner.RunGroup | io.sloeber.autoBuild/src/io/sloeber/autoBuild/extensionPoint/providers/InternalBuildRunner.java:160-194 | a group submits exactly its rules that need executing, in list order, each launching its recipes as the rule runner does; fresh rules are skipped; afterwards every submitted target is gone and has its folder, every other file keeps its stamp, existence and text, existing folders keep their times, the clock is unchanged, and the only new folders are those the submitted targets need |
| BuildRunner.GroupSubmissionsUnique | io.sloeber.autoBuild/src/io/sloeber/autoBuild/extensionPoint/providers/InternalBuildRunner.java:161-192 | that description of a group's submissions admits one answer only |
| BuildRunner.RunGroups | io.sloeber.autoBuild/src/io/sloeber/autoBuild/extensionPoint/providers/InternalBuildRunner.java:156-207 | each group run carries a rule and submits as described; the loop ends at a group no rule carries, or after one group in an auto build of the object files |
| BuildRunner.GroupsUpToFirstGap | io.sloeber.autoBuild/src/io/sloeber/autoBuild/extensionPoint/providers/InternalBuildRunner.java:137-207 | starting at sequence id 0, groups 0 up to the first id no rule carries run, one after another; an auto build of the object files runs group 0 only |
| BuildRunner.OutsideGroupsNeverRun | io.sloeber.autoBuild/src/io/sloeber/autoBuild/extensionPoint/providers/InternalBuildRunner.java:156-165 | a rule with a negative sequence id, or one at or beyond the first gap, is never submitted |
| BuildRunner.FreshGroupKeepsLoopGoing | io.sloeber.autoBuild/src/io/sloeber/autoBuild/extensionPoint/providers/InternalBuildRunner.java:165-170 | a group whose rules are all fresh submits nothing yet keeps the loop going to the next group |
| BuildRunner.FailuresDoNotStopGroups | io.sloeber.autoBuild/src/io/sloeber/autoBuild/extensionPoint/providers/InternalBuildRunner.java:139-207 | which rules each group submits, and how many groups run, does not depend on what the recipes do |
| BuildRunner.SameScheduleSameRules | io.sloeber.autoBuild/src/io/sloeber/autoBuild/extensionPoint/providers/InternalBuildRunner.java:161-170 | one group's submitted rules depend only on the rules' groups and staleness |
| BuildRunner.DeleteFiles | io.sloeber.autoBuild/src/io/sloeber/autoBuild/extensionPoint/providers/InternalBuildRunner.java:126-129 | a clean build removes exactly the build files, with their text, and keeps every other file's text, every folder and the clock |
| BuildRunner.RunStep | io.sloeber.autoBuild/src/io/sloeber/autoBuild/extensionPoint/providers/InternalBuildRunner.java:142-150 | a step is launched exactly when its resolved line is not empty, and then reports the command's exit code |
| BuildRunner.InvokeBuild | io.sloeber.autoBuild/src/io/sloeber/autoBuild/extensionPoint/providers/InternalBuildRunner.java:94-233 | it always returns false; a clean build launches nothing; a failed pre-build step ends the build exactly under stop-on-first-error, before any group; otherwise the groups run from 0 and a failing post-build step ends the build |
| BuildRunner.PreStepFailureIgnoredWithoutStop | io.sloeber.autoBuild/src/io/sloeber/autoBuild/extensionPoint/providers/InternalBuildRunner.java:150-155 | without stop-on-first-error the pre-build step's outcome never changes which groups run |
| BuildRunner.InvokeClean | io.sloeber.autoBuild/src/io/sloeber/autoBuild/extensionPoint/providers/InternalBuildRunner.java:84-91 | the build folder exists afterwards, empty, with the current time; every file and folder outside it keeps its stamp or time and its text, and the clock is unchanged; returns false |
| BuildRunner.InvokeCleanIdempotent | io.sloeber.autoBuild/src/io/sloeber/autoBuild/extensionPoint/providers/InternalBuildRunner.java:84-91 | cleaning twice leaves the workspace as cleaning once |
| LinkObjectNames.OutputFileName | io.sloeber.ManagedBuild/src/io/sloeber/autoBuild/extensionPoint/providers/LinkObjectNameProvider.java:19-25 | archives give no name; any other input gives its file name followed by the two characters `.o` |
| LinkObjectNames.StripExtensionGivesName | io.sloeber.ManagedBuild/src/io/sloeber/autoBuild/extensionPoint/providers/LinkObjectNameProvider.java:12-24 | removing the `.o` extension gives back the input's file name |
| LinkObjectNames.OutputNamesInjective | io.sloeber.ManagedBuild/src/io/sloeber/autoBuild/extensionPoint/providers/LinkObjectNameProvider.java:24 | inputs with different file names never get the same object name |
| LinkObjectNames.OutputFileNameIgnoresContext | io.sloeber.ManagedBuild/src/io/sloeber/autoBuild/extensionPoint/providers/LinkObjectNameProvider.java:19-25 | the result depends on the input file only, not on the configuration or the types |
| PrivateLibraries.CalcFqn | io.sloeber.core/src/io/sloeber/core/internal/ArduinoPrivateLibraryVersion.java:66-69 | for a name that is one plain segment, the fully qualified name is the library root, then the private segment, then the name |
| PrivateLibraries.FromInstallPath | io.sloeber.core/src/io/sloeber/core/internal/ArduinoPrivateLibraryVersion.java:16-20 | the name is the install path's last segment; a path with no segment fails |
| PrivateLibraries.Candidate | io.sloeber.core/src/io/sloeber/core/internal/ArduinoPrivateLibraryVersion.java:27-29 | for a configured folder without `.` or `..` segments and a plain name, the candidate is the folder's segments followed by the name |
| PrivateLibraries.DotsInLibraryFolderAreResolved | io.sloeber.core/src/io/sloeber/core/internal/ArduinoPrivateLibraryVersion.java:27-29 | a configured folder such as `/libs/./private/../mine` is canonicalised to `libs/mine` before the name is appended |
| PrivateLibraries.FindInstallPath | io.sloeber.core/src/io/sloeber/core/internal/ArduinoPrivateLibraryVersion.java:26-34 | the install path is the first configured folder, in order, that holds the library; there is none exactly when no folder does |
| PrivateLibraries.FromSaveString | io.sloeber.core/src/io/sloeber/core/internal/ArduinoPrivateLibraryVersion.java:22-35 | the name is the last `;`-separated part, holds no `;`, and the install path comes from the search; a string of separators alone fails |
| PrivateLibraries.SaveStringRejectedIff | io.sloeber.core/src/io/sloeber/core/internal/ArduinoPrivateLibraryVersion.java:23-24 | a save string fails exactly when it is non-empty and made of separators alone |
| PrivateLibraries.SaveStringNameIsLastPart | io.sloeber.core/src/io/sloeber/core/internal/ArduinoPrivateLibraryVersion.java:23-24 | the name is the text after the last separator, ignoring trailing separators |
| PrivateLibraries.PlainSaveStringIsName | io.sloeber.core/src/io/sloeber/core/internal/ArduinoPrivateLibraryVersion.java:23-24 | a save string without separator is the library name itself |
| PrivateLibraries.BreadCrumbsOfPlainName | io.sloeber.core/src/io/sloeber/core/internal/ArduinoPrivateLibraryVersion.java:66-74 | for a plain name, the breadcrumbs are the library root, the private segment and the name, so the last breadcrumb is the name |
| PrivateLibraries.ParentNameEscapesPrivateSegment | io.sloeber.core/src/io/sloeber/core/internal/ArduinoPrivateLibraryVersion.java:66-69 | the name `..` climbs out of the private segment, so the library's name collapses to the library root |
| PrivateLibraries.ExamplePath | io.sloeber.core/src/io/sloeber/core/internal/ArduinoPrivateLibraryVersion.java:58-64 | the capitalised examples folder when it exists, the lower-case one otherwise; a library without an install path has none |
| PrivateLibraries.ExamplePathInsideInstallPath | io.sloeber.core/src/io/sloeber/core/internal/ArduinoPrivateLibraryVersion.java:58-64 | the examples folder is always directly inside the install folder, under one of the two names |
| PrivateLibraries.PrivateNotHardware | io.sloeber.core/src/io/sloeber/core/internal/ArduinoPrivateLibraryVersion.java:47-55 | every private library is private and not a hardware library |
| ManagedProjects.NewProject | io.sloeber.ManagedBuild/src/io/sloeber/schema/internal/ManagedProject.java:56-58 | a new project has no configurations, no type and is clean |
| ManagedProjects.GetConfiguration | io.sloeber.ManagedBuild/src/io/sloeber/schema/internal/ManagedProject.java:142-144 | a configuration is found exactly when its id is registered |
| ManagedProjects.GetConfigurations | io.sloeber.ManagedBuild/src/io/sloeber/schema/internal/ManagedProject.java:150-154 | one configuration per registered id, in the order the ids were first added |
| ManagedProjects.AddConfiguration | io.sloeber.ManagedBuild/src/io/sloeber/schema/internal/ManagedProject.java:228-231 | afterwards the id finds this configuration and every other id finds what it found before; a new id goes last, a known id keeps its place; type, type id, id, name and dirty flag are unchanged |
| ManagedProjects.RemoveConfiguration | io.sloeber.ManagedBuild/src/io/sloeber/schema/internal/ManagedProject.java:160-167 | afterwards the id finds nothing and every other id finds what it found before; removing an absent id changes nothing; type, type id, id, name and dirty flag are unchanged |
| ManagedProjects.AddNewAppends | io.sloeber.ManagedBuild/src/io/sloeber/schema/internal/ManagedProject.java:228-231 | a configuration with a new id is appended to the configurations |
| ManagedProjects.AddExistingReplaces | io.sloeber.ManagedBuild/src/io/sloeber/schema/internal/ManagedProject.java:228-231 | a configuration with a known id replaces the old one in place |
| ManagedProjects.AddAllKeepsInsertionOrder | io.sloeber.ManagedBuild/src/io/sloeber/schema/internal/ManagedProject.java:38-39 | adding configurations with new, distinct ids lists them after the old ones, in the order they were added |
| ManagedProjects.AddKeepsKeyedById | io.sloeber.ManagedBuild/src/io/sloeber/schema/internal/ManagedProject.java:228-231 | every configuration stays registered under its own id |
| ManagedProjects.RemoveKeepsOrder | io.sloeber.ManagedBuild/src/io/sloeber/schema/internal/ManagedProject.java:160-167 | removing an id drops only that configuration and keeps the order of the rest |
| ManagedProjects.IdsAreKeys | io.sloeber.ManagedBuild/src/io/sloeber/schema/internal/ManagedProject.java:150-154 | the ids of the listed configurations are the registered ids, in order |
| ManagedProjects.SetProjectType | io.sloeber.ManagedBuild/src/io/sloeber/schema/internal/ManagedProject.java:281-290 | afterwards the project has the given type; setting the type it already has returns the project as it was, type id included; a change of type sets the type id to the type's id, or clears it with the type; nothing else changes |
| ManagedProjects.SetProjectTypeKeepsSync | io.sloeber.ManagedBuild/src/io/sloeber/schema/internal/ManagedProject.java:281-290 | a project whose type id agrees with its type keeps that agreement |
| ManagedProjects.SerializeProjectInfo | io.sloeber.ManagedBuild/src/io/sloeber/schema/internal/ManagedProject.java:91-104 | the id is always written, the name only when there is one, the type's id only when there is a type; other attributes are kept and the project is clean |
| ManagedProjects.LoadFromProject | io.sloeber.ManagedBuild/src/io/sloeber/schema/internal/ManagedProject.java:71-89 | id, name and type id are read; the load fails exactly when a non-empty type id is present, and then the type is cleared; the configurations and the dirty flag are unchanged |
| ManagedProjects.SerializeThenLoad | io.sloeber.ManagedBuild/src/io/sloeber/schema/internal/ManagedProject.java:71-104 | loading what was written gives back the id, and the name when there was one; the load fails exactly when a non-empty type id ended up in the element |
| ManagedProjects.LoadedTypeIdOutlivesClearing | io.sloeber.ManagedBuild/src/io/sloeber/schema/internal/ManagedProject.java:80-86 | after a failed load the type id no longer agrees with the type, and setting no type leaves the stale id in place |

## Left out

- The thread pool, the 20-minute `awaitTermination` limit and the error
  parser's de-duplication are left out. Workers are concurrency, and the
  model runs each group's submitted rules one after another in list order.
- Starting processes is left out: tokenising a command line
  (`CommandLineUtil`), the console, and the output and error streams are all
  foreign I/O. Each command line carries its outcome (`BuildRunner.Launch`).
- Macro resolution (`resolve`), `GetNiceFileName` and the tool's queries are
  parameters. The queries are command flags, recipe lines, dependency files
  and the command-line pattern. They appear as `Recipes.RecipeEnv`,
  `MakeRules.Tool.dependencyFiles` and the arguments of
  `CommandLines.ExpandCommandLinePattern`.
- `ArchiveNameProvider.isArchiveInputFile` and
  `InstancePreferences.getPrivateLibraryPaths` are parameters. Whether a path
  exists on disk is a set of paths.
- Reading a dependency file from disk is left out: its text is the file
  system's list of lines.
- The effect of recipes on the workspace is left out. Each rule carries its
  staleness decision, made by `Staleness.NeedsExecuting`, instead of
  re-evaluating it against the workspace after earlier groups ran. A recipe
  writes files, which the model cannot know.
- Exceptions are modelled for three cases:
  - an `IOException` in `getDepFileTimeStamp`;
  - a throwing `getToolCommandFlags`;
  - a `null` process.

  The two catches in the build runner are not modelled, and neither are
  exceptions that leave `invokeBuild`.
- BuildRunner.PrepareTargets: cannot fail in the model. In the code, any
  exception from `createFolder` or `IFile.delete` is caught once for the
  whole loop. The remaining targets of that rule are then skipped, and the
  rule is still submitted.
- BuildRunner.RunGroup: its workspace clauses take every target of a
  submitted rule as prepared, since preparing a target cannot fail in the
  model.
- BuildRunner.RunRecipes: cannot fail in the model. In the code, an
  `IOException` from `getRecipes` or `launchCommand` is caught in
  `RuleRunner.run` and ends that rule's recipes.
- FileSystems.CreateFolder: every folder the build creates gets the one
  clock value of the workspace. Deleting a file or creating a sub-folder
  does not change the enclosing folder's time, as it would on disk.
- Order is dropped in two places:
  - The flags of `getRecipes` form a `LinkedHashSet`. The model keeps them
    as a set, so their order is lost.
  - `expandCommandLinePattern` takes the flags and inputs as sequences in
    iteration order. The code takes Java sets, whose order is not defined.
- Announcements, progress monitors, markers and refreshing the project are
  left out: they are console and UI output.
- `isTool`, `getSequenceGroupID` and the trivial getters have no contract.
  They only read a field.
- `PrivateLibraries.CalcFqn`: the contract gives the segment form only for a
  name that is one plain segment. Other names are canonicalised by
  `IPath.append`, which is shown for `..` in
  `PrivateLibraries.ParentNameEscapesPrivateSegment`.
- `CommandLines.ExpandCommandLinePattern`: its own contract covers only
  patterns without placeholders. The full characterisation
  (`CommandLines.ExpandFillsPlaceholders`) assumes a well-formed pattern and
  values without `$`. Otherwise a replaced value could create or hide a
  later placeholder (`CommandLines.ValuePlaceholderIsReplacedAgain`).
- `CommandLines.ReplacePlaceholders`: the same restriction. Its own
  contract covers only patterns without placeholders, and the filled form
  is proved only for values without `$`.
- `CommandLines.ExpandDefault`: the same restriction. The default pattern's
  command line is spelled out only for a command, flags, output flag and
  output name without `$`.
- `BuildRunner.RunGroups`: the contract describes the submissions of every
  group, not the resulting workspace. The workspace effect of preparing one
  rule's targets is stated by `BuildRunner.PrepareTargetsFolders`.
- `BuildRunner.InvokeClean`: recreates the build folder even when its
  enclosing folder is missing. In the code `IFolder.create` then throws and
  the exception leaves `invokeClean`; the model has no failure for it.
- `BuildRunner.InvokeBuild`: the workspace after a clean build is stated by
  `BuildRunner.DeleteFiles`, not by `InvokeBuild`'s own contract.

=== FILE: build_runner.dfy ===
/**
  The internal build runner, as a sequential state machine.

  A build runs an optional pre-build step, then the rules group by group
  (sequence ids 0, 1, 2, ... until the first id no rule carries), then an
  optional post-build step. Within a group every stale rule has its target
  folders created and its old target files deleted, and is then handed to
  a worker that launches its recipes in order.

  The worker pool is abstracted to the list of rules each group submits
  (in the order the rules are visited), each with the recipes its worker
  launches. Launching a command is foreign I/O: each command line comes
  with its `Launch` outcome. Whether a rule needs executing is decided by
  `Staleness.NeedsExecuting` against the live workspace; the runner takes
  that decision as part of the rule.
 */
module BuildRunner {
  import opened Wrappers
  import opened Paths
  import opened FileSystems

  // ---------------------------------------------------------------------
  // launchCommand

  /**
    What happened to one launched command line: the launcher returned no
    process, or it did, and `waitAndRead` reported OK or not and the process
    ended with `exitValue`.
   */
  datatype Launch = NotStarted | Started(waitOk: bool, exitValue: int)

  /** The exit code `launchCommand` reports when no usable process result exists. */
  const LaunchFailed: int := -999

  /** `launchCommand`: the exit code of one command line. */
  function ExitCode(l: Launch, stopOnFirstError: bool): (code: int)
    ensures l.NotStarted? ==> code == LaunchFailed
    ensures l.Started? && (l.waitOk || !stopOnFirstError) ==> code == l.exitValue
    ensures l.Started? && !l.waitOk && stopOnFirstError ==> code == LaunchFailed
  {
    match l
    case NotStarted => LaunchFailed
    case Started(waitOk, exitValue) =>
      if !waitOk && stopOnFirstError then LaunchFailed else exitValue
  }

  /**
    A command succeeds exactly when a process was started, exited with 0,
    and either its wait was OK or errors do not stop the build.
   */
  lemma ExitCodeZeroIff(l: Launch, stopOnFirstError: bool)
    ensures ExitCode(l, stopOnFirstError) == 0 <==>
              l.Started? && l.exitValue == 0 && (l.waitOk || !stopOnFirstError)
  {
  }

  /** Without stop-on-first-error the wait status never changes the exit code. */
  lemma ExitCodeIgnoresWaitWithoutStop(exitValue: int, waitOk: bool)
    ensures ExitCode(Started(waitOk, exitValue), false) == ExitCode(Started(true, exitValue), false) == exitValue
  {
  }

  // ---------------------------------------------------------------------
  // RuleRunner.run

  /** A recipe line and what launching it does. */
  datatype Recipe = Recipe(line: string, launch: Launch)

  predicate Fails(rc: Recipe, stopOnFirstError: bool) {
    ExitCode(rc.launch, stopOnFirstError) != 0
  }

  /**
    `RuleRunner.run`: the recipes launched, in order. A failing recipe ends
    the rule only when errors stop the build; everything before the last
    launched recipe succeeded in that case, and stopping early means the
    last one failed.
   */
  function RunRecipes(recipes: seq<Recipe>, stopOnFirstError: bool): (ran: seq<Recipe>)
    ensures |ran| <= |recipes| && ran == recipes[..|ran|]
    ensures !stopOnFirstError ==> ran == recipes
    ensures stopOnFirstError ==> forall k :: 0 <= k < |ran| - 1 ==> !Fails(ran[k], true)
    ensures stopOnFirstError && |ran| < |recipes| ==> 0 < |ran| && Fails(ran[|ran| - 1], true)
  {
    if |recipes| == 0 then []
    else if stopOnFirstError && Fails(recipes[0], true) then [recipes[0]]
    else [recipes[0]] + RunRecipes(recipes[1..], stopOnFirstError)
  }

  /** With stop-on-first-error, the first failing recipe is the last one launched. */
  lemma {:induction false} RunRecipesStopsAtFirstFailure(recipes: seq<Recipe>, n: nat)
    requires n < |recipes| && Fails(recipes[n], true)
    requires forall k :: 0 <= k < n ==> !Fails(recipes[k], true)
    ensures RunRecipes(recipes, true) == recipes[..n + 1]
    decreases n
  {
    if n > 0 {
      assert !Fails(recipes[0], true);
      RunRecipesStopsAtFirstFailure(recipes[1..], n - 1);
      assert recipes[..n + 1] == [recipes[0]] + recipes[1..][..n];
    }
  }

  /** When no recipe fails, all of them are launched. */
  lemma {:induction false} RunRecipesAllSucceed(recipes: seq<Recipe>, stopOnFirstError: bool)
    requires forall k :: 0 <= k < |recipes| ==> !Fails(recipes[k], stopOnFirstError)
    ensures RunRecipes(recipes, stopOnFirstError) == recipes
    decreases |recipes|
  {
    if |recipes| > 0 {
      RunRecipesAllSucceed(recipes[1..], stopOnFirstError);
      assert recipes == [recipes[0]] + recipes[1..];
    }
  }

  // ---------------------------------------------------------------------
  // Preparing a stale rule's targets

  /**
    One target: its enclosing folder is created when it is a folder (not
    the project itself), then an existing target file is deleted.
   */
  function PrepareTarget(fs: FileSystem, t: Path): (r: FileSystem)
    ensures !FileExists(r, t)
    ensures IsFolderPath(Parent(t)) ==> Parent(t) in r.folders
    ensures forall g :: g != t ==> Stamp(r, g) == Stamp(fs, g) && (FileExists(r, g) <==> FileExists(fs, g))
    ensures fs.folders.Keys <= r.folders.Keys && r.clock == fs.clock
    ensures forall p :: p in r.folders && p !in fs.folders ==> p in Chain(Parent(t))
    ensures forall p :: p in fs.folders ==> r.folders[p] == fs.folders[p]
    ensures forall g :: g != t ==> SameText(r, fs, g)
  {
    var parent := Parent(t);
    var fs1 := if IsFolderPath(parent) then CreateFolder(fs, parent) else fs;
    if FileExists(fs1, t) then DeleteFile(fs1, t) else fs1
  }

  /** The loop over a rule's target files. */
  function PrepareTargets(fs: FileSystem, targets: seq<Path>): (r: FileSystem)
    ensures forall t :: t in targets ==> !FileExists(r, t)
    ensures forall t :: t in targets && IsFolderPath(Parent(t)) ==> Parent(t) in r.folders
    ensures forall g :: g !in targets ==> Stamp(r, g) == Stamp(fs, g) && (FileExists(r, g) <==> FileExists(fs, g))
    ensures fs.folders.Keys <= r.folders.Keys && r.clock == fs.clock
    ensures forall p :: p in r.folders && p !in fs.folders ==> exists t :: t in targets && p in Chain(Parent(t))
    ensures forall p :: p in fs.folders ==> r.folders[p] == fs.folders[p]
    ensures forall g :: g !in targets ==> SameText(r, fs, g)
    decreases |targets|
  {
    if |targets| == 0 then fs
    else PrepareTargets(PrepareTarget(fs, targets[0]), targets[1..])
  }

  /** Every folder some target needs: the enclosing-folder chains of all targets. */
  function NeededFolders(targets: set<Path>): set<Path> {
    set t, g | t in targets && g in Chain(Parent(t)) :: g
  }

  /** The folders `PrepareTarget` adds to a snapshot whose enclosing folders always exist. */
  lemma PrepareTargetFolders(fs: FileSystem, t: Path)
    requires AncestorClosed(fs)
    ensures PrepareTarget(fs, t).folders.Keys == fs.folders.Keys + Chain(Parent(t))
    ensures AncestorClosed(PrepareTarget(fs, t))
  {
    var parent := Parent(t);
    if IsFolderPath(parent) {
      CreateFolderAddsChain(fs, parent);
    } else {
      assert Chain(parent) == {};
    }
  }

  /**
    On a snapshot where enclosing folders always exist, preparing the
    targets adds exactly the folders they need, whatever the order the
    targets are visited in, and keeps that property.
   */
  lemma {:induction false} PrepareTargetsFolders(fs: FileSystem, targets: seq<Path>)
    requires AncestorClosed(fs)
    ensures PrepareTargets(fs, targets).folders.Keys == fs.folders.Keys + NeededFolders(set t | t in targets)
    ensures AncestorClosed(PrepareTargets(fs, targets))
    decreases |targets|
  {
    if |targets| > 0 {
      var fs1 := PrepareTarget(fs, targets[0]);
      PrepareTargetFolders(fs, targets[0]);
      PrepareTargetsFolders(fs1, targets[1..]);
      NeededFoldersCons(targets);
      assert PrepareTargets(fs, targets) == PrepareTargets(fs1, targets[1..]);
    }
  }

  lemma NeededFoldersCons(targets: seq<Path>)
    requires |targets| > 0
    ensures NeededFolders(set t | t in targets) == Chain(Parent(targets[0])) + NeededFolders(set t | t in targets[1..])
  {
    var all := set t | t in targets;
    var rest := set t | t in targets[1..];
    assert all == {targets[0]} + rest;
  }

  // ---------------------------------------------------------------------
  // One group

  /**
    A rule as the runner sees it: its sequence group, whether it needs
    executing, its target files in the order the runner visits them, and
    its recipes.
   */
  datatype RunnerRule = RunnerRule(group: int, stale: bool, targets: seq<Path>, recipes: seq<Recipe>)

  /** A rule handed to a worker (by its position in the rule list) and the recipes the worker launched. */
  datatype Submission = Submission(rule: nat, ran: seq<Recipe>)

  datatype GroupRun = GroupRun(submitted: seq<Submission>, fs: FileSystem)

  /** The rule at `k` is submitted in group `id`: it belongs to the group and needs executing. */
  predicate Submits(rules: seq<RunnerRule>, id: int, k: int) {
    0 <= k < |rules| && rules[k].group == id && rules[k].stale
  }

  /** The positions of the submitted rules, in submission order. */
  function RuleIds(subs: seq<Submission>): (ids: seq<nat>)
    ensures |ids| == |subs| && forall j :: 0 <= j < |subs| ==> ids[j] == subs[j].rule
  {
    seq(|subs|, j requires 0 <= j < |subs| => subs[j].rule)
  }

  predicate Increasing(s: seq<nat>) {
    forall a, b :: 0 <= a < b < |s| ==> s[a] < s[b]
  }

  /** Each worker launches its rule's recipes as `RuleRunner.run` does. */
  predicate RanAsRule(rules: seq<RunnerRule>, stopOnFirstError: bool, subs: seq<Submission>) {
    forall j :: 0 <= j < |subs| ==> subs[j].rule < |rules| && subs[j].ran == RunRecipes(rules[subs[j].rule].recipes, stopOnFirstError)
  }

  /**
    Reference for one group: the submissions are exactly the rules from
    position `from` on that belong to group `id` and need executing, in
    list order, each with the recipes its worker launches.
   */
  ghost predicate GroupSubmissions(rules: seq<RunnerRule>, id: int, stopOnFirstError: bool, from: nat, subs: seq<Submission>) {
    && Increasing(RuleIds(subs))
    && (forall k: nat :: k in RuleIds(subs) <==> from <= k && Submits(rules, id, k))
    && RanAsRule(rules, stopOnFirstError, subs)
  }

  /** Submitting the rule at `from` ahead of the submissions from `from + 1` on. */
  lemma SubmitFirst(rules: seq<RunnerRule>, id: int, stopOnFirstError: bool, from: nat, rest: seq<Submission>)
    requires Submits(rules, id, from)
    requires GroupSubmissions(rules, id, stopOnFirstError, from + 1, rest)
    ensures GroupSubmissions(rules, id, stopOnFirstError, from,
              [Submission(from, RunRecipes(rules[from].recipes, stopOnFirstError))] + rest)
  {
    var subs := [Submission(from, RunRecipes(rules[from].recipes, stopOnFirstError))] + rest;
    var ids := RuleIds(rest);
    assert RuleIds(subs) == [from] + ids;
    forall j | 0 <= j < |ids| ensures from < ids[j] {
      assert ids[j] in ids;
    }
    IncreasingCons(from, ids);
  }

  lemma IncreasingCons(x: nat, s: seq<nat>)
    requires Increasing(s) && forall j :: 0 <= j < |s| ==> x < s[j]
    ensures Increasing([x] + s)
  {
    forall a, b | 0 <= a < b < |s| + 1 ensures ([x] + s)[a] < ([x] + s)[b] {
      if a > 0 {
        assert ([x] + s)[a] == s[a - 1];
      }
      assert ([x] + s)[b] == s[b - 1];
    }
  }

  /** Skipping the rule at `from`, which this group does not submit. */
  lemma SkipFirst(rules: seq<RunnerRule>, id: int, stopOnFirstError: bool, from: nat, rest: seq<Submission>)
    requires !Submits(rules, id, from)
    requires GroupSubmissions(rules, id, stopOnFirstError, from + 1, rest)
    ensures GroupSubmissions(rules, id, stopOnFirstError, from, rest)
  {
  }

  /** `t` is a target of a rule that group `id` submits from position `from` on. */
  predicate SubmittedTarget(rules: seq<RunnerRule>, id: int, from: nat, t: Path) {
    exists k :: from <= k < |rules| && Submits(rules, id, k) && t in rules[k].targets
  }

  /**
    The `for` loop over the rules for sequence id `id`, from position
    `from`: rules of other groups and rules that need no executing are
    skipped; each other rule's targets are prepared, then it is submitted.
    Afterwards every target of a submitted rule is gone and has its folder;
    every other file is as it was; the only new folders are those the
    submitted targets need.
   */
  function RunGroup(rules: seq<RunnerRule>, id: int, stopOnFirstError: bool, fs: FileSystem, from: nat): (g: GroupRun)
    requires from <= |rules|
    ensures GroupSubmissions(rules, id, stopOnFirstError, from, g.submitted)
    ensures forall t :: SubmittedTarget(rules, id, from, t) ==>
              !FileExists(g.fs, t) && (IsFolderPath(Parent(t)) ==> Parent(t) in g.fs.folders)
    ensures forall t :: !SubmittedTarget(rules, id, from, t) ==>
              Stamp(g.fs, t) == Stamp(fs, t) && (FileExists(g.fs, t) <==> FileExists(fs, t))
    ensures fs.folders.Keys <= g.fs.folders.Keys
    ensures forall p :: p in g.fs.folders && p !in fs.folders ==>
              exists t :: SubmittedTarget(rules, id, from, t) && p in Chain(Parent(t))
    ensures forall p :: p in fs.folders ==> g.fs.folders[p] == fs.folders[p]
    ensures forall t :: !SubmittedTarget(rules, id, from, t) ==> SameText(g.fs, fs, t)
    ensures g.fs.clock == fs.clock
    decreases |rules| - from
  {
    if from == |rules| then GroupRun([], fs)
    else if !Submits(rules, id, from) then
      var g := RunGroup(rules, id, stopOnFirstError, fs, from + 1);
      SkipFirst(rules, id, stopOnFirstError, from, g.submitted);
      g
    else
      var fs1 := PrepareTargets(fs, rules[from].targets);
      var rest := RunGroup(rules, id, stopOnFirstError, fs1, from + 1);
      SubmitFirst(rules, id, stopOnFirstError, from, rest.submitted);
      GroupRun([Submission(from, RunRecipes(rules[from].recipes, stopOnFirstError))] + rest.submitted, rest.fs)
  }

  /** Two increasing sequences with the same elements are equal. */
  lemma {:induction false} IncreasingUnique(a: seq<nat>, b: seq<nat>)
    requires Increasing(a) && Increasing(b)
    requires forall x :: x in a <==> x in b
    ensures a == b
    decreases |a|
  {
    if |a| == 0 {
      NoMembersEmpty(b);
    } else {
      assert a[0] in a;
      assert |b| > 0;
      assert b[0] in b;
      assert a[0] == b[0] by {
        assert a[0] in b;
        assert b[0] in a;
      }
      forall x ensures x in a[1..] <==> x in b[1..] {
        TailMembers(a, x);
        TailMembers(b, x);
      }
      IncreasingUnique(a[1..], b[1..]);
      assert a == [a[0]] + a[1..];
      assert b == [b[0]] + b[1..];
    }
  }

  lemma NoMembersEmpty(s: seq<nat>)
    requires forall x :: x !in s
    ensures s == []
  {
    HeadIsMember(s);
  }

  lemma HeadIsMember(s: seq<nat>)
    ensures |s| > 0 ==> s[0] in s
  {
  }

  /** In an increasing sequence, the tail holds every element but the head. */
  lemma TailMembers(s: seq<nat>, x: nat)
    requires Increasing(s) && |s| > 0
    ensures x in s[1..] <==> x in s && x != s[0]
  {
    if x in s && x != s[0] {
      var j :| 0 <= j < |s| && s[j] == x;
      assert s[1..][j - 1] == x;
    }
    if x in s[1..] {
      var j :| 0 <= j < |s| - 1 && s[1..][j] == x;
      assert s[0] < s[j + 1];
    }
  }

  /** The reference pins the submissions down completely. */
  lemma GroupSubmissionsUnique(rules: seq<RunnerRule>, id: int, stopOnFirstError: bool, from: nat, a: seq<Submission>, b: seq<Submission>)
    requires GroupSubmissions(rules, id, stopOnFirstError, from, a)
    requires GroupSubmissions(rules, id, stopOnFirstError, from, b)
    ensures a == b
  {
    assert forall x: nat :: x in RuleIds(a) <==> x in RuleIds(b);
    IncreasingUnique(RuleIds(a), RuleIds(b));
    assert forall j :: 0 <= j < |a| ==> a[j] == b[j] by {
      forall j | 0 <= j < |a| ensures a[j] == b[j] {
        assert a[j].rule == RuleIds(a)[j] == RuleIds(b)[j] == b[j].rule;
      }
    }
  }

  // ---------------------------------------------------------------------
  // The group loop

  /** Some rule carries sequence id `id`, whether or not it needs executing. */
  predicate InGroup(rules: seq<RunnerRule>, id: int) {
    exists k :: 0 <= k < |rules| && rules[k].group == id
  }

  /** The highest sequence id of any rule, -1 for no rules. */
  function MaxGroup(rules: seq<RunnerRule>): (m: int)
    ensures forall k :: 0 <= k < |rules| ==> rules[k].group <= m
    ensures -1 <= m
  {
    if |rules| == 0 then -1
    else
      var m := MaxGroup(rules[1..]);
      if rules[0].group > m then rules[0].group else m
  }

  /** Reference for the loop: entry `i` is group `id + i`, a group some rule carries, run as its reference says. */
  ghost predicate GroupsFrom(rules: seq<RunnerRule>, stopOnFirstError: bool, id: int, groups: seq<seq<Submission>>) {
    forall i :: 0 <= i < |groups| ==> GroupRan(rules, stopOnFirstError, id + i, groups[i])
  }

  ghost predicate GroupRan(rules: seq<RunnerRule>, stopOnFirstError: bool, id: int, g: seq<Submission>) {
    InGroup(rules, id) && GroupSubmissions(rules, id, stopOnFirstError, 0, g)
  }

  lemma GroupsFromCons(rules: seq<RunnerRule>, stopOnFirstError: bool, id: int, first: seq<Submission>, rest: seq<seq<Submission>>)
    requires InGroup(rules, id) && GroupSubmissions(rules, id, stopOnFirstError, 0, first)
    requires GroupsFrom(rules, stopOnFirstError, id + 1, rest)
    ensures GroupsFrom(rules, stopOnFirstError, id, [first] + rest)
  {
    var groups := [first] + rest;
    forall i | 0 <= i < |groups| ensures GroupRan(rules, stopOnFirstError, id + i, groups[i]) {
      if i == 0 {
        assert groups[i] == first && id + i == id;
      } else {
        var j := i - 1;
        assert groups[i] == rest[j];
        assert GroupRan(rules, stopOnFirstError, (id + 1) + j, rest[j]);
        assert (id + 1) + j == id + i;
      }
    }
  }

  datatype GroupsRun = GroupsRun(groups: seq<seq<Submission>>, fs: FileSystem)

  /**
    The `do ... while` loop from sequence id `id`: a group with no rule ends
    the loop; otherwise the group runs and, unless this is an auto build of
    the object files only, the next id follows. The loop's error flag is
    never set, so no failure ends it.
   */
  function RunGroups(rules: seq<RunnerRule>, objectsOnly: bool, stopOnFirstError: bool, id: int, fs: FileSystem): (run: GroupsRun)
    ensures GroupsFrom(rules, stopOnFirstError, id, run.groups)
    ensures !objectsOnly ==> !InGroup(rules, id + |run.groups|)
    ensures objectsOnly ==> |run.groups| == if InGroup(rules, id) then 1 else 0
    decreases MaxGroup(rules) + 1 - id
  {
    if !InGroup(rules, id) then GroupsRun([], fs)
    else
      var g := RunGroup(rules, id, stopOnFirstError, fs, 0);
      if objectsOnly then GroupsRun([g.submitted], g.fs)
      else
        var rest := RunGroups(rules, objectsOnly, stopOnFirstError, id + 1, g.fs);
        GroupsFromCons(rules, stopOnFirstError, id, g.submitted, rest.groups);
        GroupsRun([g.submitted] + rest.groups, rest.fs)
  }

  /** Reference: `n` is the first sequence id from 0 on that no rule carries. */
  ghost predicate IsFirstGap(rules: seq<RunnerRule>, n: nat) {
    !InGroup(rules, n) && forall i :: 0 <= i < n ==> InGroup(rules, i)
  }

  /**
    From sequence id 0, the loop runs groups 0, 1, ... up to the first id
    no rule carries, group `i` submitting exactly its rules that need
    executing; an auto build of the object files runs group 0 only.
   */
  lemma GroupsUpToFirstGap(rules: seq<RunnerRule>, objectsOnly: bool, stopOnFirstError: bool, fs: FileSystem, n: nat)
    requires IsFirstGap(rules, n)
    ensures var run := RunGroups(rules, objectsOnly, stopOnFirstError, 0, fs);
            && |run.groups| == (if objectsOnly && n > 1 then 1 else n)
            && forall i :: 0 <= i < |run.groups| ==> GroupSubmissions(rules, i, stopOnFirstError, 0, run.groups[i])
  {
    var run := RunGroups(rules, objectsOnly, stopOnFirstError, 0, fs);
    var m := |run.groups|;
    forall i | 0 <= i < m ensures InGroup(rules, i) {
      assert GroupRan(rules, stopOnFirstError, 0 + i, run.groups[i]);
    }
    assert forall i :: 0 <= i < n ==> InGroup(rules, i);
  }

  /**
    A rule with a negative sequence id, or one at or beyond the first id no
    rule carries, is never submitted.
   */
  lemma OutsideGroupsNeverRun(rules: seq<RunnerRule>, objectsOnly: bool, stopOnFirstError: bool, fs: FileSystem, n: nat, k: nat)
    requires IsFirstGap(rules, n)
    requires k < |rules| && (rules[k].group < 0 || n <= rules[k].group)
    ensures var run := RunGroups(rules, objectsOnly, stopOnFirstError, 0, fs);
            forall i :: 0 <= i < |run.groups| ==> k !in RuleIds(run.groups[i])
  {
    GroupsUpToFirstGap(rules, objectsOnly, stopOnFirstError, fs, n);
    var run := RunGroups(rules, objectsOnly, stopOnFirstError, 0, fs);
    forall i | 0 <= i < |run.groups| ensures k !in RuleIds(run.groups[i]) {
      assert GroupSubmissions(rules, i, stopOnFirstError, 0, run.groups[i]);
      assert !Submits(rules, i, k);
    }
  }

  /**
    A group whose rules all need no executing submits nothing but still
    keeps the loop going: a stale rule of the next group is submitted.
   */
  lemma FreshGroupKeepsLoopGoing(rules: seq<RunnerRule>, stopOnFirstError: bool, fs: FileSystem, k: nat)
    requires forall j :: 0 <= j < |rules| ==> rules[j].group == 0 ==> !rules[j].stale
    requires InGroup(rules, 0)
    requires Submits(rules, 1, k)
    ensures var run := RunGroups(rules, false, stopOnFirstError, 0, fs);
            && 2 <= |run.groups| && run.groups[0] == []
            && k in RuleIds(run.groups[1])
  {
    var run := RunGroups(rules, false, stopOnFirstError, 0, fs);
    assert InGroup(rules, 1);
    assert !InGroup(rules, 0 + |run.groups|);
    assert GroupRan(rules, stopOnFirstError, 0 + 0, run.groups[0]);
    assert forall x: nat :: x !in RuleIds(run.groups[0]);
    NoMembersEmpty(RuleIds(run.groups[0]));
    assert GroupRan(rules, stopOnFirstError, 0 + 1, run.groups[1]);
  }

  /** Two rule lists alike except for their recipes. */
  predicate SameSchedule(rules: seq<RunnerRule>, rules': seq<RunnerRule>) {
    |rules| == |rules'| &&
    forall k :: 0 <= k < |rules| ==>
      rules[k].group == rules'[k].group && rules[k].stale == rules'[k].stale && rules[k].targets == rules'[k].targets
  }


  /**
    No recipe failure ends the loop: which rules each group submits does
    not depend on what their recipes do.
   */
  lemma FailuresDoNotStopGroups(rules: seq<RunnerRule>, rules': seq<RunnerRule>, objectsOnly: bool, stopOnFirstError: bool, fs: FileSystem, fs': FileSystem, n: nat)
    requires SameSchedule(rules, rules') && IsFirstGap(rules, n)
    ensures var run := RunGroups(rules, objectsOnly, stopOnFirstError, 0, fs);
            var run' := RunGroups(rules', objectsOnly, stopOnFirstError, 0, fs');
            |run.groups| == |run'.groups| &&
            forall i :: 0 <= i < |run.groups| ==> RuleIds(run.groups[i]) == RuleIds(run'.groups[i])
  {
    assert forall id :: InGroup(rules, id) <==> InGroup(rules', id) by {
      forall id ensures InGroup(rules, id) <==> InGroup(rules', id) {
        if InGroup(rules, id) {
          var k :| 0 <= k < |rules| && rules[k].group == id;
          assert rules'[k].group == id;
        }
        if InGroup(rules', id) {
          var k :| 0 <= k < |rules'| && rules'[k].group == id;
          assert rules[k].group == id;
        }
      }
    }
    assert IsFirstGap(rules', n);
    GroupsUpToFirstGap(rules, objectsOnly, stopOnFirstError, fs, n);
    GroupsUpToFirstGap(rules', objectsOnly, stopOnFirstError, fs', n);
    var run := RunGroups(rules, objectsOnly, stopOnFirstError, 0, fs);
    var run' := RunGroups(rules', objectsOnly, stopOnFirstError, 0, fs');
    forall i | 0 <= i < |run.groups| ensures RuleIds(run.groups[i]) == RuleIds(run'.groups[i]) {
      SameScheduleSameRules(rules, rules', i, stopOnFirstError, run.groups[i], run'.groups[i]);
    }
  }

  lemma SameScheduleSameRules(rules: seq<RunnerRule>, rules': seq<RunnerRule>, id: int, stopOnFirstError: bool, a: seq<Submission>, b: seq<Submission>)
    requires SameSchedule(rules, rules')
    requires GroupSubmissions(rules, id, stopOnFirstError, 0, a)
    requires GroupSubmissions(rules', id, stopOnFirstError, 0, b)
    ensures RuleIds(a) == RuleIds(b)
  {
    assert forall k :: Submits(rules, id, k) <==> Submits(rules', id, k);
    IncreasingUnique(RuleIds(a), RuleIds(b));
  }

  // ---------------------------------------------------------------------
  // invokeBuild and invokeClean

  datatype BuildKind = FullBuild | IncrementalBuild | AutoBuild | CleanBuild

  /** The auto-build make target that builds the object files only (assumed value of `TARGET_OBJECTS`). */
  const TargetObjects: string := "objects"

  /**
    The build's settings: its kind and auto-build target, the
    stop-on-first-error flag, and the pre- and post-build steps as their
    resolved command lines with their launch outcomes.
   */
  datatype BuildSettings = BuildSettings(
    kind: BuildKind,
    autoMakeTarget: string,
    stopOnFirstError: bool,
    preBuildStep: Recipe,
    postBuildStep: Recipe)

  /** How `invokeBuild` ended. */
  datatype Ending = Cleaned | PreStepFailed | PostStepFailed | Finished

  /**
    The trace of a build: the pre- and post-step exit codes when they were
    launched, the groups run, the workspace as the runner left it, how the
    build ended, and the value `invokeBuild` returned.
   */
  datatype BuildRun = BuildRun(
    preStep: Option<int>,
    groups: seq<seq<Submission>>,
    postStep: Option<int>,
    fs: FileSystem,
    ending: Ending,
    result: bool)

  /** The clean build's loop over the build files. */
  function DeleteFiles(fs: FileSystem, files: seq<Path>): (r: FileSystem)
    ensures r.stamps == fs.stamps - (set f | f in files)
    ensures r.folders == fs.folders && r.clock == fs.clock
    ensures r.contents == fs.contents - (set f | f in files)
    decreases |files|
  {
    if |files| == 0 then fs
    else DeleteFiles(DeleteFile(fs, files[0]), files[1..])
  }

  /** A pre- or post-build step: launched unless it resolves to the empty line. */
  function RunStep(step: Recipe, stopOnFirstError: bool): (code: Option<int>)
    ensures code.None? <==> step.line == ""
    ensures code.Some? ==> code.value == ExitCode(step.launch, stopOnFirstError)
  {
    if step.line == "" then None else Some(ExitCode(step.launch, stopOnFirstError))
  }

  predicate ObjectsOnly(settings: BuildSettings) {
    settings.kind == AutoBuild && settings.autoMakeTarget == TargetObjects
  }

  /**
    `invokeBuild`. A clean build deletes the build files and runs nothing
    else. Otherwise the pre-build step runs; its failure ends the build
    only under stop-on-first-error; then the groups run and the post-build
    step, whose failure always ends the build early. Every path returns
    false.
   */
  function InvokeBuild(rules: seq<RunnerRule>, buildFiles: seq<Path>, settings: BuildSettings, fs: FileSystem): (b: BuildRun)
    ensures !b.result
    ensures settings.kind == CleanBuild <==> b.ending == Cleaned
    ensures b.ending == Cleaned ==> b.preStep.None? && b.groups == [] && b.postStep.None?
    ensures b.ending == PreStepFailed <==>
              settings.kind != CleanBuild && settings.stopOnFirstError &&
              b.preStep.Some? && b.preStep.value != 0
    ensures b.ending == PreStepFailed ==> b.groups == [] && b.postStep.None?
    ensures b.ending == PostStepFailed <==> b.postStep.Some? && b.postStep.value != 0
    ensures b.ending != Cleaned ==> b.preStep == RunStep(settings.preBuildStep, settings.stopOnFirstError)
    ensures b.ending in {PostStepFailed, Finished} ==>
              b.postStep == RunStep(settings.postBuildStep, settings.stopOnFirstError) &&
              b.groups == RunGroups(rules, ObjectsOnly(settings), settings.stopOnFirstError, 0, fs).groups
  {
    if settings.kind == CleanBuild then
      BuildRun(None, [], None, DeleteFiles(fs, buildFiles), Cleaned, false)
    else
      var stop := settings.stopOnFirstError;
      var pre := RunStep(settings.preBuildStep, stop);
      if pre.Some? && pre.value != 0 && stop then
        BuildRun(pre, [], None, fs, PreStepFailed, false)
      else
        var run := RunGroups(rules, ObjectsOnly(settings), stop, 0, fs);
        var post := RunStep(settings.postBuildStep, stop);
        var ending := if post.Some? && post.value != 0 then PostStepFailed else Finished;
        BuildRun(pre, run.groups, post, run.fs, ending, false)
  }

  /** A failing pre-build step without stop-on-first-error still lets every group run. */
  lemma PreStepFailureIgnoredWithoutStop(rules: seq<RunnerRule>, buildFiles: seq<Path>, settings: BuildSettings, fs: FileSystem)
    requires settings.kind != CleanBuild && !settings.stopOnFirstError
    ensures InvokeBuild(rules, buildFiles, settings, fs).groups ==
              RunGroups(rules, ObjectsOnly(settings), false, 0, fs).groups
  {
  }

  /** Files within the build folder (strictly below it). */
  predicate Below(root: Path, p: Path) {
    IsPrefix(root, p) && |root| < |p|
  }

  /**
    `invokeClean`: the build folder is deleted with everything in it and
    created again, empty; nothing outside it changes. Returns false.
   */
  function InvokeClean(fs: FileSystem, buildRoot: Path): (r: (FileSystem, bool))
    ensures buildRoot in r.0.folders && !r.1
    ensures forall f :: FileExists(r.0, f) <==> FileExists(fs, f) && !Below(buildRoot, f) && f != buildRoot
    ensures forall f :: f != buildRoot ==> (f in r.0.folders <==> f in fs.folders && !Below(buildRoot, f))
    ensures r.0.folders[buildRoot] == fs.clock
    ensures forall f :: f in r.0.folders && f != buildRoot ==> r.0.folders[f] == fs.folders[f]
    ensures forall f :: FileExists(r.0, f) ==> Stamp(r.0, f) == Stamp(fs, f)
    ensures forall f :: f in r.0.contents <==> f in fs.contents && !Below(buildRoot, f) && f != buildRoot
    ensures forall f :: f in r.0.contents ==> r.0.contents[f] == fs.contents[f]
    ensures r.0.clock == fs.clock
  {
    var gone := (p: Path) => p == buildRoot || Below(buildRoot, p);
    var fs1 := FileSystem(
      map f | f in fs.stamps && !gone(f) :: fs.stamps[f],
      map f | f in fs.folders && !gone(f) :: fs.folders[f],
      map f | f in fs.contents && !gone(f) :: fs.contents[f],
      fs.clock);
    (fs1.(folders := fs1.folders[buildRoot := fs.clock]), false)
  }

  /** Cleaning twice leaves the workspace as cleaning once. */
  lemma InvokeCleanIdempotent(fs: FileSystem, buildRoot: Path)
    ensures InvokeClean(InvokeClean(fs, buildRoot).0, buildRoot).0 == InvokeClean(fs, buildRoot).0
  {
    var once := InvokeClean(fs, buildRoot).0;
    var twice := InvokeClean(once, buildRoot).0;
    assert twice.stamps == once.stamps;
    assert twice.contents == once.contents;
    assert twice.folders == once.folders;
  }
}

=== FILE: command_line.dfy ===
/**
  Command-line pattern expansion of a build rule: a pattern such as
  `${COMMAND} ${FLAGS} ${OUTPUT_FLAG}${OUTPUT_PREFIX}${OUTPUT} ${INPUTS}` has
  its placeholders replaced, one `String.replace` per placeholder, by the
  tool command, the flags, the output flag, the quoted output name and the
  quoted inputs.

  The reference reading of a pattern is a sequence of pieces, literal text
  and placeholders; expansion then fills placeholders with values.
 */
module CommandLines {
  import opened Wrappers
  import opened JavaStrings

  /** `makeVariable`: the placeholder text for a parameter name. */
  function Variable(name: string): string {
    "${" + name + "}"
  }

  const CommandName: string := "COMMAND"
  const FlagsName: string := "FLAGS"
  const OutputFlagName: string := "OUTPUT_FLAG"
  const OutputPrefixName: string := "OUTPUT_PREFIX"
  const OutputName: string := "OUTPUT"
  const InputsName: string := "INPUTS"

  /** The pattern used when a tool has none: `${COMMAND} ${FLAGS} ${OUTPUT_FLAG}${OUTPUT_PREFIX}${OUTPUT} ${INPUTS}`. */
  const DefaultPattern: string := Render(DefaultPieces)

  // ---------------------------------------------------------------------
  // Quoting

  /** A value that is itself a make macro reference, `$(...)`, is never quoted. */
  predicate IsMacroReference(s: string) {
    StartsWith(s, "$(")
  }

  function Quoted(s: string): (q: string)
    ensures |q| == |s| + 2 && q[0] == '"' && q[|q| - 1] == '"' && q[1..|q| - 1] == s
  {
    "\"" + s + "\""
  }

  /** The output name as it goes into the command: quoted unless empty or a macro reference. */
  function QuoteOutput(name: string): (q: string)
    ensures name == "" || IsMacroReference(name) ==> q == name
    ensures name != "" && !IsMacroReference(name) ==> q == Quoted(name)
  {
    if |name| > 0 && !IsMacroReference(name) then Quoted(name) else name
  }

  /** Removing one pair of surrounding double quotes, if there is one. */
  function Unquoted(q: string): string {
    if |q| >= 2 && q[0] == '"' && q[|q| - 1] == '"' then q[1..|q| - 1] else q
  }

  /**
    Quoting the output name loses nothing: removing the added quotes gives
    the name back, and the command shows quotes exactly where quoting
    happened (a macro reference starts with `$`).
   */
  lemma QuoteOutputRoundTrip(name: string)
    ensures Unquoted(QuoteOutput(name)) == name
    ensures QuoteOutput(name) != "" && QuoteOutput(name)[0] == '"' <==> name != "" && !IsMacroReference(name)
  {
  }

  /** One non-empty input as it goes into the command. */
  function QuoteInput(inp: string): (q: string)
    requires inp != ""
    ensures q != "" && (q[0] == '"' || q[0] == '$')
    ensures IsMacroReference(inp) ==> q == inp
    ensures !IsMacroReference(inp) ==> q == Quoted(inp)
  {
    if !IsMacroReference(inp) then Quoted(inp) else inp
  }

  // ---------------------------------------------------------------------
  // The inputs and flags strings

  /**
    The loop over the inputs: every non-empty input is quoted and followed
    by a blank; empty inputs are skipped.
   */
  function InputsAccumulated(inputs: seq<string>): string
    decreases |inputs|
  {
    if |inputs| == 0 then ""
    else
      var acc := InputsAccumulated(inputs[..|inputs| - 1]);
      var inp := inputs[|inputs| - 1];
      if inp == "" then acc else acc + QuoteInput(inp) + " "
  }

  /** The inputs string: the accumulated text, trimmed. */
  function InputsString(inputs: seq<string>): string {
    Trim(InputsAccumulated(inputs))
  }

  /** Reference: the non-empty inputs, in order, each quoted. */
  function QuotedInputs(inputs: seq<string>): (qs: seq<string>)
    ensures |qs| <= |inputs|
    ensures forall i :: 0 <= i < |qs| ==> qs[i] != "" && (qs[i][0] == '"' || qs[i][0] == '$')
    ensures (forall i :: 0 <= i < |inputs| ==> inputs[i] == "") <==> qs == []
    decreases |inputs|
  {
    if |inputs| == 0 then []
    else
      var init := QuotedInputs(inputs[..|inputs| - 1]);
      var inp := inputs[|inputs| - 1];
      assert forall i :: 0 <= i < |inputs| - 1 ==> inputs[..|inputs| - 1][i] == inputs[i];
      if inp == "" then init else init + [QuoteInput(inp)]
  }

  /** The loop's text is the quoted inputs joined by blanks, with one blank after the last. */
  lemma {:induction false} AccumulatedIsJoin(inputs: seq<string>)
    ensures InputsAccumulated(inputs) ==
            if QuotedInputs(inputs) == [] then "" else Join(" ", QuotedInputs(inputs)) + " "
    decreases |inputs|
  {
    if |inputs| > 0 {
      var init := inputs[..|inputs| - 1];
      var inp := inputs[|inputs| - 1];
      AccumulatedIsJoin(init);
      if inp != "" {
        var qs := QuotedInputs(init);
        var q := QuoteInput(inp);
        if qs != [] {
          JoinAppend(" ", qs, [q]);
        }
      }
    }
  }

  /** The inputs string is the quoted non-empty inputs joined by single blanks, then trimmed. */
  lemma InputsStringIsJoin(inputs: seq<string>)
    ensures InputsString(inputs) == Trim(Join(" ", QuotedInputs(inputs)))
  {
    AccumulatedIsJoin(inputs);
    var qs := QuotedInputs(inputs);
    if qs != [] {
      TrimDropsTrailingBlank(Join(" ", qs));
    }
  }

  predicate NoMacroReferences(inputs: seq<string>) {
    forall i :: 0 <= i < |inputs| ==> !IsMacroReference(inputs[i])
  }

  /**
    When no input is a macro reference, trimming removes nothing: the inputs
    string is exactly the quoted inputs joined by blanks.
   */
  lemma InputsStringQuotedOnly(inputs: seq<string>)
    requires NoMacroReferences(inputs)
    ensures InputsString(inputs) == Join(" ", QuotedInputs(inputs))
  {
    var qs := QuotedInputs(inputs);
    QuotedInputsVisible(inputs);
    TrimOfVisibleParts(qs);
    InputsStringIsJoin(inputs);
  }

  /** Parts that are non-empty and start and end with a character above the blank. */
  predicate VisibleParts(qs: seq<string>) {
    forall i :: 0 <= i < |qs| ==> qs[i] != "" && qs[i][0] > ' ' && qs[i][|qs[i]| - 1] > ' '
  }

  lemma TrimOfVisibleParts(qs: seq<string>)
    requires VisibleParts(qs)
    ensures Trim(Join(" ", qs)) == Join(" ", qs)
  {
    if qs != [] {
      JoinEnds(qs);
      TrimVisible(Join(" ", qs));
    }
  }

  /** Without macro references every part starts and ends with a quote. */
  lemma QuotedInputsVisible(inputs: seq<string>)
    requires NoMacroReferences(inputs)
    ensures VisibleParts(QuotedInputs(inputs))
  {
    AllQuoted(inputs);
    var qs := QuotedInputs(inputs);
    forall i | 0 <= i < |qs| ensures qs[i] != "" && qs[i][0] > ' ' && qs[i][|qs[i]| - 1] > ' ' {
      assert qs[i][0] == '"' || qs[i][0] == '$';
      assert qs[i][|qs[i]| - 1] == '"';
    }
  }

  lemma {:induction false} AllQuoted(inputs: seq<string>)
    requires NoMacroReferences(inputs)
    ensures forall i :: 0 <= i < |QuotedInputs(inputs)| ==> QuotedInputs(inputs)[i][|QuotedInputs(inputs)[i]| - 1] == '"'
    decreases |inputs|
  {
    if |inputs| > 0 {
      var init := inputs[..|inputs| - 1];
      assert NoMacroReferences(init) by {
        forall i | 0 <= i < |init| ensures init[i] == inputs[i] { }
      }
      AllQuoted(init);
    }
  }

  /** The joined text begins with the first part's first character and ends with the last part's last one. */
  lemma {:induction false} JoinEnds(qs: seq<string>)
    requires |qs| > 0 && forall i :: 0 <= i < |qs| ==> qs[i] != ""
    ensures var j := Join(" ", qs);
            |j| > 0 && j[0] == qs[0][0] && j[|j| - 1] == qs[|qs| - 1][|qs[|qs| - 1]| - 1]
    decreases |qs|
  {
    if |qs| > 1 {
      JoinEnds(qs[1..]);
    }
  }

  /** `String.join(" ", flags)`. */
  function FlagsString(flags: seq<string>): string {
    Join(" ", flags)
  }

  // ---------------------------------------------------------------------
  // Expansion

  /** A missing or empty pattern stands for the default one. */
  function EffectivePattern(pattern: Option<string>): (p: string)
    ensures p != ""
    ensures pattern.Some? && pattern.value != "" ==> p == pattern.value
    ensures pattern == None || pattern == Some("") ==> p == DefaultPattern
  {
    if pattern.None? || |pattern.value| <= 0 then DefaultPattern else pattern.value
  }

  /**
    `expandCommandLinePattern`, the static form: the pattern chosen, then
    five replacements in a fixed order. A null input set behaves like an
    empty one.
   */
  function ExpandCommandLinePattern(commandName: string, flags: seq<string>, outputFlag: string,
                                    outputName: string, inputs: seq<string>, pattern: Option<string>): (command: string)
    ensures '$' !in EffectivePattern(pattern) ==> command == EffectivePattern(pattern)
  {
    ReplacePlaceholders(EffectivePattern(pattern), commandName, flags, outputFlag, outputName, inputs)
  }

  /** The five replacements; `${OUTPUT_PREFIX}` is not among them. */
  function ReplacePlaceholders(pattern: string, commandName: string, flags: seq<string>, outputFlag: string,
                               outputName: string, inputs: seq<string>): (command: string)
    ensures '$' !in pattern ==> command == pattern
  {
    var c1 := Replace(pattern, Variable(CommandName), commandName);
    var c2 := Replace(c1, Variable(FlagsName), FlagsString(flags));
    var c3 := Replace(c2, Variable(OutputFlagName), outputFlag);
    var c4 := Replace(c3, Variable(OutputName), QuoteOutput(outputName));
    var c5 := Replace(c4, Variable(InputsName), InputsString(inputs));
    PlainUnchanged(pattern, CommandName, commandName);
    PlainUnchanged(c1, FlagsName, FlagsString(flags));
    PlainUnchanged(c2, OutputFlagName, outputFlag);
    PlainUnchanged(c3, OutputName, QuoteOutput(outputName));
    PlainUnchanged(c4, InputsName, InputsString(inputs));
    c5
  }

  lemma PlainUnchanged(s: string, name: string, value: string)
    ensures '$' !in s ==> Replace(s, Variable(name), value) == s
  {
    if '$' !in s {
      var pat := Variable(name);
      forall i ensures !OccursAt(s, pat, i) {
        if 0 <= i && i + |pat| <= |s| {
          assert s[i..i + |pat|][0] == s[i] != '$';
        }
      }
    }
  }

  /**
    Each replacement scans the text the earlier ones produced, so a value
    holding a placeholder is expanded again: a command named `${FLAGS}`
    in the pattern `${COMMAND}` becomes the flags.
   */
  lemma ValuePlaceholderIsReplacedAgain(flag: string)
    requires '$' !in flag
    ensures ReplacePlaceholders(Variable(CommandName), Variable(FlagsName), [flag], "", "", []) == flag
  {
    var cmd := Variable(CommandName);
    var fl := Variable(FlagsName);
    ReplaceAtFront("", cmd, fl);
    assert cmd + "" == cmd && fl + "" == fl;
    assert Replace(cmd, cmd, fl) == fl;
    ReplaceAtFront("", fl, FlagsString([flag]));
    assert FlagsString([flag]) == flag;
    assert Replace(fl, fl, FlagsString([flag])) == flag;
    PlainUnchanged(flag, OutputFlagName, "");
    PlainUnchanged(flag, OutputName, QuoteOutput(""));
    PlainUnchanged(flag, InputsName, InputsString([]));
  }

  /**
    The instance form: the tool command is macro-resolved and trimmed, and
    the resolved text replaces the raw one only when it is non-empty.
   */
  function ToolCommand(command: string, resolved: Option<string>): (cmd: string)
    ensures resolved.Some? && Trim(resolved.value) != "" ==> cmd == Trim(resolved.value)
    ensures resolved.None? || Trim(resolved.value) == "" ==> cmd == command
  {
    if resolved.Some? && |Trim(resolved.value)| > 0 then Trim(resolved.value) else command
  }

  /**
    The command the pattern receives is the raw command or a non-empty text
    that trimming leaves unchanged; a command that is already trimmed and
    resolves to itself stays as it is.
   */
  lemma ToolCommandIsTrimmedOrRaw(command: string, resolved: Option<string>)
    ensures var cmd := ToolCommand(command, resolved);
            cmd == command || (cmd != "" && Trim(cmd) == cmd)
    ensures command != "" && Trim(command) == command ==> ToolCommand(command, Some(command)) == command
  {
    var cmd := ToolCommand(command, resolved);
    if cmd != command {
      TrimVisible(cmd);
    }
  }

  // ---------------------------------------------------------------------
  // Reference: patterns as pieces

  datatype Piece = Text(text: string) | Placeholder(name: string)

  function RenderPiece(p: Piece): string {
    match p
    case Text(t) => t
    case Placeholder(n) => Variable(n)
  }

  function Render(ps: seq<Piece>): string
    decreases |ps|
  {
    if |ps| == 0 then "" else RenderPiece(ps[0]) + Render(ps[1..])
  }

  lemma RenderFrom(ps: seq<Piece>, k: nat)
    requires k < |ps|
    ensures Render(ps[k..]) == RenderPiece(ps[k]) + Render(ps[k + 1..])
  {
    assert ps[k..][1..] == ps[k + 1..];
  }

  /** Literal text holds no `$`; a placeholder name holds neither `$` nor `}`. */
  predicate PieceWellFormed(p: Piece) {
    match p
    case Text(t) => '$' !in t
    case Placeholder(n) => '$' !in n && '}' !in n
  }

  predicate WellFormed(ps: seq<Piece>) {
    forall i :: 0 <= i < |ps| ==> PieceWellFormed(ps[i])
  }

  function SubstitutePiece(p: Piece, name: string, value: string): Piece {
    if p == Placeholder(name) then Text(value) else p
  }

  /** Every placeholder `name` becomes the text `value`; other pieces stay. */
  function Substitute(ps: seq<Piece>, name: string, value: string): (r: seq<Piece>)
    ensures |r| == |ps|
    decreases |ps|
  {
    if |ps| == 0 then []
    else [SubstitutePiece(ps[0], name, value)] + Substitute(ps[1..], name, value)
  }

  lemma {:induction false} SubstituteAt(ps: seq<Piece>, name: string, value: string)
    ensures forall i :: 0 <= i < |ps| ==> Substitute(ps, name, value)[i] == SubstitutePiece(ps[i], name, value)
    decreases |ps|
  {
    if |ps| > 0 {
      SubstituteAt(ps[1..], name, value);
    }
  }

  lemma SubstituteWellFormed(ps: seq<Piece>, name: string, value: string)
    requires WellFormed(ps) && '$' !in value
    ensures WellFormed(Substitute(ps, name, value))
  {
    var r := Substitute(ps, name, value);
    SubstituteAt(ps, name, value);
    forall i | 0 <= i < |r| ensures PieceWellFormed(r[i]) {
      assert ps[i] == Placeholder(name) || r[i] == ps[i];
    }
  }

  /** A placeholder matches at the start of another only when the names agree. */
  lemma DistinctPlaceholders(m: string, n: string, rest: string)
    requires '}' !in m && '}' !in n
    ensures StartsWith(Variable(m) + rest, Variable(n)) ==> m == n
  {
    var s := Variable(m) + rest;
    var v := Variable(n);
    if StartsWith(s, v) {
      assert s[..|v|] == v;
      assert forall k :: 0 <= k < |m| ==> s[2 + k] == m[k];
      assert forall k :: 0 <= k < |n| ==> v[2 + k] == n[k];
      assert s[2 + |n|] == '}';
      assert |n| >= |m|;
      assert v[2 + |m|] == '}';
      assert |m| >= |n|;
      assert m == s[2..2 + |m|] == v[2..2 + |n|] == n;
    }
  }

  /** The replacement passes over one piece: a matching placeholder is replaced, anything else is kept. */
  lemma ReplacePiece(p: Piece, rest: string, name: string, value: string)
    requires PieceWellFormed(p) && '}' !in name
    ensures ReplaceNonEmpty(RenderPiece(p) + rest, Variable(name), value)
            == RenderPiece(SubstitutePiece(p, name, value)) + ReplaceNonEmpty(rest, Variable(name), value)
  {
    var pat := Variable(name);
    match p
    case Text(t) =>
      ReplaceSkipsPlainPrefix(t, rest, pat, value);
    case Placeholder(m) =>
      if m == name {
        ReplaceAtFront(rest, pat, value);
      } else {
        ReplaceOtherPlaceholder(m, rest, name, value);
      }
  }

  lemma ReplaceOtherPlaceholder(m: string, rest: string, name: string, value: string)
    requires m != name && '$' !in m && '}' !in m && '}' !in name
    ensures ReplaceNonEmpty(Variable(m) + rest, Variable(name), value)
            == Variable(m) + ReplaceNonEmpty(rest, Variable(name), value)
  {
    var pat := Variable(name);
    var s := Variable(m) + rest;
    DistinctPlaceholders(m, name, rest);
    if |s| < |pat| {
      NoOccurrenceShort(s, pat, value);
      NoOccurrenceShort(rest, pat, value);
    } else {
      var body := "{" + m + "}";
      assert s[..|pat|] != pat;
      assert ReplaceNonEmpty(s, pat, value) == [s[0]] + ReplaceNonEmpty(s[1..], pat, value);
      assert s[0] == '$' && s[1..] == body + rest;
      assert '$' !in body;
      ReplaceSkipsPlainPrefix(body, rest, pat, value);
      assert Variable(m) == [s[0]] + body;
    }
  }

  /**
    One `String.replace` of a placeholder over a well-formed pattern is the
    substitution of that placeholder, provided the value holds no `$`.
   */
  lemma {:induction false} ReplaceIsSubstitute(ps: seq<Piece>, name: string, value: string)
    requires WellFormed(ps) && '}' !in name
    ensures Replace(Render(ps), Variable(name), value) == Render(Substitute(ps, name, value))
    decreases |ps|
  {
    var pat := Variable(name);
    if |ps| > 0 {
      assert WellFormed(ps[1..]) by {
        forall i | 0 <= i < |ps| - 1 ensures ps[1..][i] == ps[i + 1] { }
      }
      ReplaceIsSubstitute(ps[1..], name, value);
      assert PieceWellFormed(ps[0]);
      ReplacePiece(ps[0], Render(ps[1..]), name, value);
    }
  }

  lemma KnownNamesPlain()
    ensures '}' !in CommandName && '}' !in FlagsName && '}' !in OutputFlagName
    ensures '}' !in OutputName && '}' !in InputsName
  {
  }

  /** One replacement step keeps the pattern well formed when the value holds no `$`. */
  lemma ReplaceStep(ps: seq<Piece>, name: string, value: string)
    requires WellFormed(ps) && '}' !in name && '$' !in value
    ensures Replace(Render(ps), Variable(name), value) == Render(Substitute(ps, name, value))
    ensures WellFormed(Substitute(ps, name, value))
  {
    ReplaceIsSubstitute(ps, name, value);
    SubstituteWellFormed(ps, name, value);
  }

  /** The values of the five known placeholders. */
  datatype Values = Values(command: string, flags: string, outputFlag: string, output: string, inputs: string)

  function FillPiece(p: Piece, v: Values): Piece {
    match p
    case Text(_) => p
    case Placeholder(n) =>
      if n == CommandName then Text(v.command)
      else if n == FlagsName then Text(v.flags)
      else if n == OutputFlagName then Text(v.outputFlag)
      else if n == OutputName then Text(v.output)
      else if n == InputsName then Text(v.inputs)
      else p
  }

  /** Reference expansion: every known placeholder replaced by its value in one pass. */
  function Fill(ps: seq<Piece>, v: Values): (r: seq<Piece>)
    ensures |r| == |ps| && forall i :: 0 <= i < |ps| ==> r[i] == FillPiece(ps[i], v)
  {
    seq(|ps|, i requires 0 <= i < |ps| => FillPiece(ps[i], v))
  }

  /** The five successive substitutions amount to one filling pass. */
  lemma SubstitutionsFill(ps: seq<Piece>, v: Values)
    ensures Substitute(Substitute(Substitute(Substitute(Substitute(ps,
              CommandName, v.command), FlagsName, v.flags), OutputFlagName, v.outputFlag),
              OutputName, v.output), InputsName, v.inputs) == Fill(ps, v)
  {
    var p1 := Substitute(ps, CommandName, v.command);
    var p2 := Substitute(p1, FlagsName, v.flags);
    var p3 := Substitute(p2, OutputFlagName, v.outputFlag);
    var p4 := Substitute(p3, OutputName, v.output);
    SubstituteAt(ps, CommandName, v.command);
    SubstituteAt(p1, FlagsName, v.flags);
    SubstituteAt(p2, OutputFlagName, v.outputFlag);
    SubstituteAt(p3, OutputName, v.output);
    SubstituteAt(p4, InputsName, v.inputs);
  }

  /**
    Expansion of a well-formed pattern fills its placeholders: the command
    for `${COMMAND}`, the joined flags for `${FLAGS}`, the output flag for
    `${OUTPUT_FLAG}`, the quoted output for `${OUTPUT}` and the inputs
    string for `${INPUTS}`; every other placeholder stays in the text.
    Only the values replaced before the last one must be free of `$`.
   */
  lemma ExpandFillsPlaceholders(commandName: string, flags: seq<string>, outputFlag: string,
                                outputName: string, inputs: seq<string>, ps: seq<Piece>)
    requires WellFormed(ps)
    requires '$' !in commandName && '$' !in FlagsString(flags) && '$' !in outputFlag && '$' !in outputName
    ensures ReplacePlaceholders(Render(ps), commandName, flags, outputFlag, outputName, inputs) ==
            Render(Fill(ps, Values(commandName, FlagsString(flags), outputFlag, QuoteOutput(outputName), InputsString(inputs))))
  {
    var v := Values(commandName, FlagsString(flags), outputFlag, QuoteOutput(outputName), InputsString(inputs));
    assert '$' !in v.output by {
      if v.output != outputName {
        assert v.output == "\"" + outputName + "\"";
      }
    }
    KnownNamesPlain();
    var p1 := Substitute(ps, CommandName, v.command);
    var p2 := Substitute(p1, FlagsName, v.flags);
    var p3 := Substitute(p2, OutputFlagName, v.outputFlag);
    var p4 := Substitute(p3, OutputName, v.output);
    ReplaceStep(ps, CommandName, v.command);
    ReplaceStep(p1, FlagsName, v.flags);
    ReplaceStep(p2, OutputFlagName, v.outputFlag);
    ReplaceStep(p3, OutputName, v.output);
    ReplaceIsSubstitute(p4, InputsName, v.inputs);
    SubstitutionsFill(ps, v);
  }

  /** The default pattern as pieces. */
  const DefaultPieces: seq<Piece> := [
    Placeholder(CommandName), Text(" "), Placeholder(FlagsName), Text(" "),
    Placeholder(OutputFlagName), Placeholder(OutputPrefixName), Placeholder(OutputName), Text(" "),
    Placeholder(InputsName)]

  lemma DefaultPiecesWellFormed()
    ensures WellFormed(DefaultPieces)
  {
  }

  /** The default pattern filled: the five values, the placeholder left over, the blanks between. */
  lemma DefaultFilled(v: Values)
    ensures Fill(DefaultPieces, v) == [Text(v.command), Text(" "), Text(v.flags), Text(" "), Text(v.outputFlag),
                                       Placeholder(OutputPrefixName), Text(v.output), Text(" "), Text(v.inputs)]
  {
  }

  lemma RenderDefaultFilled(a: string, b: string, c: string, d: string, e: string)
    ensures Render([Text(a), Text(" "), Text(b), Text(" "), Text(c), Placeholder(OutputPrefixName), Text(d), Text(" "), Text(e)])
            == a + (" " + (b + (" " + (c + (Variable(OutputPrefixName) + (d + (" " + e)))))))
  {
    var f := [Text(a), Text(" "), Text(b), Text(" "), Text(c), Placeholder(OutputPrefixName), Text(d), Text(" "), Text(e)];
    assert f[4..] == [Text(c), Placeholder(OutputPrefixName), Text(d), Text(" "), Text(e)];
    RenderDefaultTail(c, d, e);
    RenderFrom(f, 3);
    RenderFrom(f, 2);
    RenderFrom(f, 1);
    RenderFrom(f, 0);
    assert f[0..] == f;
  }

  lemma RenderDefaultTail(c: string, d: string, e: string)
    ensures Render([Text(c), Placeholder(OutputPrefixName), Text(d), Text(" "), Text(e)])
            == c + (Variable(OutputPrefixName) + (d + (" " + e)))
  {
    var f := [Text(c), Placeholder(OutputPrefixName), Text(d), Text(" "), Text(e)];
    assert Render(f[5..]) == "";
    RenderFrom(f, 4);
    RenderFrom(f, 3);
    RenderFrom(f, 2);
    RenderFrom(f, 1);
    RenderFrom(f, 0);
    assert f[0..] == f;
  }

  /**
    With no pattern, the command line is the command, the flags, the output
    flag directly followed by the unreplaced `${OUTPUT_PREFIX}` and the
    quoted output, then the inputs, separated by blanks.
   */
  lemma ExpandDefault(commandName: string, flags: seq<string>, outputFlag: string,
                      outputName: string, inputs: seq<string>)
    requires '$' !in commandName && '$' !in FlagsString(flags) && '$' !in outputFlag && '$' !in outputName
    ensures ExpandCommandLinePattern(commandName, flags, outputFlag, outputName, inputs, None) ==
            commandName + (" " + (FlagsString(flags) + (" " + (outputFlag + (Variable(OutputPrefixName)
            + (QuoteOutput(outputName) + (" " + InputsString(inputs))))))))
  {
    DefaultPiecesWellFormed();
    ExpandFillsPlaceholders(commandName, flags, outputFlag, outputName, inputs, DefaultPieces);
    var v := Values(commandName, FlagsString(flags), outputFlag, QuoteOutput(outputName), InputsString(inputs));
    DefaultFilled(v);
    RenderDefaultFilled(v.command, v.flags, v.outputFlag, v.output, v.inputs);
  }
}

=== FILE: file_systems.dfy ===
/**
  A snapshot of the workspace as the build sees it: which files exist with
  which last-modified time, which folders exist, and the text of the files
  that can be read. Timestamps are Java `long` milliseconds.
 */
module FileSystems {
  import opened Wrappers
  import opened Paths

  const MinTime: int := -0x8000_0000_0000_0000   // Long.MIN_VALUE
  const MaxTime: int := 0x7FFF_FFFF_FFFF_FFFF    // Long.MAX_VALUE

  type Time = t: int | MinTime <= t <= MaxTime

  /** `IResource.NULL_STAMP`, the local time stamp of a resource that does not exist. */
  const NullStamp: Time := -1

  /**
    `stamps`: existing files and their local time stamps; `folders`: existing
    folders and their last-modified times; `contents`: the lines of every
    file that can be read; `clock`: the time at which the build's own
    changes happen, which a folder it creates gets as its time.
   */
  datatype FileSystem = FileSystem(stamps: map<Path, Time>, folders: map<Path, Time>, contents: map<Path, seq<string>>, clock: Time)

  predicate FileExists(fs: FileSystem, f: Path) {
    f in fs.stamps
  }

  /** `f` has the same text in `a` as in `b`, or is unreadable in both. */
  predicate SameText(a: FileSystem, b: FileSystem, f: Path) {
    (f in a.contents <==> f in b.contents) && (f in a.contents ==> a.contents[f] == b.contents[f])
  }

  /** `IResource.getLocalTimeStamp()`. */
  function Stamp(fs: FileSystem, f: Path): Time {
    if f in fs.stamps then fs.stamps[f] else NullStamp
  }

  /**
    `Files.readAttributes(..).lastModifiedTime()`: the time of a file or of
    a folder; `None` when neither exists (the `IOException`).
   */
  function LastModified(fs: FileSystem, p: Path): (t: Option<Time>)
    ensures t.Some? <==> FileExists(fs, p) || p in fs.folders
    ensures FileExists(fs, p) ==> t == Some(Stamp(fs, p))
    ensures !FileExists(fs, p) && p in fs.folders ==> t == Some(fs.folders[p])
  {
    if p in fs.stamps then Some(fs.stamps[p])
    else if p in fs.folders then Some(fs.folders[p])
    else None
  }

  /** `IFile.delete`: the file and its text are gone, nothing else changes. */
  function DeleteFile(fs: FileSystem, f: Path): (r: FileSystem)
    ensures !FileExists(r, f) && f !in r.contents
    ensures forall g :: g != f ==> Stamp(r, g) == Stamp(fs, g) && (FileExists(r, g) <==> FileExists(fs, g))
    ensures r.folders == fs.folders && r.clock == fs.clock
    ensures r.contents == fs.contents - {f}
  {
    fs.(stamps := fs.stamps - {f}, contents := fs.contents - {f})
  }

  /** The folders `folder` needs, from the first folder below the project down to itself. */
  function Chain(folder: Path): set<Path> {
    set k | 2 <= k <= |folder| :: folder[..k]
  }

  /** Every existing folder's enclosing folders exist too. */
  ghost predicate AncestorClosed(fs: FileSystem) {
    forall f, k :: f in fs.folders && 2 <= k < |f| ==> f[..k] in fs.folders
  }

  /**
    `createFolder` of the build runner: a missing folder is created after its
    missing enclosing folders, each stamped with the clock; an existing one
    is left alone.
   */
  function CreateFolder(fs: FileSystem, folder: Path): (r: FileSystem)
    requires IsFolderPath(folder)
    ensures folder in r.folders
    ensures r.stamps == fs.stamps && r.contents == fs.contents && r.clock == fs.clock
    ensures forall g :: g in fs.folders ==> g in r.folders && r.folders[g] == fs.folders[g]
    ensures forall g :: g in r.folders && g !in fs.folders ==> g in Chain(folder) && r.folders[g] == fs.clock
    ensures folder in fs.folders ==> r == fs
    decreases |folder|
  {
    if folder in fs.folders then fs
    else
      var parent := Parent(folder);
      var fs1 := if IsFolderPath(parent) then CreateFolder(fs, parent) else fs;
      assert Chain(parent) <= Chain(folder) by {
        forall g | g in Chain(parent) ensures g in Chain(folder) {
          var k :| 2 <= k <= |parent| && g == parent[..k];
          assert g == folder[..k];
        }
      }
      assert folder == folder[..|folder|];
      fs1.(folders := fs1.folders[folder := fs1.clock])
  }

  /** A folder's chain is its parent's chain and the folder itself. */
  lemma ChainOfFolder(folder: Path)
    requires IsFolderPath(folder)
    ensures Chain(folder) == Chain(Parent(folder)) + {folder}
  {
    var parent := Parent(folder);
    forall g | g in Chain(folder) ensures g in Chain(parent) + {folder} {
      var k :| 2 <= k <= |folder| && g == folder[..k];
      if k < |folder| {
        assert g == parent[..k];
      } else {
        assert g == folder;
      }
    }
    forall g | g in Chain(parent) ensures g in Chain(folder) {
      var k :| 2 <= k <= |parent| && g == parent[..k];
      assert g == folder[..k];
    }
    assert folder == folder[..|folder|];
  }

  /** In a snapshot where enclosing folders always exist, an existing folder's chain exists. */
  lemma ExistingChain(fs: FileSystem, folder: Path)
    requires IsFolderPath(folder) && AncestorClosed(fs) && folder in fs.folders
    ensures Chain(folder) <= fs.folders.Keys
  {
    forall g | g in Chain(folder) ensures g in fs.folders {
      var k :| 2 <= k <= |folder| && g == folder[..k];
      if k < |folder| {
        assert folder[..k] in fs.folders;
      } else {
        assert g == folder;
      }
    }
  }

  /**
    On a snapshot where enclosing folders always exist, creating a folder
    adds exactly its missing chain and keeps that property.
   */
  lemma {:induction false} CreateFolderAddsChain(fs: FileSystem, folder: Path)
    requires IsFolderPath(folder) && AncestorClosed(fs)
    ensures CreateFolder(fs, folder).folders.Keys == fs.folders.Keys + Chain(folder)
    ensures AncestorClosed(CreateFolder(fs, folder))
    decreases |folder|
  {
    if folder in fs.folders {
      ExistingChain(fs, folder);
    } else {
      var parent := Parent(folder);
      var fs1 := if IsFolderPath(parent) then CreateFolder(fs, parent) else fs;
      if IsFolderPath(parent) {
        CreateFolderAddsChain(fs, parent);
      } else {
        assert Chain(parent) == {};
      }
      ChainOfFolder(folder);
      var r := CreateFolder(fs, folder);
      assert r.folders.Keys == fs1.folders.Keys + {folder};
      forall f, k | f in r.folders && 2 <= k < |f| ensures f[..k] in r.folders {
        if f == folder {
          assert f[..k] == parent[..k];
          assert f[..k] in Chain(parent);
        } else {
          assert f in fs1.folders;
        }
      }
    }
  }
}

=== FILE: java_strings.dfy ===
/**
  The few `java.lang.String` operations the build code relies on, with
  Java's own edge cases: `isBlank` uses `Character.isWhitespace`, `trim`
  strips every character up to U+0020, `replace` substitutes left to right
  without overlap, and `split` drops trailing empty parts.
 */
module JavaStrings {

  /** `Character.isWhitespace` on a BMP character. */
  predicate IsJavaWhitespace(c: char) {
    || c == '\t' || c == '\n' || c == '\U{000B}' || c == '\U{000C}' || c == '\r'
    || ('\U{001C}' <= c <= '\U{001F}')
    || c == ' ' || c == '\U{1680}'
    || ('\U{2000}' <= c <= '\U{2006}') || ('\U{2008}' <= c <= '\U{200A}')
    || c == '\U{2028}' || c == '\U{2029}' || c == '\U{205F}' || c == '\U{3000}'
  }

  /** `String.isBlank`: empty or only whitespace. */
  predicate IsBlank(s: string) {
    forall i :: 0 <= i < |s| ==> IsJavaWhitespace(s[i])
  }

  predicate StartsWith(s: string, prefix: string) {
    |prefix| <= |s| && s[..|prefix|] == prefix
  }

  predicate EndsWith(s: string, suffix: string) {
    |suffix| <= |s| && s[|s| - |suffix|..] == suffix
  }

  /** Does `pat` occur in `s` starting at index `i`? */
  predicate OccursAt(s: string, pat: string, i: int) {
    0 <= i && i + |pat| <= |s| && s[i..i + |pat|] == pat
  }

  function TrimStart(s: string): (r: string)
    ensures |r| <= |s| && r == s[|s| - |r|..]
    ensures |r| > 0 ==> r[0] > ' '
    ensures forall i :: 0 <= i < |s| - |r| ==> s[i] <= ' '
  {
    if |s| > 0 && s[0] <= ' ' then TrimStart(s[1..]) else s
  }

  function TrimEnd(s: string): (r: string)
    ensures |r| <= |s| && r == s[..|r|]
    ensures |r| > 0 ==> r[|r| - 1] > ' '
    ensures forall i :: |r| <= i < |s| ==> s[i] <= ' '
  {
    if |s| > 0 && s[|s| - 1] <= ' ' then TrimEnd(s[..|s| - 1]) else s
  }

  /** `String.trim`: drops every leading and trailing character `<= ' '`. */
  function Trim(s: string): (r: string)
    ensures |r| > 0 ==> r[0] > ' ' && r[|r| - 1] > ' '
  {
    TrimEnd(TrimStart(s))
  }

  /** A trailing blank changes nothing once the text is trimmed. */
  lemma TrimDropsTrailingBlank(s: string)
    ensures Trim(s + " ") == Trim(s)
  {
    TrimStartTrailingBlank(s);
    var t := TrimStart(s);
    if t != "" {
      assert (t + " ")[..|t + " "| - 1] == t;
    }
  }

  lemma {:induction false} TrimStartTrailingBlank(s: string)
    ensures TrimStart(s + " ") == if TrimStart(s) == "" then "" else TrimStart(s) + " "
    decreases |s|
  {
    if |s| == 0 {
      assert TrimStart(" ") == TrimStart(" "[1..]);
    } else if s[0] <= ' ' {
      assert (s + " ")[1..] == s[1..] + " ";
      TrimStartTrailingBlank(s[1..]);
    }
  }

  /** A text that starts and ends with a visible character is its own trim. */
  lemma TrimVisible(s: string)
    requires |s| > 0 && s[0] > ' ' && s[|s| - 1] > ' '
    ensures Trim(s) == s
  {
  }

  /** `String.join(sep, parts)`. */
  function Join(sep: string, parts: seq<string>): (r: string)
    ensures |parts| == 1 ==> r == parts[0]
  {
    if |parts| == 0 then ""
    else if |parts| == 1 then parts[0]
    else parts[0] + sep + Join(sep, parts[1..])
  }

  /** `s.replace(pat, rep)` for a non-empty `pat`: left to right, no overlap. */
  function ReplaceNonEmpty(s: string, pat: string, rep: string): string
    requires |pat| > 0
    decreases |s|
  {
    if |s| < |pat| then s
    else if s[..|pat|] == pat then rep + ReplaceNonEmpty(s[|pat|..], pat, rep)
    else [s[0]] + ReplaceNonEmpty(s[1..], pat, rep)
  }

  /** `s.replace("", rep)`: `rep` before every character and at the end. */
  function InterleaveAll(s: string, rep: string): string {
    if |s| == 0 then rep else rep + [s[0]] + InterleaveAll(s[1..], rep)
  }

  /** `String.replace(CharSequence, CharSequence)`. */
  function Replace(s: string, pat: string, rep: string): (r: string)
    ensures |pat| > 0 && (forall i :: !OccursAt(s, pat, i)) ==> r == s
  {
    if |pat| == 0 then InterleaveAll(s, rep)
    else
      NoOccurrenceUnchanged(s, pat, rep);
      ReplaceNonEmpty(s, pat, rep)
  }

  lemma {:induction false} NoOccurrenceUnchanged(s: string, pat: string, rep: string)
    requires |pat| > 0
    ensures (forall i :: !OccursAt(s, pat, i)) ==> ReplaceNonEmpty(s, pat, rep) == s
    decreases |s|
  {
    if (forall i :: !OccursAt(s, pat, i)) && |s| >= |pat| {
      assert !OccursAt(s, pat, 0);
      forall i ensures !OccursAt(s[1..], pat, i) {
        if 0 <= i && i + |pat| <= |s| - 1 {
          assert s[1..][i..i + |pat|] == s[i + 1..i + 1 + |pat|];
        }
        assert !OccursAt(s, pat, i + 1);
      }
      NoOccurrenceUnchanged(s[1..], pat, rep);
      assert s == [s[0]] + s[1..];
    }
  }

  /** A text that does not contain the first character of `pat` passes through unchanged. */
  lemma {:induction false} ReplaceSkipsPlainPrefix(a: string, b: string, pat: string, rep: string)
    requires |pat| > 0 && pat[0] !in a
    ensures ReplaceNonEmpty(a + b, pat, rep) == a + ReplaceNonEmpty(b, pat, rep)
    decreases |a|
  {
    if |a| > 0 {
      var s := a + b;
      if |s| < |pat| {
        NoOccurrenceShort(b, pat, rep);
        NoOccurrenceShort(s, pat, rep);
      } else {
        assert s[0] == a[0] != pat[0];
        assert s[..|pat|] != pat;
        assert s[1..] == a[1..] + b;
        ReplaceSkipsPlainPrefix(a[1..], b, pat, rep);
        assert a == [a[0]] + a[1..];
        calc {
          ReplaceNonEmpty(s, pat, rep);
          [s[0]] + ReplaceNonEmpty(a[1..] + b, pat, rep);
          [a[0]] + (a[1..] + ReplaceNonEmpty(b, pat, rep));
          a + ReplaceNonEmpty(b, pat, rep);
        }
      }
    } else {
      assert a + b == b;
    }
  }

  lemma NoOccurrenceShort(s: string, pat: string, rep: string)
    requires 0 < |pat| && |s| < |pat|
    ensures ReplaceNonEmpty(s, pat, rep) == s
  {
  }

  /** An occurrence of `pat` at the front is replaced, then the scan goes on after it. */
  lemma ReplaceAtFront(s: string, pat: string, rep: string)
    requires |pat| > 0
    ensures ReplaceNonEmpty(pat + s, pat, rep) == rep + ReplaceNonEmpty(s, pat, rep)
  {
    assert (pat + s)[..|pat|] == pat;
    assert (pat + s)[|pat|..] == s;
  }

  /** Index of the first `c` in `s`, or `|s|` when there is none. */
  function IndexOf(s: string, c: char): (i: nat)
    ensures i <= |s|
    ensures i < |s| ==> s[i] == c
    ensures forall j :: 0 <= j < i ==> s[j] != c
    ensures i == |s| <==> c !in s
  {
    if |s| == 0 then 0
    else if s[0] == c then 0
    else 1 + IndexOf(s[1..], c)
  }

  /** All parts of `s` between occurrences of `c`, empty ones included. */
  function Pieces(s: string, c: char): (ps: seq<string>)
    ensures |ps| >= 1
    ensures forall i :: 0 <= i < |ps| ==> c !in ps[i]
    decreases |s|
  {
    var i := IndexOf(s, c);
    if i == |s| then [s]
    else [s[..i]] + Pieces(s[i + 1..], c)
  }

  /** Joining the parts with the separator gives back the string. */
  lemma {:induction false} JoinPieces(s: string, c: char)
    ensures Join([c], Pieces(s, c)) == s
    decreases |s|
  {
    var i := IndexOf(s, c);
    if i < |s| {
      JoinPieces(s[i + 1..], c);
      var rest := Pieces(s[i + 1..], c);
      var ps := [s[..i]] + rest;
      assert Pieces(s, c) == ps;
      assert ps[1..] == rest;
      assert Join([c], ps) == s[..i] + [c] + Join([c], rest);
      assert s == s[..i] + [c] + s[i + 1..];
    }
  }

  function DropTrailingEmpty(ps: seq<string>): (r: seq<string>)
    ensures |r| <= |ps| && r == ps[..|r|]
    ensures |r| > 0 ==> r[|r| - 1] != ""
    ensures forall i :: |r| <= i < |ps| ==> ps[i] == ""
  {
    if |ps| > 0 && ps[|ps| - 1] == "" then DropTrailingEmpty(ps[..|ps| - 1]) else ps
  }

  /** `s.split(c)` for a one-character, non-special regex `c`. */
  function Split(s: string, c: char): (ps: seq<string>)
    ensures c !in s ==> ps == [s]
    ensures forall i :: 0 <= i < |ps| ==> c !in ps[i]
  {
    if c !in s then [s] else DropTrailingEmpty(Pieces(s, c))
  }

  lemma {:induction false} JoinAppend(sep: string, xs: seq<string>, ys: seq<string>)
    requires |xs| > 0 && |ys| > 0
    ensures Join(sep, xs + ys) == Join(sep, xs) + sep + Join(sep, ys)
    decreases |xs|
  {
    if |xs| == 1 {
      assert (xs + ys)[1..] == ys;
    } else {
      JoinAppend(sep, xs[1..], ys);
      assert (xs + ys)[1..] == xs[1..] + ys;
    }
  }

  /** Joining only empty parts leaves just the separators. */
  lemma {:induction false} JoinAllEmpty(c: char, xs: seq<string>)
    requires |xs| > 0 && forall i :: 0 <= i < |xs| ==> xs[i] == ""
    ensures |Join([c], xs)| == |xs| - 1
    ensures forall i :: 0 <= i < |Join([c], xs)| ==> Join([c], xs)[i] == c
    decreases |xs|
  {
    if |xs| > 1 {
      JoinAllEmpty(c, xs[1..]);
    }
  }

  /** Every character of a part is a character of the joined string. */
  lemma {:induction false} JoinKeepsCharacters(sep: string, xs: seq<string>, k: nat, j: nat)
    requires k < |xs| && j < |xs[k]|
    ensures xs[k][j] in Join(sep, xs)
    decreases |xs|
  {
    if |xs| > 1 {
      if k == 0 {
        assert Join(sep, xs) == xs[0] + (sep + Join(sep, xs[1..]));
        assert Join(sep, xs)[j] == xs[0][j];
      } else {
        JoinKeepsCharacters(sep, xs[1..], k - 1, j);
        assert Join(sep, xs) == (xs[0] + sep) + Join(sep, xs[1..]);
      }
    }
  }

  /** `s.split(c)` is empty exactly when `s` is made of separators only. */
  lemma SplitEmptyIffOnlySeparators(s: string, c: char)
    ensures |Split(s, c)| == 0 <==> |s| > 0 && forall i :: 0 <= i < |s| ==> s[i] == c
  {
    if c !in s {
      if |s| > 0 {
        assert s[0] != c;
      }
    } else {
      var ps := Pieces(s, c);
      JoinPieces(s, c);
      if |DropTrailingEmpty(ps)| == 0 {
        JoinAllEmpty(c, ps);
      }
      if |s| > 0 && forall i :: 0 <= i < |s| ==> s[i] == c {
        forall k | 0 <= k < |ps| ensures ps[k] == "" {
          if ps[k] != "" {
            JoinKeepsCharacters([c], ps, k, 0);
          }
        }
      }
    }
  }

  /**
    The last part of `s.split(c)` is the text after the last separator once
    trailing separators are ignored.
   */
  lemma SplitLastPart(s: string, c: char)
    requires |Split(s, c)| > 0
    ensures var n := Split(s, c)[|Split(s, c)| - 1];
      && c !in n
      && (c in s ==> n != "")
      && exists p, t :: s == p + n + t && (p == [] || p[|p| - 1] == c) && forall i :: 0 <= i < |t| ==> t[i] == c
  {
    var n := Split(s, c)[|Split(s, c)| - 1];
    if c !in s {
      assert s == [] + n + [];
    } else {
      var ps := Pieces(s, c);
      JoinPieces(s, c);
      var m := |DropTrailingEmpty(ps)|;
      assert n == ps[m - 1];
      var p := LastPartPrefix(ps, m, c);
      var t := LastPartSuffix(ps, m, c);
      assert s == p + n + t;
    }
  }

  /** The joined parts before part `m - 1`, with the separator that follows them. */
  lemma LastPartPrefix(ps: seq<string>, m: nat, c: char) returns (p: string)
    requires 0 < m <= |ps|
    ensures Join([c], ps[..m]) == p + ps[m - 1]
    ensures p == [] || p[|p| - 1] == c
  {
    if m == 1 {
      p := [];
      assert ps[..m] == [ps[0]];
    } else {
      p := Join([c], ps[..m - 1]) + [c];
      assert ps[..m] == ps[..m - 1] + [ps[m - 1]];
      JoinAppend([c], ps[..m - 1], [ps[m - 1]]);
    }
  }

  /** The separators that the empty trailing parts from `m` on contribute. */
  lemma LastPartSuffix(ps: seq<string>, m: nat, c: char) returns (t: string)
    requires 0 < m <= |ps|
    requires forall i :: m <= i < |ps| ==> ps[i] == ""
    ensures Join([c], ps) == Join([c], ps[..m]) + t
    ensures forall i :: 0 <= i < |t| ==> t[i] == c
  {
    if m == |ps| {
      t := [];
      assert ps[..m] == ps;
    } else {
      assert ps == ps[..m] + ps[m..];
      JoinAppend([c], ps[..m], ps[m..]);
      JoinAllEmpty(c, ps[m..]);
      t := [c] + Join([c], ps[m..]);
    }
  }
}

=== FILE: link_object_names.dfy ===
/**
  The output-name provider of the link step's object inputs: an archive
  input produces no output (the caller ignores it); any other input file
  produces an object file named after it.
 */
module LinkObjectNames {
  import opened Wrappers
  import opened Paths

  /** `OBJECT_EXTENSION`. */
  const ObjectExtension: string := ".o"

  /**
    `getOutputFileName`. Whether an input is an archive is the archive name
    provider's decision, passed in as `isArchive`; the configuration and
    the input and output types are accepted and not consulted.
   */
  function OutputFileName<C, I, O>(inputFile: Path, isArchive: Path -> bool, config: C, inputType: I, outputType: O): (name: Option<string>)
    ensures name.None? <==> isArchive(inputFile)
    ensures name.Some? ==>
              && |name.value| == |Name(inputFile)| + 2
              && name.value[..|Name(inputFile)|] == Name(inputFile)
              && name.value[|Name(inputFile)|..] == ".o"
  {
    if isArchive(inputFile) then None else Some(Name(inputFile) + ObjectExtension)
  }

  /** Removing the object extension gives back the input's file name. */
  lemma StripExtensionGivesName<C, I, O>(inputFile: Path, isArchive: Path -> bool, config: C, inputType: I, outputType: O)
    requires !isArchive(inputFile)
    ensures var n := OutputFileName(inputFile, isArchive, config, inputType, outputType).value;
            n[..|n| - 2] == Name(inputFile) && n[|n| - 2..] == ObjectExtension
  {
  }

  /** Two inputs with different file names never share an object name. */
  lemma OutputNamesInjective<C, I, O>(f: Path, g: Path, isArchive: Path -> bool, config: C, inputType: I, outputType: O)
    requires !isArchive(f) && !isArchive(g) && Name(f) != Name(g)
    ensures OutputFileName(f, isArchive, config, inputType, outputType) != OutputFileName(g, isArchive, config, inputType, outputType)
  {
    var nf := OutputFileName(f, isArchive, config, inputType, outputType).value;
    var ng := OutputFileName(g, isArchive, config, inputType, outputType).value;
    assert nf[..|nf| - 2] == Name(f);
    assert ng[..|ng| - 2] == Name(g);
  }

  /** The result depends on the input file alone, not on the configuration or the types. */
  lemma OutputFileNameIgnoresContext<C, I, O>(inputFile: Path, isArchive: Path -> bool,
                                             config: C, inputType: I, outputType: O,
                                             config': C, inputType': I, outputType': O)
    ensures OutputFileName(inputFile, isArchive, config, inputType, outputType) ==
            OutputFileName(inputFile, isArchive, config', inputType', outputType')
  {
  }
}

=== FILE: linked_maps.dfy ===
/**
  Java's `LinkedHashMap`: a map whose iteration order is the order in which
  keys were first inserted. Re-putting a present key replaces its value in
  place; removing a key keeps the order of the others.
 */
module LinkedMaps {
  import opened Wrappers

  /** `keys` is the iteration order, `values` the key/value association. */
  datatype LinkedMapRaw<K(==,!new), V> = LinkedMapRaw(keys: seq<K>, values: map<K, V>)

  ghost predicate Valid<K(!new), V>(m: LinkedMapRaw<K, V>) {
    && (forall i, j :: 0 <= i < j < |m.keys| ==> m.keys[i] != m.keys[j])
    && (forall k :: k in m.values <==> k in m.keys)
  }

  type LinkedMap<K(==,!new), V> = m: LinkedMapRaw<K, V> | Valid(m) witness LinkedMapRaw([], map[])

  function Empty<K(==,!new), V>(): (m: LinkedMap<K, V>)
    ensures |m.keys| == 0
  {
    LinkedMapRaw([], map[])
  }

  predicate ContainsKey<K(==,!new), V>(m: LinkedMap<K, V>, k: K) {
    k in m.values
  }

  /** `get(k)`: the value stored under `k`, `None` for Java's `null`. */
  function Get<K(==,!new), V>(m: LinkedMap<K, V>, k: K): (r: Option<V>)
    ensures r.Some? <==> k in m.keys
  {
    if k in m.values then Some(m.values[k]) else None
  }

  /** Values in iteration order (`values()`). */
  function Values<K(==,!new), V>(m: LinkedMap<K, V>): (vs: seq<V>)
    ensures |vs| == |m.keys|
    ensures forall i :: 0 <= i < |vs| ==> Get(m, m.keys[i]) == Some(vs[i])
  {
    seq(|m.keys|, i requires 0 <= i < |m.keys| => m.values[m.keys[i]])
  }

  /** `put(k, v)`: a new key goes last; a present key keeps its place. */
  function Put<K(==,!new), V>(m: LinkedMap<K, V>, k: K, v: V): (r: LinkedMap<K, V>)
    ensures Get(r, k) == Some(v)
    ensures forall k' :: k' != k ==> Get(r, k') == Get(m, k')
    ensures k in m.keys ==> r.keys == m.keys
    ensures k !in m.keys ==> r.keys == m.keys + [k]
    ensures forall x :: x in r.keys <==> x in m.keys || x == k
    ensures forall x :: x in m.keys && x != k ==> r.values[x] == m.values[x]
  {
    var keys := if k in m.values then m.keys else m.keys + [k];
    LinkedMapRaw(keys, m.values[k := v])
  }

  function Without<K(==,!new)>(ks: seq<K>, k: K): (r: seq<K>)
    ensures forall x :: x in r <==> x in ks && x != k
    ensures k !in ks ==> r == ks
    ensures (forall i, j :: 0 <= i < j < |ks| ==> ks[i] != ks[j]) ==>
              (forall i, j :: 0 <= i < j < |r| ==> r[i] != r[j])
  {
    if |ks| == 0 then []
    else if ks[0] == k then Without(ks[1..], k)
    else
      var rest := Without(ks[1..], k);
      assert ks == [ks[0]] + ks[1..];
      assert (forall i, j :: 0 <= i < j < |ks| ==> ks[i] != ks[j]) ==> ks[0] !in rest by {
        if ks[0] in rest {
          var j :| 0 <= j < |ks[1..]| && ks[1..][j] == ks[0];
          assert ks[j + 1] == ks[0];
        }
      }
      [ks[0]] + rest
  }

  /** `remove(k)`: drops the entry of `k`, keeps the others in order. */
  function Remove<K(==,!new), V>(m: LinkedMap<K, V>, k: K): (r: LinkedMap<K, V>)
    ensures Get(r, k) == None
    ensures forall k' :: k' != k ==> Get(r, k') == Get(m, k')
    ensures k !in m.keys ==> r == m
    ensures forall x :: x in r.keys <==> x in m.keys && x != k
  {
    LinkedMapRaw(Without(m.keys, k), m.values - {k})
  }

  /** `ret.addAll(cur)` for each set of `vs` in turn, starting from `acc`. */
  function AddAllSets<T>(acc: set<T>, vs: seq<set<T>>): set<T>
    decreases |vs|
  {
    if |vs| == 0 then acc else AddAllSets(acc + vs[0], vs[1..])
  }

  /** `x` is in one of the sets of `vs`. */
  predicate InSome<T>(vs: seq<set<T>>, x: T) {
    exists i :: 0 <= i < |vs| && x in vs[i]
  }

  /** `x` is in the value of one of the keys of `m`. */
  predicate InSomeValue<K(==,!new), T(!new)>(m: LinkedMap<K, set<T>>, x: T) {
    exists k :: k in m.keys && x in m.values[k]
  }

  /** After the loop, an element is present exactly when it was at the start or is in one of the sets. */
  lemma {:induction false} AddAllSetsMembers<T>(acc: set<T>, vs: seq<set<T>>)
    ensures forall x :: x in AddAllSets(acc, vs) <==> x in acc || InSome(vs, x)
    decreases |vs|
  {
    if |vs| > 0 {
      AddAllSetsMembers(acc + vs[0], vs[1..]);
      forall x | InSome(vs, x)
        ensures x in vs[0] || InSome(vs[1..], x)
      {
        var i :| 0 <= i < |vs| && x in vs[i];
        if i > 0 {
          assert x in vs[1..][i - 1];
        }
      }
      forall x | InSome(vs[1..], x)
        ensures InSome(vs, x)
      {
        var i :| 0 <= i < |vs[1..]| && x in vs[1..][i];
        assert x in vs[i + 1];
      }
    }
  }

  /** Being in one of the listed values is being in the value of one of the keys. */
  lemma ValuesMembers<K(!new), T(!new)>(m: LinkedMap<K, set<T>>)
    ensures forall x :: InSome(Values(m), x) <==> InSomeValue(m, x)
  {
    var vs := Values(m);
    forall x | InSomeValue(m, x)
      ensures InSome(vs, x)
    {
      var k :| k in m.keys && x in m.values[k];
      var i :| 0 <= i < |m.keys| && m.keys[i] == k;
      assert Get(m, m.keys[i]) == Some(vs[i]);
    }
    forall x | InSome(vs, x)
      ensures InSomeValue(m, x)
    {
      var i :| 0 <= i < |vs| && x in vs[i];
      assert Get(m, m.keys[i]) == Some(vs[i]);
      assert m.keys[i] in m.keys;
    }
  }

  /**
    The flattening getters: a fresh set gets `addAll` of every value in
    iteration order. A member is exactly an element of some key's value,
    whatever the order.
   */
  function UnionOfValues<K(==,!new), T(!new)>(m: LinkedMap<K, set<T>>): (u: set<T>)
    ensures forall x :: x in u <==> exists k :: k in m.keys && x in m.values[k]
  {
    AddAllSetsMembers({}, Values(m));
    ValuesMembers(m);
    AddAllSets({}, Values(m))
  }

  /** Putting a set under a key adds at most that set to the union of values. */
  lemma UnionOfValuesPut<K(!new), T(!new)>(m: LinkedMap<K, set<T>>, k: K, v: set<T>)
    ensures UnionOfValues(Put(m, k, v)) <= UnionOfValues(m) + v
    ensures k !in m.keys ==> UnionOfValues(Put(m, k, v)) == UnionOfValues(m) + v
  {
    var r := Put(m, k, v);
    forall x | x in UnionOfValues(r) ensures x in UnionOfValues(m) + v {
      var k' :| k' in r.keys && x in r.values[k'];
      if k' != k {
        assert Get(r, k') == Get(m, k');
      }
    }
    if k !in m.keys {
      forall x | x in UnionOfValues(m) + v ensures x in UnionOfValues(r) {
        if x in UnionOfValues(m) {
          var k' :| k' in m.keys && x in m.values[k'];
          assert Get(r, k') == Get(m, k');
        }
      }
    }
  }
}

=== FILE: make_rules.dfy ===
/**
  A build rule of the internal builder: target files grouped by output
  category, prerequisite files grouped by input category, and the
  dependency files (compiler-written `.d` files) derived from the targets.
  Each group map keeps its categories in insertion order.
 */
module MakeRules {
  import opened Wrappers
  import opened LinkedMaps
  import opened Paths

  /** Suffix that turns an output category's build variable into its dependency key. */
  const DependencySuffix: string := "_DEPS"

  datatype InputType = InputType(id: string, buildVariable: string, assignToCmdVariable: string)

  datatype OutputType = OutputType(id: string, buildVariable: string)

  /**
    The tool a rule runs. `dependencyFiles` is the tool's answer to "which
    dependency file does compiling to this target write"; a target that is
    not a key gets Java's `null`.
   */
  datatype Tool = Tool(name: string, dependencyFiles: map<Path, Path>)

  datatype MakeRule = MakeRule(
    targets: LinkedMap<OutputType, set<Path>>,
    prerequisites: LinkedMap<InputType, set<Path>>,
    dependencies: map<string, set<Path>>,
    tool: Tool,
    sequenceGroupId: int)

  predicate Distinct<T(==)>(s: seq<T>) {
    forall i, j :: 0 <= i < j < |s| ==> s[i] != s[j]
  }

  /** A freshly allocated rule before its constructor body runs. */
  function Blank(tool: Tool, sequenceId: int): MakeRule {
    MakeRule(Empty(), Empty(), map[], tool, sequenceId)
  }

  // ---------------------------------------------------------------------
  // Flattening getters

  /** `getTargetFiles`: the target files of every output category. */
  function TargetFiles(r: MakeRule): (fs: set<Path>)
    ensures forall f :: f in fs <==> exists o :: o in r.targets.keys && f in r.targets.values[o]
  {
    UnionOfValues(r.targets)
  }

  /** `getPrerequisiteFiles`: the prerequisite files of every input category. */
  function PrerequisiteFiles(r: MakeRule): (fs: set<Path>)
    ensures forall f :: f in fs <==> exists i :: i in r.prerequisites.keys && f in r.prerequisites.values[i]
  {
    UnionOfValues(r.prerequisites)
  }

  // ---------------------------------------------------------------------
  // Adding files

  /** `addTarget`: the file joins its category's set; a new category goes last. */
  function AddTarget(r: MakeRule, o: OutputType, f: Path): (r': MakeRule)
    ensures o in r.targets.keys ==> r'.targets.keys == r.targets.keys && r'.targets.values[o] == r.targets.values[o] + {f}
    ensures o !in r.targets.keys ==> r'.targets.keys == r.targets.keys + [o] && r'.targets.values[o] == {f}
    ensures forall o' :: o' != o ==> Get(r'.targets, o') == Get(r.targets, o')
    ensures r'.prerequisites == r.prerequisites && r'.dependencies == r.dependencies
    ensures r'.tool == r.tool && r'.sequenceGroupId == r.sequenceGroupId
  {
    r.(targets := Put(r.targets, o, Get(r.targets, o).GetOr({}) + {f}))
  }

  /** `addPrerequisite`: the file joins its category's set; a new category goes last. */
  function AddPrerequisite(r: MakeRule, i: InputType, f: Path): (r': MakeRule)
    ensures i in r.prerequisites.keys ==>
              r'.prerequisites.keys == r.prerequisites.keys && r'.prerequisites.values[i] == r.prerequisites.values[i] + {f}
    ensures i !in r.prerequisites.keys ==> r'.prerequisites.keys == r.prerequisites.keys + [i] && r'.prerequisites.values[i] == {f}
    ensures forall i' :: i' != i ==> Get(r'.prerequisites, i') == Get(r.prerequisites, i')
    ensures r'.targets == r.targets && r'.dependencies == r.dependencies
    ensures r'.tool == r.tool && r'.sequenceGroupId == r.sequenceGroupId
  {
    r.(prerequisites := Put(r.prerequisites, i, Get(r.prerequisites, i).GetOr({}) + {f}))
  }

  /**
    `addPrerequisites`: all files join the category's set. On first insert
    the rule keeps a copy, which with value semantics is the set itself.
   */
  function AddPrerequisites(r: MakeRule, i: InputType, files: set<Path>): (r': MakeRule)
    ensures i in r.prerequisites.keys ==>
              r'.prerequisites.keys == r.prerequisites.keys && r'.prerequisites.values[i] == r.prerequisites.values[i] + files
    ensures i !in r.prerequisites.keys ==> r'.prerequisites.keys == r.prerequisites.keys + [i] && r'.prerequisites.values[i] == files
    ensures forall i' :: i' != i ==> Get(r'.prerequisites, i') == Get(r.prerequisites, i')
    ensures r'.targets == r.targets && r'.dependencies == r.dependencies
    ensures r'.tool == r.tool && r'.sequenceGroupId == r.sequenceGroupId
  {
    r.(prerequisites := Put(r.prerequisites, i, Get(r.prerequisites, i).GetOr({}) + files))
  }

  /** Adding a target that is already in its category changes nothing. */
  lemma AddTargetPresentIsNoOp(r: MakeRule, o: OutputType, f: Path)
    requires o in r.targets.keys && f in r.targets.values[o]
    ensures AddTarget(r, o, f) == r
  {
    var m := r.targets;
    assert m.values[o] + {f} == m.values[o];
    assert m.values[o := m.values[o]] == m.values;
  }

  /** Adding a prerequisite that is already in its category changes nothing. */
  lemma AddPrerequisitePresentIsNoOp(r: MakeRule, i: InputType, f: Path)
    requires i in r.prerequisites.keys && f in r.prerequisites.values[i]
    ensures AddPrerequisite(r, i, f) == r
  {
    var m := r.prerequisites;
    assert m.values[i] + {f} == m.values[i];
    assert m.values[i := m.values[i]] == m.values;
  }

  /** Adding files that are all present already changes nothing. */
  lemma AddPrerequisitesPresentIsNoOp(r: MakeRule, i: InputType, files: set<Path>)
    requires i in r.prerequisites.keys && files <= r.prerequisites.values[i]
    ensures AddPrerequisites(r, i, files) == r
  {
    var m := r.prerequisites;
    assert m.values[i] + files == m.values[i];
    assert m.values[i := m.values[i]] == m.values;
  }

  /** Categories and values of a map of sets, as the union over all of them. */
  lemma UnionGrows<K(!new), T(!new)>(m: LinkedMap<K, set<T>>, k: K, extra: set<T>)
    ensures UnionOfValues(Put(m, k, Get(m, k).GetOr({}) + extra)) == UnionOfValues(m) + extra
  {
    var r := Put(m, k, Get(m, k).GetOr({}) + extra);
    forall x | x in UnionOfValues(r) ensures x in UnionOfValues(m) + extra {
      var k' :| k' in r.keys && x in r.values[k'];
      if k' != k {
        assert Get(r, k') == Get(m, k');
      }
    }
    forall x | x in UnionOfValues(m) + extra ensures x in UnionOfValues(r) {
      if x in UnionOfValues(m) {
        var k' :| k' in m.keys && x in m.values[k'];
        if k' != k {
          assert Get(r, k') == Get(m, k');
        }
        assert x in r.values[k'];
      } else {
        assert x in r.values[k];
      }
    }
  }

  /** The flattened target set after `addTarget` is the old one plus the file. */
  lemma AddTargetUnion(r: MakeRule, o: OutputType, f: Path)
    ensures TargetFiles(AddTarget(r, o, f)) == TargetFiles(r) + {f}
  {
    UnionGrows(r.targets, o, {f});
  }

  /** The flattened prerequisite set after `addPrerequisite` is the old one plus the file. */
  lemma AddPrerequisiteUnion(r: MakeRule, i: InputType, f: Path)
    ensures PrerequisiteFiles(AddPrerequisite(r, i, f)) == PrerequisiteFiles(r) + {f}
  {
    UnionGrows(r.prerequisites, i, {f});
  }

  /** The flattened prerequisite set after `addPrerequisites` is the old one plus the files. */
  lemma AddPrerequisitesUnion(r: MakeRule, i: InputType, files: set<Path>)
    ensures PrerequisiteFiles(AddPrerequisites(r, i, files)) == PrerequisiteFiles(r) + files
  {
    UnionGrows(r.prerequisites, i, files);
  }

  // ---------------------------------------------------------------------
  // Constructors

  /** The constructor taking one input file. */
  function NewRule(tool: Tool, i: InputType, inputFile: Path, o: OutputType, outFile: Path, sequenceId: int): (r: MakeRule)
    ensures r.targets.keys == [o] && r.prerequisites.keys == [i] && r.dependencies == map[]
    ensures TargetFiles(r) == {outFile} && PrerequisiteFiles(r) == {inputFile}
    ensures r.tool == tool && r.sequenceGroupId == sequenceId
  {
    var b := Blank(tool, sequenceId);
    var r1 := AddPrerequisite(b, i, inputFile);
    AddPrerequisiteUnion(b, i, inputFile);
    AddTargetUnion(r1, o, outFile);
    AddTarget(r1, o, outFile)
  }

  /** The constructor taking a set of input files, all of one input category. */
  function NewRuleFromSet(tool: Tool, i: InputType, inputFiles: set<Path>, o: OutputType, outFile: Path, sequenceId: int): (r: MakeRule)
    ensures r.targets.keys == [o] && r.prerequisites.keys == [i] && r.dependencies == map[]
    ensures TargetFiles(r) == {outFile} && PrerequisiteFiles(r) == inputFiles
    ensures r.tool == tool && r.sequenceGroupId == sequenceId
  {
    var b := Blank(tool, sequenceId);
    var r1 := AddPrerequisites(b, i, inputFiles);
    AddPrerequisitesUnion(b, i, inputFiles);
    AddTargetUnion(r1, o, outFile);
    AddTarget(r1, o, outFile)
  }

  // ---------------------------------------------------------------------
  // Dependency files

  /** The key under which an output category's dependency files are kept. */
  function DepKey(o: OutputType): string {
    o.buildVariable + DependencySuffix
  }

  /** `getDependencyFile`: the dependency file the tool names for a target, `None` for `null`. */
  function DependencyFileOf(tool: Tool, f: Path): Option<Path> {
    if f in tool.dependencyFiles then Some(tool.dependencyFiles[f]) else None
  }

  /** `remove(null)`: the present values of a set of optional values. */
  function WithoutNull(s: set<Option<Path>>): (r: set<Path>)
    ensures forall x :: x in r <==> Some(x) in s
  {
    set x | x in s && x.Some? :: x.value
  }

  /**
    The inner loop of `getDependencies`: each target's dependency file is
    added, `null` included, and `null` is removed at the end. A file is kept
    exactly when the tool names it for one of the targets.
   */
  function DepFilesOf(tool: Tool, files: set<Path>): (d: set<Path>)
    ensures forall x :: x in d <==> exists f :: f in files && f in tool.dependencyFiles && tool.dependencyFiles[f] == x
  {
    var added := set f | f in files :: DependencyFileOf(tool, f);
    assert forall x :: Some(x) in added <==> exists f :: f in files && f in tool.dependencyFiles && tool.dependencyFiles[f] == x;
    WithoutNull(added)
  }

  /**
    The result does not depend on how the targets are grouped or visited:
    it distributes over union, and one target gives its dependency file or
    nothing.
   */
  lemma DepFilesOfUnion(tool: Tool, a: set<Path>, b: set<Path>, f: Path)
    ensures DepFilesOf(tool, a + b) == DepFilesOf(tool, a) + DepFilesOf(tool, b)
    ensures DepFilesOf(tool, {f}) == match DependencyFileOf(tool, f) case None => {} case Some(d) => {d}
  {
    assert DepFilesOf(tool, a + b) == DepFilesOf(tool, a) + DepFilesOf(tool, b);
    if f in tool.dependencyFiles {
      assert tool.dependencyFiles[f] in DepFilesOf(tool, {f});
    }
  }

  /**
    The dependency map after visiting `keys` in order, starting from an
    empty map: each category puts its key, a later category with the same
    key overwrites an earlier one.
   */
  function DepMap(keys: seq<OutputType>, values: map<OutputType, set<Path>>, tool: Tool): map<string, set<Path>>
    requires forall o :: o in keys ==> o in values
  {
    if |keys| == 0 then map[]
    else
      var o := keys[|keys| - 1];
      DepMap(keys[..|keys| - 1], values, tool)[DepKey(o) := DepFilesOf(tool, values[o])]
  }

  /**
    One key per visited category and no other; each key holds the
    dependency set of a category with that key.
   */
  lemma {:induction false} DepMapShape(keys: seq<OutputType>, values: map<OutputType, set<Path>>, tool: Tool)
    requires forall o :: o in keys ==> o in values
    ensures forall k :: k in DepMap(keys, values, tool) <==> exists o :: o in keys && k == DepKey(o)
    ensures forall k :: k in DepMap(keys, values, tool) ==>
              exists o :: o in keys && k == DepKey(o) && DepMap(keys, values, tool)[k] == DepFilesOf(tool, values[o])
  {
    if |keys| > 0 {
      var init := keys[..|keys| - 1];
      var o := keys[|keys| - 1];
      assert keys == init + [o];
      DepMapShape(init, values, tool);
      var prev := DepMap(init, values, tool);
      var d := DepMap(keys, values, tool);
      assert d == prev[DepKey(o) := DepFilesOf(tool, values[o])];
      forall k | k in d ensures exists o' :: o' in keys && k == DepKey(o') && d[k] == DepFilesOf(tool, values[o']) {
        if k != DepKey(o) {
          var o' :| o' in init && k == DepKey(o') && prev[k] == DepFilesOf(tool, values[o']);
          assert o' in keys;
        }
      }
      forall k | exists o' :: o' in keys && k == DepKey(o') ensures k in d {
        var o' :| o' in keys && k == DepKey(o');
        if o' != o {
          assert o' in init;
        }
      }
    }
  }

  /** With distinct dependency keys, every category's key holds exactly its own dependency set. */
  lemma {:induction false} DepMapPerCategory(keys: seq<OutputType>, values: map<OutputType, set<Path>>, tool: Tool)
    requires forall o :: o in keys ==> o in values
    requires forall o, o' :: o in keys && o' in keys && DepKey(o) == DepKey(o') ==> o == o'
    ensures forall o :: o in keys ==> DepKey(o) in DepMap(keys, values, tool) && DepMap(keys, values, tool)[DepKey(o)] == DepFilesOf(tool, values[o])
  {
    if |keys| > 0 {
      var init := keys[..|keys| - 1];
      var o := keys[|keys| - 1];
      assert keys == init + [o];
      DepMapPerCategory(init, values, tool);
    }
  }

  /** `getDependencies` applied to a rule's targets and tool. */
  function Dependencies(targets: LinkedMap<OutputType, set<Path>>, tool: Tool): map<string, set<Path>> {
    DepMap(targets.keys, targets.values, tool)
  }

  /** `getDependencies`: the cached dependency map is rebuilt from scratch, one key per output category. */
  function GetDependencies(r: MakeRule): (r': MakeRule)
    ensures r'.targets == r.targets && r'.prerequisites == r.prerequisites
    ensures r'.tool == r.tool && r'.sequenceGroupId == r.sequenceGroupId
    ensures forall k :: k in r'.dependencies <==> exists o :: o in r.targets.keys && k == DepKey(o)
  {
    DepMapShape(r.targets.keys, r.targets.values, r.tool);
    r.(dependencies := Dependencies(r.targets, r.tool))
  }

  /** Rebuilding forgets the old cache: two rules that differ only in it agree afterwards. */
  lemma GetDependenciesIgnoresCache(r: MakeRule, stale: map<string, set<Path>>)
    ensures GetDependencies(r.(dependencies := stale)) == GetDependencies(r)
  {
  }

  /** Output categories whose dependency keys do not collide. */
  predicate DistinctDepKeys(targets: LinkedMap<OutputType, set<Path>>) {
    forall o, o' :: o in targets.keys && o' in targets.keys && DepKey(o) == DepKey(o') ==> o == o'
  }

  /** The union of the sets of a dependency map. */
  function AllDepFiles(d: map<string, set<Path>>): (fs: set<Path>)
    ensures forall x :: x in fs <==> exists k :: k in d && x in d[k]
  {
    set k, x | k in d && x in d[k] :: x
  }

  lemma AllDepFilesSingleton(k: string, fs: set<Path>)
    ensures AllDepFiles(map[k := fs]) == fs
  {
    forall x | x in fs ensures x in AllDepFiles(map[k := fs]) {
      assert k in map[k := fs];
    }
  }

  /**
    The answer of a getter that first rebuilds the dependency cache
    (`getDependencies()`), together with the rule as the call leaves it.
   */
  datatype Rebuilt<T> = Rebuilt(rule: MakeRule, value: T)

  /** Every file of the rebuilt dependency sets is the dependency file of some target. */
  lemma RebuiltDepFilesFromTargets(r: MakeRule)
    ensures AllDepFiles(Dependencies(r.targets, r.tool)) <= DepFilesOf(r.tool, TargetFiles(r))
  {
    var d := Dependencies(r.targets, r.tool);
    DepMapShape(r.targets.keys, r.targets.values, r.tool);
    forall x | x in AllDepFiles(d) ensures x in DepFilesOf(r.tool, TargetFiles(r)) {
      var k :| k in d && x in d[k];
      var o :| o in r.targets.keys && k == DepKey(o) && d[k] == DepFilesOf(r.tool, r.targets.values[o]);
      var f :| f in r.targets.values[o] && f in r.tool.dependencyFiles && r.tool.dependencyFiles[f] == x;
      assert f in TargetFiles(r);
    }
  }

  /**
    `getDependencyFiles`: the cache is rebuilt, then the union of its sets
    is returned; every such file is the dependency file of some target.
   */
  function DependencyFiles(r: MakeRule): (res: Rebuilt<set<Path>>)
    ensures res.rule == GetDependencies(r)
    ensures res.value == AllDepFiles(res.rule.dependencies)
    ensures res.value <= DepFilesOf(r.tool, TargetFiles(r))
  {
    RebuiltDepFilesFromTargets(r);
    var r' := GetDependencies(r);
    Rebuilt(r', AllDepFiles(r'.dependencies))
  }

  /**
    With distinct build variables, the dependency files are exactly the
    non-null dependency files of all targets.
   */
  lemma DependencyFilesExact(r: MakeRule)
    requires DistinctDepKeys(r.targets)
    ensures DependencyFiles(r).value == DepFilesOf(r.tool, TargetFiles(r))
  {
    var d := Dependencies(r.targets, r.tool);
    DepMapPerCategory(r.targets.keys, r.targets.values, r.tool);
    forall x | x in DepFilesOf(r.tool, TargetFiles(r)) ensures x in AllDepFiles(d) {
      var f :| f in TargetFiles(r) && f in r.tool.dependencyFiles && r.tool.dependencyFiles[f] == x;
      var o :| o in r.targets.keys && f in r.targets.values[o];
      assert x in d[DepKey(o)];
    }
  }

  /** The rule with target `a` in category `o1` and then target `b` in category `o2`. */
  function TwoTargets(t: Tool, o1: OutputType, o2: OutputType, a: Path, b: Path): MakeRule {
    AddTarget(AddTarget(Blank(t, 0), o1, a), o2, b)
  }

  /** Two categories with the same key leave one entry, holding the second category's set. */
  lemma DepMapOfCollidingPair(o1: OutputType, o2: OutputType, values: map<OutputType, set<Path>>, t: Tool)
    requires o1 in values && o2 in values && DepKey(o1) == DepKey(o2)
    ensures DepMap([o1, o2], values, t) == map[DepKey(o2) := DepFilesOf(t, values[o2])]
  {
    assert [o1, o2][..1] == [o1] && [o1][..0] == [];
    assert DepMap([o1], values, t) == map[DepKey(o1) := DepFilesOf(t, values[o1])];
  }

  /** Output categories that share a build variable keep only the last category's dependency files. */
  lemma CollidingCategoriesKeepLast(t: Tool, o1: OutputType, o2: OutputType, a: Path, b: Path)
    requires o1 != o2 && o1.buildVariable == o2.buildVariable
    ensures DependencyFiles(TwoTargets(t, o1, o2, a, b)).value == DepFilesOf(t, {b})
  {
    var r1 := AddTarget(Blank(t, 0), o1, a);
    var r := AddTarget(r1, o2, b);
    assert r1.targets.keys == [o1];
    assert r.targets.keys == [o1, o2];
    assert r.targets.values[o2] == {b};
    DepMapOfCollidingPair(o1, o2, r.targets.values, t);
    var d := Dependencies(r.targets, t);
    assert d == map[DepKey(o2) := DepFilesOf(t, {b})];
    AllDepFilesSingleton(DepKey(o2), DepFilesOf(t, {b}));
  }

  /**
    So the earlier target's dependency file is lost from the dependency
    files, and with it from the staleness check, unless the later target
    names the same one.
   */
  lemma CollidingCategoriesLoseDependency(t: Tool, o1: OutputType, o2: OutputType, a: Path, b: Path)
    requires o1 != o2 && o1.buildVariable == o2.buildVariable
    requires a in t.dependencyFiles && (b in t.dependencyFiles ==> t.dependencyFiles[a] != t.dependencyFiles[b])
    ensures t.dependencyFiles[a] in DepFilesOf(t, TargetFiles(TwoTargets(t, o1, o2, a, b)))
    ensures t.dependencyFiles[a] !in DependencyFiles(TwoTargets(t, o1, o2, a, b)).value
  {
    CollidingCategoriesKeepLast(t, o1, o2, a, b);
    var r1 := AddTarget(Blank(t, 0), o1, a);
    AddTargetUnion(Blank(t, 0), o1, a);
    AddTargetUnion(r1, o2, b);
    assert a in TargetFiles(TwoTargets(t, o1, o2, a, b));
  }

  // ---------------------------------------------------------------------
  // Macro names (insertion-ordered sets, as `LinkedHashSet`)

  /** `addAll` on an insertion-ordered set: new elements are appended, duplicates skipped. */
  function AddAll(acc: seq<string>, xs: seq<string>): (r: seq<string>)
    requires Distinct(acc)
    ensures Distinct(r)
    ensures |acc| <= |r| && r[..|acc|] == acc
    ensures forall x :: x in r <==> x in acc || x in xs
    decreases |xs|
  {
    if |xs| == 0 then acc
    else if xs[0] in acc then AddAll(acc, xs[1..])
    else
      var acc' := acc + [xs[0]];
      var r := AddAll(acc', xs[1..]);
      assert r[..|acc|] == r[..|acc'|][..|acc|];
      r
  }

  /** The names `name` gives the categories of `keys`, in their order. */
  function NamesInOrder<T>(keys: seq<T>, name: T -> string): (ns: seq<string>)
    ensures |ns| == |keys| && forall i :: 0 <= i < |keys| ==> ns[i] == name(keys[i])
  {
    if |keys| == 0 then [] else [name(keys[0])] + NamesInOrder(keys[1..], name)
  }

  /** A name is listed exactly when some category has it. */
  lemma NamesInOrderMembers<T>(keys: seq<T>, name: T -> string)
    ensures forall m :: m in NamesInOrder(keys, name) <==> exists k :: k in keys && name(k) == m
  {
    var ns := NamesInOrder(keys, name);
    forall m | m in ns ensures exists k :: k in keys && name(k) == m {
      var i :| 0 <= i < |ns| && ns[i] == m;
      assert keys[i] in keys;
    }
    forall m | exists k :: k in keys && name(k) == m ensures m in ns {
      var k :| k in keys && name(k) == m;
      var i :| 0 <= i < |keys| && keys[i] == k;
      assert ns[i] == m;
    }
  }

  function OutputVariable(o: OutputType): string {
    o.buildVariable
  }

  function InputVariable(i: InputType): string {
    i.buildVariable
  }

  /** `getTargetMacros`: the build variables of the output categories, first occurrence first. */
  function TargetMacros(r: MakeRule): (ms: seq<string>)
    ensures Distinct(ms)
    ensures forall m :: m in ms <==> exists o :: o in r.targets.keys && o.buildVariable == m
  {
    NamesInOrderMembers(r.targets.keys, OutputVariable);
    AddAll([], NamesInOrder(r.targets.keys, OutputVariable))
  }

  /** `getPrerequisiteMacros`: the input categories' build variables, the empty one removed. */
  function PrerequisiteMacros(r: MakeRule): (ms: seq<string>)
    ensures Distinct(ms)
    ensures forall m :: m in ms <==> m != "" && exists i :: i in r.prerequisites.keys && i.buildVariable == m
  {
    NamesInOrderMembers(r.prerequisites.keys, InputVariable);
    Without(AddAll([], NamesInOrder(r.prerequisites.keys, InputVariable)), "")
  }

  /**
    `getDependencyMacros`: the cache is rebuilt, then its keys are listed
    in the order a `LinkedHashMap` lists them (where each key was first put).
   */
  function DependencyMacros(r: MakeRule): (res: Rebuilt<seq<string>>)
    ensures res.rule == GetDependencies(r)
    ensures Distinct(res.value)
    ensures forall m :: m in res.value <==> m in res.rule.dependencies
  {
    NamesInOrderMembers(r.targets.keys, DepKey);
    Rebuilt(GetDependencies(r), AddAll([], NamesInOrder(r.targets.keys, DepKey)))
  }

  /**
    `getAllMacros`: target, then prerequisite, then dependency macros,
    without repeats; the dependency macros rebuild the cache.
   */
  function AllMacros(r: MakeRule): (res: Rebuilt<seq<string>>)
    ensures res.rule == GetDependencies(r)
    ensures Distinct(res.value)
    ensures forall m :: m in res.value <==> m in TargetMacros(r) || m in PrerequisiteMacros(r) || m in DependencyMacros(r).value
    ensures |TargetMacros(r)| <= |res.value| && res.value[..|TargetMacros(r)|] == TargetMacros(r)
  {
    var t := TargetMacros(r);
    var deps := DependencyMacros(r);
    AddAllTwice(t, PrerequisiteMacros(r), deps.value);
    Rebuilt(deps.rule, AddAll(AddAll(t, PrerequisiteMacros(r)), deps.value))
  }

  /** Two `addAll` calls in a row keep the first set's elements first, in order. */
  lemma AddAllTwice(acc: seq<string>, xs: seq<string>, ys: seq<string>)
    requires Distinct(acc)
    ensures var all := AddAll(AddAll(acc, xs), ys);
            && |acc| <= |all| && all[..|acc|] == acc
            && forall m :: m in all <==> m in acc || m in xs || m in ys
  {
    var tp := AddAll(acc, xs);
    var all := AddAll(tp, ys);
    assert all[..|acc|] == all[..|tp|][..|acc|];
  }

  /**
    One of `getMacroElements`' two loops: the files of every category in
    `keys` whose build variable, as `name` gives it, is `macro` are added
    to `acc`.
   */
  function AddNamedFiles<K(==)>(acc: set<Path>, keys: seq<K>, values: map<K, set<Path>>, name: K -> string, macro: string): set<Path>
    requires forall k :: k in keys ==> k in values
    decreases |keys|
  {
    if |keys| == 0 then acc
    else AddNamedFiles(if name(keys[0]) == macro then acc + values[keys[0]] else acc, keys[1..], values, name, macro)
  }

  /** `k` is one of `keys`, named `macro`, and holds `x`. */
  predicate NamedHolds<K(==)>(keys: seq<K>, values: map<K, set<Path>>, name: K -> string, macro: string, x: Path) {
    exists k :: k in keys && k in values && name(k) == macro && x in values[k]
  }

  /** After the loop, a file is present exactly when it was before or a category with that name holds it. */
  lemma {:induction false} AddNamedFilesMembers<K>(acc: set<Path>, keys: seq<K>, values: map<K, set<Path>>, name: K -> string, macro: string)
    requires forall k :: k in keys ==> k in values
    ensures forall x :: x in AddNamedFiles(acc, keys, values, name, macro) <==> x in acc || NamedHolds(keys, values, name, macro, x)
    decreases |keys|
  {
    if |keys| > 0 {
      var acc' := if name(keys[0]) == macro then acc + values[keys[0]] else acc;
      AddNamedFilesMembers(acc', keys[1..], values, name, macro);
      forall x | NamedHolds(keys, values, name, macro, x)
        ensures x in acc' || NamedHolds(keys[1..], values, name, macro, x)
      {
        var k :| k in keys && k in values && name(k) == macro && x in values[k];
        if k != keys[0] {
          assert k in keys[1..];
        }
      }
      forall x | NamedHolds(keys[1..], values, name, macro, x)
        ensures NamedHolds(keys, values, name, macro, x)
      {
        var k :| k in keys[1..] && k in values && name(k) == macro && x in values[k];
        assert k in keys;
      }
    }
  }

  /**
    `getMacroElements`: the loop over the target categories, then the loop
    over the input categories, each adding the files of the categories with
    that build variable, then the cached dependency set under that name.
    The cache is read as it is, without rebuilding it.
   */
  function MacroElements(r: MakeRule, macro: string): (fs: set<Path>)
    ensures forall f :: f in fs <==>
              (exists o :: o in r.targets.keys && o.buildVariable == macro && f in r.targets.values[o]) ||
              (exists i :: i in r.prerequisites.keys && i.buildVariable == macro && f in r.prerequisites.values[i]) ||
              (macro in r.dependencies && f in r.dependencies[macro])
  {
    var fromTargets := AddNamedFiles({}, r.targets.keys, r.targets.values, OutputVariable, macro);
    var fromBoth := AddNamedFiles(fromTargets, r.prerequisites.keys, r.prerequisites.values, InputVariable, macro);
    AddNamedFilesMembers({}, r.targets.keys, r.targets.values, OutputVariable, macro);
    AddNamedFilesMembers(fromTargets, r.prerequisites.keys, r.prerequisites.values, InputVariable, macro);
    if macro in r.dependencies then fromBoth + r.dependencies[macro] else fromBoth
  }

  /** Every file named by a target macro is a target file. */
  lemma MacroElementsOfTargetMacro(r: MakeRule, o: OutputType)
    requires o in r.targets.keys
    ensures r.targets.values[o] <= MacroElements(r, o.buildVariable)
    ensures forall m :: m in MacroElements(r, o.buildVariable) ==>
              m in TargetFiles(r) || m in PrerequisiteFiles(r) || m in AllDepFiles(r.dependencies)
  {
  }

  /**
    After `getAllMacros` the cache holds the rebuilt dependency sets, so a
    dependency macro's elements include its category's dependency files,
    whatever the cache held before.
   */
  lemma MacroElementsAfterAllMacros(r: MakeRule, o: OutputType)
    requires o in r.targets.keys && DistinctDepKeys(r.targets)
    ensures DepFilesOf(r.tool, r.targets.values[o]) <= MacroElements(AllMacros(r).rule, DepKey(o))
  {
    DepMapPerCategory(r.targets.keys, r.targets.values, r.tool);
  }

  /** Some macro of `macros` has `f` among its elements in `r`. */
  predicate Listed(r: MakeRule, macros: seq<string>, f: Path) {
    exists m :: m in macros && f in MacroElements(r, m)
  }

  /** A prerequisite file of an input category that has a build variable. */
  predicate NamedPrerequisite(r: MakeRule, f: Path) {
    exists i :: i in r.prerequisites.keys && i.buildVariable != "" && f in r.prerequisites.values[i]
  }

  /**
    The macros `getAllMacros` lists, expanded by `getMacroElements` on the
    rule it leaves, name only the rule's own files.
   */
  lemma AllMacrosNameOnlyRuleFiles(r: MakeRule, f: Path)
    requires Listed(AllMacros(r).rule, AllMacros(r).value, f)
    ensures f in TargetFiles(r) || f in PrerequisiteFiles(r) || f in DependencyFiles(r).value
  {
    var a := AllMacros(r);
    var m :| m in a.value && f in MacroElements(a.rule, m);
  }

  /**
    They name every target file, every dependency file and every
    prerequisite file whose input category has a build variable.
   */
  lemma AllMacrosCoverFiles(r: MakeRule, f: Path)
    requires f in TargetFiles(r) || f in DependencyFiles(r).value || NamedPrerequisite(r, f)
    ensures Listed(AllMacros(r).rule, AllMacros(r).value, f)
  {
    var a := AllMacros(r);
    if f in TargetFiles(r) {
      var o :| o in r.targets.keys && f in r.targets.values[o];
      assert o.buildVariable in TargetMacros(r);
      assert f in MacroElements(a.rule, o.buildVariable);
    } else if f in DependencyFiles(r).value {
      var d := a.rule.dependencies;
      var k :| k in d && f in d[k];
      assert k in DependencyMacros(r).value;
      assert f in MacroElements(a.rule, k);
    } else {
      var i :| i in r.prerequisites.keys && i.buildVariable != "" && f in r.prerequisites.values[i];
      assert i.buildVariable in PrerequisiteMacros(r);
      assert f in MacroElements(a.rule, i.buildVariable);
    }
  }

  // ---------------------------------------------------------------------
  // Queries

  /** `validateRecipes`: exactly one target file and at least one prerequisite file. */
  predicate ValidateRecipes(r: MakeRule) {
    |TargetFiles(r)| == 1 && |PrerequisiteFiles(r)| > 0
  }

  /** A rule from the one-file constructor always has valid recipes. */
  lemma NewRuleIsValid(tool: Tool, i: InputType, inputFile: Path, o: OutputType, outFile: Path, sequenceId: int)
    ensures ValidateRecipes(NewRule(tool, i, inputFile, o, outFile, sequenceId))
  {
  }

  /** A rule from the set constructor is valid exactly when it got some input file. */
  lemma NewRuleFromSetValidIff(tool: Tool, i: InputType, inputFiles: set<Path>, o: OutputType, outFile: Path, sequenceId: int)
    ensures ValidateRecipes(NewRuleFromSet(tool, i, inputFiles, o, outFile, sequenceId)) <==> inputFiles != {}
  {
  }

  /** A second target file, in any category, makes the recipes invalid. */
  lemma SecondTargetInvalidates(r: MakeRule, o: OutputType, f: Path)
    requires ValidateRecipes(r) && f !in TargetFiles(r)
    ensures !ValidateRecipes(AddTarget(r, o, f))
  {
    AddTargetUnion(r, o, f);
    var t := TargetFiles(r);
    assert |t + {f}| == |t| + 1;
  }

  /**
    `isSimpleRule`. The documentation asks for one input category and one
    output category holding one file; the code tests only that there is one
    output category (the same test twice).
   */
  predicate IsSimpleRule(r: MakeRule) {
    (|r.targets.keys| != 1 || |r.targets.keys| != 1) == false
  }

  /** Both constructors build simple rules. */
  lemma ConstructedRulesAreSimple(tool: Tool, i: InputType, inputFile: Path, inputFiles: set<Path>, o: OutputType, outFile: Path, sequenceId: int)
    ensures IsSimpleRule(NewRule(tool, i, inputFile, o, outFile, sequenceId))
    ensures IsSimpleRule(NewRuleFromSet(tool, i, inputFiles, o, outFile, sequenceId))
  {
  }

  /** Simplicity depends only on the number of output categories. */
  lemma SimpleIffOneOutputCategory(r: MakeRule, i: InputType, files: set<Path>, o: OutputType, f: Path)
    ensures IsSimpleRule(r) <==> |r.targets.keys| == 1
    ensures IsSimpleRule(AddPrerequisites(r, i, files)) == IsSimpleRule(r)
    ensures o in r.targets.keys ==> IsSimpleRule(AddTarget(r, o, f)) == IsSimpleRule(r)
    ensures o !in r.targets.keys && IsSimpleRule(r) ==> !IsSimpleRule(AddTarget(r, o, f))
  {
  }

  /**
    A "simple" rule need not have one target file or one input category:
    one output category with two files and two input categories is simple,
    yet yields no recipes.
   */
  lemma SimpleRuleWithTwoTargets(t: Tool, i1: InputType, i2: InputType, o: OutputType,
                                 src1: Path, src2: Path, obj1: Path, obj2: Path, sequenceId: int)
    requires i1 != i2 && obj1 != obj2
    ensures var r := AddTarget(AddPrerequisite(NewRule(t, i1, src1, o, obj1, sequenceId), i2, src2), o, obj2);
            IsSimpleRule(r) && |r.prerequisites.keys| == 2 && |TargetFiles(r)| == 2 && !ValidateRecipes(r)
  {
    var r0 := NewRule(t, i1, src1, o, obj1, sequenceId);
    var r1 := AddPrerequisite(r0, i2, src2);
    assert r1.targets == r0.targets;
    AddTargetUnion(r1, o, obj2);
    var r := AddTarget(r1, o, obj2);
    assert TargetFiles(r) == {obj1, obj2};
  }

  /** `isForFolder`: some prerequisite file lies directly in `folder`. */
  predicate IsForFolder(r: MakeRule, folder: Path) {
    exists i, f :: i in r.prerequisites.keys && f in r.prerequisites.values[i] && Parent(f) == folder
  }

  /** The category-by-category search is a search over the flattened prerequisites. */
  lemma IsForFolderIff(r: MakeRule, folder: Path)
    ensures IsForFolder(r, folder) <==> exists f :: f in PrerequisiteFiles(r) && Parent(f) == folder
  {
  }

  /** After adding a prerequisite, the rule is for that file's folder; it stays for every folder it was for. */
  lemma AddPrerequisiteIsForFolder(r: MakeRule, i: InputType, f: Path, folder: Path)
    ensures IsForFolder(AddPrerequisite(r, i, f), Parent(f))
    ensures IsForFolder(r, folder) ==> IsForFolder(AddPrerequisite(r, i, f), folder)
  {
    AddPrerequisiteUnion(r, i, f);
    IsForFolderIff(r, folder);
    IsForFolderIff(AddPrerequisite(r, i, f), folder);
    IsForFolderIff(AddPrerequisite(r, i, f), Parent(f));
  }

  /** `isTool`: tools are compared by name. */
  predicate IsTool(r: MakeRule, t: Tool) {
    r.tool.name == t.name
  }
}

=== FILE: managed_projects.dfy ===
/**
  The managed project of a build configuration description: a registry of
  configurations keyed by id in insertion order, the project type it was
  created from (with that type's id kept alongside), and the attributes it
  writes to and reads from its storage element.

  Project types and configurations are compared by value; the Java code
  compares project types by reference.
 */
module ManagedProjects {
  import opened Wrappers
  import opened LinkedMaps

  /** `ISchemaObject.ID` (assumed value). */
  const IdAttribute: string := "id"
  /** `ISchemaObject.NAME` (assumed value). */
  const NameAttribute: string := "name"
  /** `PROJECTTYPE` (assumed value). */
  const ProjectTypeAttribute: string := "projectType"

  datatype ProjectType = ProjectType(id: string, name: string)

  datatype Configuration = Configuration(id: string, name: string)

  datatype ManagedProject = ManagedProject(
    projectType: Option<ProjectType>,
    projectTypeId: Option<string>,
    configs: LinkedMap<string, Configuration>,
    dirty: bool,
    id: Option<string>,
    name: Option<string>)

  /** The attributes of a storage element; an attribute set to `null` holds `None`. */
  type Element = map<string, Option<string>>

  /** `getAttribute`: `None` for an absent attribute or a stored `null`. */
  function Attribute(e: Element, key: string): Option<string> {
    if key in e then e[key] else None
  }

  /** A freshly constructed managed project: no type, no configurations, clean. */
  function NewProject(): (mp: ManagedProject)
    ensures |mp.configs.keys| == 0 && mp.projectType.None? && !mp.dirty
  {
    ManagedProject(None, None, Empty(), false, None, None)
  }

  // ---------------------------------------------------------------------
  // The configuration registry

  function GetConfiguration(mp: ManagedProject, id: string): (c: Option<Configuration>)
    ensures c.Some? <==> id in mp.configs.keys
  {
    Get(mp.configs, id)
  }

  /** `getConfigurations`: the configurations in the order their ids were first added. */
  function GetConfigurations(mp: ManagedProject): (cs: seq<Configuration>)
    ensures |cs| == |mp.configs.keys|
    ensures forall i :: 0 <= i < |cs| ==> GetConfiguration(mp, mp.configs.keys[i]) == Some(cs[i])
  {
    Values(mp.configs)
  }

  /**
    `addConfiguration`: the configuration is stored under its id, replacing
    any configuration already there; every other id keeps its
    configuration, and only a new id extends the order, at its end.
   */
  function AddConfiguration(mp: ManagedProject, c: Configuration): (r: ManagedProject)
    ensures GetConfiguration(r, c.id) == Some(c)
    ensures forall id :: id != c.id ==> GetConfiguration(r, id) == GetConfiguration(mp, id)
    ensures c.id in mp.configs.keys ==> r.configs.keys == mp.configs.keys
    ensures c.id !in mp.configs.keys ==> r.configs.keys == mp.configs.keys + [c.id]
    ensures r.(configs := mp.configs) == mp
  {
    mp.(configs := Put(mp.configs, c.id, c))
  }

  /**
    `removeConfiguration`: an absent id changes nothing; a present one loses
    its configuration and no other id does.
   */
  function RemoveConfiguration(mp: ManagedProject, id: string): (r: ManagedProject)
    ensures GetConfiguration(r, id) == None
    ensures forall id' :: id' != id ==> GetConfiguration(r, id') == GetConfiguration(mp, id')
    ensures id !in mp.configs.keys ==> r == mp
    ensures r.(configs := mp.configs) == mp
  {
    if !ContainsKey(mp.configs, id) then mp
    else mp.(configs := Remove(mp.configs, id))
  }

  /** Adding a configuration with a new id appends it to the configurations. */
  lemma AddNewAppends(mp: ManagedProject, c: Configuration)
    requires c.id !in mp.configs.keys
    ensures GetConfigurations(AddConfiguration(mp, c)) == GetConfigurations(mp) + [c]
  {
    var r := AddConfiguration(mp, c);
    var old_ := GetConfigurations(mp);
    var new_ := GetConfigurations(r);
    forall i | 0 <= i < |old_| ensures new_[i] == old_[i] {
      assert r.configs.keys[i] == mp.configs.keys[i] != c.id;
    }
  }

  /** Adding a configuration under an id already present replaces it in place. */
  lemma AddExistingReplaces(mp: ManagedProject, c: Configuration, i: nat)
    requires i < |mp.configs.keys| && mp.configs.keys[i] == c.id
    ensures GetConfigurations(AddConfiguration(mp, c)) == GetConfigurations(mp)[i := c]
  {
    var r := AddConfiguration(mp, c);
    forall j | 0 <= j < |mp.configs.keys| && j != i ensures mp.configs.keys[j] != c.id {
    }
  }

  /** The ids of a sequence of configurations. */
  function Ids(cs: seq<Configuration>): (ids: seq<string>)
    ensures |ids| == |cs| && forall i :: 0 <= i < |cs| ==> ids[i] == cs[i].id
  {
    seq(|cs|, i requires 0 <= i < |cs| => cs[i].id)
  }

  predicate DistinctIds(cs: seq<Configuration>) {
    forall i, j :: 0 <= i < j < |cs| ==> cs[i].id != cs[j].id
  }

  /** The loop of adding configurations one after another. */
  function AddAll(mp: ManagedProject, cs: seq<Configuration>): ManagedProject
    decreases |cs|
  {
    if |cs| == 0 then mp else AddAll(AddConfiguration(mp, cs[0]), cs[1..])
  }

  /**
    Configurations with distinct ids, added to a project that has none of
    those ids, come back from `getConfigurations` after the existing ones,
    in the order they were added.
   */
  lemma {:induction false} AddAllKeepsInsertionOrder(mp: ManagedProject, cs: seq<Configuration>)
    requires DistinctIds(cs)
    requires forall i :: 0 <= i < |cs| ==> cs[i].id !in mp.configs.keys
    ensures GetConfigurations(AddAll(mp, cs)) == GetConfigurations(mp) + cs
    decreases |cs|
  {
    if |cs| > 0 {
      var mp1 := AddConfiguration(mp, cs[0]);
      var rest := cs[1..];
      AddNewAppends(mp, cs[0]);
      TailStillNew(mp, cs);
      AddAllKeepsInsertionOrder(mp1, rest);
      AppendFirst(GetConfigurations(mp), cs);
    }
  }

  lemma AppendFirst(a: seq<Configuration>, cs: seq<Configuration>)
    requires |cs| > 0
    ensures a + [cs[0]] + cs[1..] == a + cs
  {
    assert cs == [cs[0]] + cs[1..];
  }

  /** After adding the first configuration, the others are still new and distinct. */
  lemma TailStillNew(mp: ManagedProject, cs: seq<Configuration>)
    requires |cs| > 0 && DistinctIds(cs)
    requires forall i :: 0 <= i < |cs| ==> cs[i].id !in mp.configs.keys
    ensures DistinctIds(cs[1..])
    ensures forall i :: 0 <= i < |cs[1..]| ==> cs[1..][i].id !in AddConfiguration(mp, cs[0]).configs.keys
  {
    var mp1 := AddConfiguration(mp, cs[0]);
    forall i | 0 <= i < |cs[1..]| ensures cs[1..][i].id !in mp1.configs.keys {
      assert cs[1..][i] == cs[i + 1];
      assert cs[0].id != cs[i + 1].id;
    }
  }

  /** Every configuration is stored under its own id, as `addConfiguration` stores it. */
  ghost predicate KeyedById(mp: ManagedProject) {
    forall k :: k in mp.configs.keys ==> mp.configs.values[k].id == k
  }

  lemma AddKeepsKeyedById(mp: ManagedProject, c: Configuration)
    requires KeyedById(mp)
    ensures KeyedById(AddConfiguration(mp, c))
  {
    var r := AddConfiguration(mp, c);
    forall k | k in r.configs.keys ensures r.configs.values[k].id == k {
      if k != c.id {
        assert GetConfiguration(r, k) == GetConfiguration(mp, k);
      } else {
        assert GetConfiguration(r, k) == Some(c);
      }
    }
  }

  /**
    Removing an id leaves the other configurations in their order: the ids
    `getConfigurations` lists afterwards are the ids it listed before,
    without the removed one.
   */
  lemma RemoveKeepsOrder(mp: ManagedProject, id: string)
    requires KeyedById(mp)
    ensures Ids(GetConfigurations(RemoveConfiguration(mp, id))) == Without(Ids(GetConfigurations(mp)), id)
  {
    var r := RemoveConfiguration(mp, id);
    IdsAreKeys(mp);
    assert KeyedById(r) by {
      forall k | k in r.configs.keys ensures r.configs.values[k].id == k {
        assert GetConfiguration(r, k) == GetConfiguration(mp, k);
      }
    }
    IdsAreKeys(r);
  }

  lemma IdsAreKeys(mp: ManagedProject)
    requires KeyedById(mp)
    ensures Ids(GetConfigurations(mp)) == mp.configs.keys
  {
    var cs := GetConfigurations(mp);
    forall i | 0 <= i < |cs| ensures Ids(cs)[i] == mp.configs.keys[i] {
      assert mp.configs.keys[i] in mp.configs.keys;
    }
  }

  // ---------------------------------------------------------------------
  // The project type

  /** The project type id agrees with the project type. */
  predicate Synced(mp: ManagedProject) {
    mp.projectTypeId == match mp.projectType case None => None case Some(t) => Some(t.id)
  }

  /**
    `setProjectType`: setting the type the project already has changes
    nothing; setting another one also sets its id (or clears it with the
    type).
   */
  function SetProjectType(mp: ManagedProject, t: Option<ProjectType>): (r: ManagedProject)
    ensures r.projectType == t
    ensures t != mp.projectType ==> Synced(r)
    ensures t == mp.projectType ==> r == mp
    ensures r.configs == mp.configs && r.id == mp.id && r.name == mp.name && r.dirty == mp.dirty
  {
    if mp.projectType == t then mp
    else mp.(projectType := t, projectTypeId := if t.None? then None else Some(t.value.id))
  }

  /** A project whose type id agrees with its type keeps that agreement. */
  lemma SetProjectTypeKeepsSync(mp: ManagedProject, t: Option<ProjectType>)
    requires Synced(mp)
    ensures Synced(SetProjectType(mp, t))
  {
  }

  // ---------------------------------------------------------------------
  // Storage

  /**
    `serializeProjectInfo`: the id is always written (possibly `null`), the
    name only when there is one, the type's id only when there is a type;
    every other attribute is left as it was, and the project is clean.
   */
  function SerializeProjectInfo(mp: ManagedProject, e: Element): (r: (Element, ManagedProject))
    ensures Attribute(r.0, IdAttribute) == mp.id
    ensures Attribute(r.0, NameAttribute) == if mp.name.Some? then mp.name else Attribute(e, NameAttribute)
    ensures Attribute(r.0, ProjectTypeAttribute) ==
              if mp.projectType.Some? then Some(mp.projectType.value.id) else Attribute(e, ProjectTypeAttribute)
    ensures forall k :: k !in {IdAttribute, NameAttribute, ProjectTypeAttribute} ==> Attribute(r.0, k) == Attribute(e, k)
    ensures r.1 == mp.(dirty := false)
  {
    var e1 := e[IdAttribute := mp.id];
    var e2 := if mp.name.Some? then e1[NameAttribute := mp.name] else e1;
    var e3 := if mp.projectType.Some? then e2[ProjectTypeAttribute := Some(mp.projectType.value.id)] else e2;
    (e3, mp.(dirty := false))
  }

  /**
    `loadFromProject`: reads the id, the name and the type id. A non-empty
    type id fails the load, since the type lookup always finds nothing
    (the project type is then cleared); otherwise the load succeeds.
   */
  function LoadFromProject(mp: ManagedProject, e: Element): (r: (ManagedProject, bool))
    ensures r.0.id == Attribute(e, IdAttribute) && r.0.name == Attribute(e, NameAttribute)
    ensures r.0.projectTypeId == Attribute(e, ProjectTypeAttribute)
    ensures !r.1 <==> Attribute(e, ProjectTypeAttribute).Some? && Attribute(e, ProjectTypeAttribute).value != ""
    ensures !r.1 ==> r.0.projectType.None?
    ensures r.1 ==> r.0.projectType == mp.projectType
    ensures r.0.configs == mp.configs && r.0.dirty == mp.dirty
  {
    var loaded := mp.(id := Attribute(e, IdAttribute), name := Attribute(e, NameAttribute),
                      projectTypeId := Attribute(e, ProjectTypeAttribute));
    var typeId := Attribute(e, ProjectTypeAttribute);
    if typeId.Some? && |typeId.value| > 0 then (loaded.(projectType := None), false)
    else (loaded, true)
  }

  /**
    Loading what was serialised gives back the id, and the name when there
    was one; the load fails exactly when a type with a non-empty id was
    written, or the element already held a non-empty type id.
   */
  lemma SerializeThenLoad(mp: ManagedProject, e: Element, into: ManagedProject)
    ensures var e' := SerializeProjectInfo(mp, e).0;
            var loaded := LoadFromProject(into, e').0;
            var ok := LoadFromProject(into, e').1;
            && loaded.id == mp.id
            && (mp.name.Some? ==> loaded.name == mp.name)
            && (mp.projectType.Some? ==> (ok <==> mp.projectType.value.id == ""))
            && (mp.projectType.None? ==> (ok <==> Attribute(e, ProjectTypeAttribute).None? || Attribute(e, ProjectTypeAttribute).value == ""))
  {
  }

  /**
    The type id is kept in step only by changes of type: after a failed
    load the project has no type but keeps the loaded type id, and setting
    no type then leaves that id in place.
   */
  lemma LoadedTypeIdOutlivesClearing(mp: ManagedProject, e: Element)
    requires Attribute(e, ProjectTypeAttribute).Some? && Attribute(e, ProjectTypeAttribute).value != ""
    ensures var loaded := LoadFromProject(mp, e).0;
            && !Synced(loaded)
            && SetProjectType(loaded, None).projectTypeId == Attribute(e, ProjectTypeAttribute)
  {
  }
}

=== FILE: paths.dfy ===
/**
  Eclipse `IPath` values as sequences of segments. A workspace path starts
  with the project name: `[project, folder, ..., name]`.
 */
module Paths {
  import opened Wrappers
  import JavaStrings

  type Path = seq<string>

  /** The segments of a portable path string: parts between '/', empty ones dropped. */
  function Segments(s: string): (segs: seq<string>)
    ensures forall i :: 0 <= i < |segs| ==> segs[i] != "" && '/' !in segs[i]
  {
    var parts := JavaStrings.Pieces(s, '/');
    var segs := NonEmpty(parts);
    forall i | 0 <= i < |segs| ensures '/' !in segs[i] {
      assert segs[i] in parts;
      var j :| 0 <= j < |parts| && parts[j] == segs[i];
    }
    segs
  }

  function NonEmpty(parts: seq<string>): (r: seq<string>)
    ensures forall i :: 0 <= i < |r| ==> r[i] != ""
    ensures forall x :: x in r <==> x in parts && x != ""
  {
    if |parts| == 0 then []
    else if parts[0] == "" then NonEmpty(parts[1..])
    else [parts[0]] + NonEmpty(parts[1..])
  }

  /**
    Appends segments the way `IPath` canonicalises: "." is dropped and ".."
    removes the previous segment (nothing above the root).
   */
  function Resolve(base: Path, segs: seq<string>): Path
    decreases |segs|
  {
    if |segs| == 0 then base
    else if segs[0] == "." then Resolve(base, segs[1..])
    else if segs[0] == ".." then Resolve(if |base| > 0 then base[..|base| - 1] else base, segs[1..])
    else Resolve(base + [segs[0]], segs[1..])
  }

  /**
    `new Path(String)` for an absolute path string: its segments,
    canonicalised like an appended tail.
   */
  function ParsePath(s: string): Path {
    Resolve([], Segments(s))
  }

  /** Segments that are neither "." nor "..", which canonicalising keeps as they are. */
  predicate NoDots(segs: seq<string>) {
    forall i :: 0 <= i < |segs| ==> segs[i] != "." && segs[i] != ".."
  }

  lemma {:induction false} ResolveNoDots(base: Path, segs: seq<string>)
    requires NoDots(segs)
    ensures Resolve(base, segs) == base + segs
    decreases |segs|
  {
    if |segs| > 0 {
      ResolveNoDots(base + [segs[0]], segs[1..]);
      assert base + [segs[0]] + segs[1..] == base + segs;
    }
  }

  /** `IPath.append(String)`. */
  function Append(base: Path, tail: string): Path {
    Resolve(base, Segments(tail))
  }

  /** A name that `append` adds as exactly one segment. */
  predicate IsPlainSegment(s: string) {
    s != "" && '/' !in s && s != "." && s != ".."
  }

  lemma AppendPlainSegment(base: Path, s: string)
    requires IsPlainSegment(s)
    ensures Append(base, s) == base + [s]
  {
    assert JavaStrings.IndexOf(s, '/') == |s|;
    assert JavaStrings.Pieces(s, '/') == [s];
    assert NonEmpty([s]) == [s];
    assert Segments(s) == [s];
    assert Resolve(base, [s]) == Resolve(base + [s], []);
  }

  /** `getParent()` of a resource. */
  function Parent(p: Path): Path {
    if |p| == 0 then [] else p[..|p| - 1]
  }

  /** `lastSegment()`: `None` for the empty path. */
  function LastSegment(p: Path): Option<string> {
    if |p| == 0 then None else Some(p[|p| - 1])
  }

  /** `IResource.getName()`. */
  function Name(p: Path): string {
    LastSegment(p).GetOr("")
  }

  /** Workspace folders (`IFolder`) have a project segment and at least one more. */
  predicate IsFolderPath(p: Path) {
    |p| >= 2
  }

  predicate IsPrefix(a: Path, b: Path) {
    |a| <= |b| && b[..|a|] == a
  }
}

=== FILE: private_libraries.dfy ===
/**
  A private Arduino library: a library found in one of the user's private
  library folders. Its name is the last segment of its install path; its
  fully qualified name (and the breadcrumbs shown for it) is the library
  root, then the private-library segment, then the name.

  Which paths exist on disk is a parameter (`onDisk`), as are the
  configured private-library folders.
 */
module PrivateLibraries {
  import opened Wrappers
  import opened Paths
  import JavaStrings

  /** `SEMI_COLON`, the separator of a save string. */
  const SemiColon: char := ';'

  /** The segments of the portable path `SLOEBER_LIBRARY_FQN`, the root of every library's name (assumed value). */
  const LibraryRoot: Path := ["Libraries"]

  /** `PRIVATE` (assumed value). */
  const PrivateSegment: string := "Private"

  /** `EXAMPLES_FOLDER` (assumed value). */
  const ExamplesFolder: string := "examples"

  /** `eXAMPLES_FODER`, the capitalised variant tried first (assumed value). */
  const CapitalisedExamplesFolder: string := "Examples"

  datatype PrivateLibrary = PrivateLibrary(installPath: Option<Path>, name: string, fqn: Path)

  lemma PrivateSegmentIsPlain()
    ensures IsPlainSegment(PrivateSegment)
  {
    assert |PrivateSegment| == 7 && PrivateSegment[0] == 'P';
    assert forall i :: 0 <= i < |PrivateSegment| ==> PrivateSegment[i] != '/';
  }

  lemma ExamplesFoldersArePlain()
    ensures IsPlainSegment(ExamplesFolder) && IsPlainSegment(CapitalisedExamplesFolder)
  {
    assert |ExamplesFolder| == 8 && ExamplesFolder[0] == 'e';
    assert forall i :: 0 <= i < |ExamplesFolder| ==> ExamplesFolder[i] != '/';
    assert |CapitalisedExamplesFolder| == 8 && CapitalisedExamplesFolder[0] == 'E';
    assert forall i :: 0 <= i < |CapitalisedExamplesFolder| ==> CapitalisedExamplesFolder[i] != '/';
  }

  /** `calcFQN`: the library root, the private segment, then the name, each appended as by `IPath.append`. */
  function CalcFqn(name: string): (fqn: Path)
    ensures IsPlainSegment(name) ==> fqn == LibraryRoot + [PrivateSegment, name]
  {
    var root := LibraryRoot;
    PrivateSegmentIsPlain();
    AppendPlainSegment(root, PrivateSegment);
    var fqn := Append(Append(root, PrivateSegment), name);
    if IsPlainSegment(name) then
      AppendPlainSegment(root + [PrivateSegment], name);
      assert fqn == root + [PrivateSegment] + [name];
      fqn
    else fqn
  }

  /**
    The constructor from an install path: the name is its last segment.
    A path with no segment has no name, and the constructor fails (`None`).
   */
  function FromInstallPath(installPath: Path): (lib: Option<PrivateLibrary>)
    ensures lib.Some? <==> |installPath| > 0
    ensures lib.Some? ==>
              && lib.value.installPath == Some(installPath)
              && installPath == Parent(installPath) + [lib.value.name]
              && lib.value.fqn == CalcFqn(lib.value.name)
  {
    match LastSegment(installPath)
    case None => None
    case Some(name) => Some(PrivateLibrary(Some(installPath), name, CalcFqn(name)))
  }

  /**
    Where a private-library folder would hold the library `name`: the
    configured folder is parsed as a path, which drops "." and resolves
    "..", and then the name is appended.
   */
  function Candidate(libPath: string, name: string): (c: Path)
    ensures NoDots(Segments(libPath)) && IsPlainSegment(name) ==> c == Segments(libPath) + [name]
  {
    var base := ParsePath(libPath);
    assert NoDots(Segments(libPath)) ==> base == Segments(libPath) by {
      if NoDots(Segments(libPath)) {
        ResolveNoDots([], Segments(libPath));
        assert [] + Segments(libPath) == Segments(libPath);
      }
    }
    assert IsPlainSegment(name) ==> Append(base, name) == base + [name] by {
      if IsPlainSegment(name) {
        AppendPlainSegment(base, name);
      }
    }
    Append(base, name)
  }

  /** A configured folder with "." or ".." in it is canonicalised before the name is appended. */
  lemma DotsInLibraryFolderAreResolved(libPath: string, name: string)
    requires Segments(libPath) == ["libs", ".", "private", "..", "mine"] && IsPlainSegment(name)
    ensures Candidate(libPath, name) == ["libs", "mine", name]
  {
    var segs := Segments(libPath);
    assert Resolve(["libs", "mine"], segs[5..]) == ["libs", "mine"];
    assert Resolve(["libs"], segs[4..]) == ["libs", "mine"] by {
      assert segs[4..][1..] == segs[5..];
      assert ["libs"] + ["mine"] == ["libs", "mine"];
    }
    assert Resolve(["libs", "private"], segs[3..]) == ["libs", "mine"] by {
      assert segs[3..][1..] == segs[4..];
      assert ["libs", "private"][..1] == ["libs"];
    }
    assert Resolve(["libs"], segs[2..]) == ["libs", "mine"] by {
      assert segs[2..][1..] == segs[3..];
      assert ["libs"] + ["private"] == ["libs", "private"];
    }
    assert Resolve(["libs"], segs[1..]) == ["libs", "mine"] by {
      assert segs[1..][1..] == segs[2..];
    }
    assert ParsePath(libPath) == ["libs", "mine"] by {
      assert [] + ["libs"] == ["libs"];
    }
    AppendPlainSegment(["libs", "mine"], name);
  }

  /**
    The search of the constructor from a save string: the first configured
    folder, in order, that holds the library; `None` when none does.
   */
  function FindInstallPath(libPaths: seq<string>, name: string, onDisk: set<Path>): (p: Option<Path>)
    ensures p.None? <==> forall i :: 0 <= i < |libPaths| ==> Candidate(libPaths[i], name) !in onDisk
    ensures p.Some? ==> exists i :: 0 <= i < |libPaths| && p.value == Candidate(libPaths[i], name) && p.value in onDisk
                                     && forall j :: 0 <= j < i ==> Candidate(libPaths[j], name) !in onDisk
    decreases |libPaths|
  {
    if |libPaths| == 0 then None
    else
      var c := Candidate(libPaths[0], name);
      if c in onDisk then Some(c)
      else
        var r := FindInstallPath(libPaths[1..], name, onDisk);
        assert forall i :: 1 <= i < |libPaths| ==> libPaths[1..][i - 1] == libPaths[i];
        if r.Some? then
          ghost var i :| 0 <= i < |libPaths[1..]| && r.value == Candidate(libPaths[1..][i], name) && r.value in onDisk
                        && forall j :: 0 <= j < i ==> Candidate(libPaths[1..][j], name) !in onDisk;
          assert r.value == Candidate(libPaths[i + 1], name);
          r
        else r
  }

  /**
    The constructor from a save string: the name is the last `;`-separated
    part; a string made of separators alone has no part and the constructor
    fails (`None`). The install path is searched for in the configured
    private-library folders.
   */
  function FromSaveString(saveString: string, libPaths: seq<string>, onDisk: set<Path>): (lib: Option<PrivateLibrary>)
    ensures lib.None? <==> |JavaStrings.Split(saveString, SemiColon)| == 0
    ensures lib.Some? ==>
              && lib.value.name == JavaStrings.Split(saveString, SemiColon)[|JavaStrings.Split(saveString, SemiColon)| - 1]
              && SemiColon !in lib.value.name
              && lib.value.installPath == FindInstallPath(libPaths, lib.value.name, onDisk)
              && lib.value.fqn == CalcFqn(lib.value.name)
  {
    var parts := JavaStrings.Split(saveString, SemiColon);
    if |parts| == 0 then None
    else
      var name := parts[|parts| - 1];
      Some(PrivateLibrary(FindInstallPath(libPaths, name, onDisk), name, CalcFqn(name)))
  }

  /** A save string is rejected exactly when it is made of separators alone. */
  lemma SaveStringRejectedIff(saveString: string, libPaths: seq<string>, onDisk: set<Path>)
    ensures FromSaveString(saveString, libPaths, onDisk).None? <==>
              |saveString| > 0 && forall i :: 0 <= i < |saveString| ==> saveString[i] == SemiColon
  {
    JavaStrings.SplitEmptyIffOnlySeparators(saveString, SemiColon);
  }

  /** The name taken from a save string is the text after its last separator, trailing separators aside. */
  lemma SaveStringNameIsLastPart(saveString: string, libPaths: seq<string>, onDisk: set<Path>)
    requires FromSaveString(saveString, libPaths, onDisk).Some?
    ensures var n := FromSaveString(saveString, libPaths, onDisk).value.name;
            && (SemiColon in saveString ==> n != "")
            && exists p, t :: saveString == p + n + t && (p == [] || p[|p| - 1] == SemiColon)
                              && forall i :: 0 <= i < |t| ==> t[i] == SemiColon
  {
    JavaStrings.SplitLastPart(saveString, SemiColon);
  }

  /** A save string without separator is the library name itself. */
  lemma PlainSaveStringIsName(saveString: string, libPaths: seq<string>, onDisk: set<Path>)
    requires SemiColon !in saveString
    ensures FromSaveString(saveString, libPaths, onDisk).Some?
    ensures FromSaveString(saveString, libPaths, onDisk).value.name == saveString
  {
  }

  /** `getBreadCrumbs`: the segments of the fully qualified name. */
  function BreadCrumbs(lib: PrivateLibrary): seq<string> {
    lib.fqn
  }

  /**
    For a library whose name is one plain segment, the breadcrumbs are the
    library root, the private segment and the name, so the last breadcrumb
    is the name.
   */
  lemma BreadCrumbsOfPlainName(installPath: Path)
    requires |installPath| > 0 && IsPlainSegment(installPath[|installPath| - 1])
    ensures var crumbs := BreadCrumbs(FromInstallPath(installPath).value);
            && crumbs == LibraryRoot + [PrivateSegment, installPath[|installPath| - 1]]
            && crumbs[|crumbs| - 1] == installPath[|installPath| - 1]
  {
  }

  /**
    A name that is not a plain segment is canonicalised on its way into the
    fully qualified name: `..` climbs out of the private segment.
   */
  lemma ParentNameEscapesPrivateSegment()
    ensures CalcFqn("..") == LibraryRoot
  {
    var root := LibraryRoot;
    PrivateSegmentIsPlain();
    AppendPlainSegment(root, PrivateSegment);
    assert Segments("..") == [".."] by {
      assert JavaStrings.IndexOf("..", '/') == 2;
      assert JavaStrings.Pieces("..", '/') == [".."];
    }
    assert Resolve(root + [PrivateSegment], [".."]) == Resolve(root, []);
  }

  /**
    `getExamplePath`: the capitalised examples folder when it exists on
    disk, the lower-case one otherwise; a library without an install path
    has none, and the call fails (`None`).
   */
  function ExamplePath(lib: PrivateLibrary, onDisk: set<Path>): (p: Option<Path>)
    ensures p.Some? <==> lib.installPath.Some?
    ensures p.Some? ==> var ip := lib.installPath.value;
              p.value == if ip + [CapitalisedExamplesFolder] in onDisk
                         then ip + [CapitalisedExamplesFolder]
                         else ip + [ExamplesFolder]
  {
    match lib.installPath
    case None => None
    case Some(ip) =>
      var capitalised := Append(ip, CapitalisedExamplesFolder);
      ExamplesFoldersArePlain();
      AppendPlainSegment(ip, CapitalisedExamplesFolder);
      AppendPlainSegment(ip, ExamplesFolder);
      if capitalised in onDisk then Some(capitalised) else Some(Append(ip, ExamplesFolder))
  }

  /** The example folder is always directly inside the install folder. */
  lemma ExamplePathInsideInstallPath(lib: PrivateLibrary, onDisk: set<Path>)
    requires lib.installPath.Some?
    ensures var p := ExamplePath(lib, onDisk).value;
            Parent(p) == lib.installPath.value && Name(p) in {CapitalisedExamplesFolder, ExamplesFolder}
  {
  }

  function IsPrivateLib(lib: PrivateLibrary): bool {
    true
  }

  function IsHardwareLib(lib: PrivateLibrary): bool {
    false
  }

  /** Every private library reports itself private and not a hardware library. */
  lemma PrivateNotHardware(lib: PrivateLibrary)
    ensures IsPrivateLib(lib) && !IsHardwareLib(lib)
  {
  }
}

=== FILE: recipes.dfy ===
/**
  The recipes of a build rule: the rule must have exactly one target file
  and at least one prerequisite; the tool turns the rule's flags, target
  name and prerequisite names into recipe lines; each line is then macro
  resolved, falling back to the raw line when it resolves to blanks, and
  lines blank either way are dropped.

  The tool, the file-name shortening and macro resolution are outside the
  rule; they are the fields of a `RecipeEnv`.
 */
module Recipes {
  import opened Wrappers
  import opened Paths
  import opened LinkedMaps
  import opened MakeRules
  import JavaStrings

  /**
    The rule's collaborators:
    `niceName` is `GetNiceFileName` against the build folder;
    `commandFlags(prerequisite, target)` is the tool's command flags, `None`
    when the tool throws;
    `toolRecipes(flags, target, names)` is the tool's recipe lines;
    `resolve` is macro resolution of one line.
   */
  datatype RecipeEnv = RecipeEnv(
    niceName: Path -> string,
    commandFlags: (Path, Path) -> Option<seq<string>>,
    toolRecipes: (set<string>, string, map<string, set<string>>) -> seq<string>,
    resolve: string -> string)

  /** The one target file of a rule that has exactly one. */
  function SingleTarget(r: MakeRule): (t: Path)
    requires |TargetFiles(r)| == 1
    ensures TargetFiles(r) == {t}
  {
    var t :| t in TargetFiles(r);
    var s := TargetFiles(r);
    assert s == (s - {t}) + {t};
    assert |s - {t}| == 0;
    assert s == {t};
    t
  }

  // ---------------------------------------------------------------------
  // Prerequisite names per command variable

  function NamesOf(nice: Path -> string, files: set<Path>): (ns: set<string>)
    ensures forall x :: x in ns <==> exists f :: f in files && x == nice(f)
  {
    set f | f in files :: nice(f)
  }

  /**
    The loop that groups prerequisite names by their category's command
    variable, visiting `keys` in order; a category without files creates
    no entry.
   */
  function NameLists(keys: seq<InputType>, values: map<InputType, set<Path>>, nice: Path -> string): map<string, set<string>>
    requires forall i :: i in keys ==> i in values
  {
    if |keys| == 0 then map[]
    else
      var prev := NameLists(keys[..|keys| - 1], values, nice);
      var i := keys[|keys| - 1];
      var v := i.assignToCmdVariable;
      if values[i] == {} then prev
      else prev[v := (if v in prev then prev[v] else {}) + NamesOf(nice, values[i])]
  }

  /** Reference: `v` is a key when some category assigned to it has a file. */
  predicate HasNames(keys: seq<InputType>, values: map<InputType, set<Path>>, v: string)
    requires forall i :: i in keys ==> i in values
  {
    exists i :: i in keys && i.assignToCmdVariable == v && values[i] != {}
  }

  /** Reference: `x` is the name of a file of some category assigned to `v`. */
  predicate NameOfVariable(keys: seq<InputType>, values: map<InputType, set<Path>>, nice: Path -> string, v: string, x: string)
    requires forall i :: i in keys ==> i in values
  {
    exists i, f :: i in keys && i.assignToCmdVariable == v && f in values[i] && x == nice(f)
  }

  /**
    The grouping loop builds exactly the reference map: one key per
    command variable that has files, holding the names of all of them.
   */
  lemma {:induction false} NameListsShape(keys: seq<InputType>, values: map<InputType, set<Path>>, nice: Path -> string)
    requires forall i :: i in keys ==> i in values
    ensures forall v :: v in NameLists(keys, values, nice) <==> HasNames(keys, values, v)
    ensures forall v, x :: v in NameLists(keys, values, nice) ==>
              (x in NameLists(keys, values, nice)[v] <==> NameOfVariable(keys, values, nice, v, x))
    decreases |keys|
  {
    if |keys| > 0 {
      var init := keys[..|keys| - 1];
      var i := keys[|keys| - 1];
      assert forall j :: j in keys <==> j in init || j == i by {
        assert keys == init + [i];
      }
      NameListsShape(init, values, nice);
      NameListsStep(init, i, values, nice);
    }
  }

  /** One more category: the shape carries over from `init` to `init + [i]`. */
  lemma NameListsStep(init: seq<InputType>, i: InputType, values: map<InputType, set<Path>>, nice: Path -> string)
    requires forall j :: j in init ==> j in values
    requires i in values
    requires forall v :: v in NameLists(init, values, nice) <==> HasNames(init, values, v)
    requires forall v, x :: v in NameLists(init, values, nice) ==>
               (x in NameLists(init, values, nice)[v] <==> NameOfVariable(init, values, nice, v, x))
    ensures var keys := init + [i];
            && (forall v :: v in NameLists(keys, values, nice) <==> HasNames(keys, values, v))
            && (forall v, x :: v in NameLists(keys, values, nice) ==>
                  (x in NameLists(keys, values, nice)[v] <==> NameOfVariable(keys, values, nice, v, x)))
  {
    var keys := init + [i];
    assert keys[..|keys| - 1] == init;
    assert forall j :: j in keys <==> j in init || j == i;
    var prev := NameLists(init, values, nice);
    var m := NameLists(keys, values, nice);
    forall v ensures v in m <==> HasNames(keys, values, v) {
      if HasNames(keys, values, v) {
        var j :| j in keys && j.assignToCmdVariable == v && values[j] != {};
        if j != i {
          assert HasNames(init, values, v);
        }
      }
      if v in prev {
        var j :| j in init && j.assignToCmdVariable == v && values[j] != {};
        assert j in keys;
      }
    }
    forall v, x | v in m ensures x in m[v] <==> NameOfVariable(keys, values, nice, v, x) {
      if NameOfVariable(keys, values, nice, v, x) {
        var j, f :| j in keys && j.assignToCmdVariable == v && f in values[j] && x == nice(f);
        if j != i {
          assert NameOfVariable(init, values, nice, v, x);
          assert v in prev;
        }
      }
      if x in m[v] {
        if v == i.assignToCmdVariable && values[i] != {} && x in NamesOf(nice, values[i]) {
          var f :| f in values[i] && x == nice(f);
          assert i in keys;
        } else {
          assert v in prev && x in prev[v];
          var j, f :| j in init && j.assignToCmdVariable == v && f in values[j] && x == nice(f);
          assert j in keys;
        }
      }
    }
  }

  /** `niceNameList` of `getRecipes`. */
  function NameList(r: MakeRule, nice: Path -> string): map<string, set<string>> {
    NameLists(r.prerequisites.keys, r.prerequisites.values, nice)
  }

  /** The tool gives flag `x` for prerequisite `f` and the target. */
  predicate GivesFlag(env: RecipeEnv, target: Path, f: Path, x: string) {
    env.commandFlags(f, target).Some? && x in env.commandFlags(f, target).value
  }

  /** The flags one prerequisite contributes: none when the tool throws (the exception is only printed). */
  function FlagsOf(env: RecipeEnv, target: Path, f: Path): (fl: set<string>)
    ensures forall x :: x in fl <==> GivesFlag(env, target, f, x)
  {
    match env.commandFlags(f, target)
    case None => {}
    case Some(fl) => set x | x in fl
  }

  /** The loop over one input category's files, a `HashSet` visited in no particular order. */
  function CategoryFlags(env: RecipeEnv, target: Path, files: set<Path>): set<string> {
    set f, x | f in files && x in FlagsOf(env, target, f) :: x
  }

  /** The flags of each category, in the categories' order. */
  function FlagSets(env: RecipeEnv, target: Path, cats: seq<set<Path>>): (fss: seq<set<string>>)
    ensures |fss| == |cats| && forall k :: 0 <= k < |cats| ==> fss[k] == CategoryFlags(env, target, cats[k])
  {
    if |cats| == 0 then [] else [CategoryFlags(env, target, cats[0])] + FlagSets(env, target, cats[1..])
  }

  /** Being in some category's flags is being a flag the tool gives for some file of some category. */
  lemma FlagSetsMembers(env: RecipeEnv, target: Path, cats: seq<set<Path>>, x: string)
    ensures InSome(FlagSets(env, target, cats), x) <==> exists f :: InSome(cats, f) && GivesFlag(env, target, f, x)
  {
    var fss := FlagSets(env, target, cats);
    if InSome(fss, x) {
      var k :| 0 <= k < |fss| && x in fss[k];
      var f :| f in cats[k] && x in FlagsOf(env, target, f);
      assert InSome(cats, f);
    }
    if exists f :: InSome(cats, f) && GivesFlag(env, target, f, x) {
      var f :| InSome(cats, f) && GivesFlag(env, target, f, x);
      var k :| 0 <= k < |cats| && f in cats[k];
      assert x in FlagsOf(env, target, f);
      assert x in fss[k];
    }
  }

  /** A flag of the whole loop is one the tool gives for some prerequisite. */
  predicate FlagOfSomePrerequisite(r: MakeRule, env: RecipeEnv, target: Path, x: string) {
    exists f :: f in PrerequisiteFiles(r) && GivesFlag(env, target, f, x)
  }

  /**
    The flags of `getRecipes`: the loop over the input categories adds, for
    every prerequisite, the flags the tool gives for it and the target. A
    flag is present exactly when the tool gives it for some prerequisite.
   */
  function Flags(r: MakeRule, env: RecipeEnv, target: Path): (fl: set<string>)
    ensures forall x :: x in fl <==> FlagOfSomePrerequisite(r, env, target, x)
  {
    var cats := Values(r.prerequisites);
    var fss := FlagSets(env, target, cats);
    AddAllSetsMembers({}, fss);
    ValuesMembers(r.prerequisites);
    forall x ensures InSome(fss, x) <==> FlagOfSomePrerequisite(r, env, target, x) {
      FlagSetsMembers(env, target, cats, x);
    }
    AddAllSets({}, fss)
  }

  /**
    Adding a prerequisite adds exactly its own flags; one whose flags the
    tool cannot give adds none.
   */
  lemma FlagsAddPrerequisite(r: MakeRule, env: RecipeEnv, target: Path, i: InputType, f: Path)
    ensures Flags(AddPrerequisite(r, i, f), env, target) == Flags(r, env, target) + FlagsOf(env, target, f)
    ensures env.commandFlags(f, target).None? ==> Flags(AddPrerequisite(r, i, f), env, target) == Flags(r, env, target)
  {
    AddPrerequisiteUnion(r, i, f);
    FlagsOneMore(r, AddPrerequisite(r, i, f), env, target, f);
  }

  /** Flags depend on the prerequisite files alone: one file more adds its flags. */
  lemma FlagsOneMore(r: MakeRule, r': MakeRule, env: RecipeEnv, target: Path, f: Path)
    requires PrerequisiteFiles(r') == PrerequisiteFiles(r) + {f}
    ensures Flags(r', env, target) == Flags(r, env, target) + FlagsOf(env, target, f)
  {
    forall x ensures x in Flags(r', env, target) <==> x in Flags(r, env, target) || x in FlagsOf(env, target, f) {
      if FlagOfSomePrerequisite(r', env, target, x) {
        var g :| g in PrerequisiteFiles(r') && GivesFlag(env, target, g, x);
        if g != f {
          assert FlagOfSomePrerequisite(r, env, target, x);
        }
      }
      if FlagOfSomePrerequisite(r, env, target, x) {
        var g :| g in PrerequisiteFiles(r) && GivesFlag(env, target, g, x);
        assert g in PrerequisiteFiles(r');
      }
    }
  }

  // ---------------------------------------------------------------------
  // Resolving recipe lines

  /** One line: its resolution, else the raw line, else nothing when both are blank. */
  function ResolveLine(resolve: string -> string, line: string): (r: Option<string>)
    ensures r.Some? ==> !JavaStrings.IsBlank(r.value) && (r.value == resolve(line) || r.value == line)
    ensures r.None? <==> JavaStrings.IsBlank(resolve(line)) && JavaStrings.IsBlank(line)
    ensures !JavaStrings.IsBlank(resolve(line)) ==> r == Some(resolve(line))
  {
    var resolved := resolve(line);
    var command := if JavaStrings.IsBlank(resolved) then line else resolved;
    if JavaStrings.IsBlank(command) then None else Some(command)
  }

  /** The loop over the tool's lines, appending each kept line in order. */
  function ResolveLines(resolve: string -> string, lines: seq<string>): (kept: seq<string>)
    ensures |kept| <= |lines|
    ensures forall k :: 0 <= k < |kept| ==> !JavaStrings.IsBlank(kept[k])
    decreases |lines|
  {
    if |lines| == 0 then []
    else
      var init := ResolveLines(resolve, lines[..|lines| - 1]);
      match ResolveLine(resolve, lines[|lines| - 1])
      case None => init
      case Some(c) => init + [c]
  }

  /** Resolution is line by line: resolving two runs of lines is resolving each and concatenating. */
  lemma {:induction false} ResolveLinesAppend(resolve: string -> string, xs: seq<string>, ys: seq<string>)
    ensures ResolveLines(resolve, xs + ys) == ResolveLines(resolve, xs) + ResolveLines(resolve, ys)
    decreases |ys|
  {
    if |ys| == 0 {
      assert xs + ys == xs;
    } else {
      var ys' := ys[..|ys| - 1];
      assert (xs + ys)[..|xs + ys| - 1] == xs + ys';
      assert (xs + ys)[|xs + ys| - 1] == ys[|ys| - 1];
      ResolveLinesAppend(resolve, xs, ys');
    }
  }

  /** A single line yields its resolution, or nothing. */
  lemma ResolveOneLine(resolve: string -> string, line: string)
    ensures ResolveLines(resolve, [line]) == match ResolveLine(resolve, line) case None => [] case Some(c) => [c]
  {
    assert [line][..0] == [];
  }

  /** Every kept line comes from a tool line, and every tool line that is not blank both ways is kept. */
  lemma {:induction false} ResolveLinesMembership(resolve: string -> string, lines: seq<string>)
    ensures forall c :: c in ResolveLines(resolve, lines) <==> exists l :: l in lines && ResolveLine(resolve, l) == Some(c)
    decreases |lines|
  {
    if |lines| > 0 {
      var init := lines[..|lines| - 1];
      var l := lines[|lines| - 1];
      assert lines == init + [l];
      ResolveLinesMembership(resolve, init);
      forall c | exists l' :: l' in lines && ResolveLine(resolve, l') == Some(c)
        ensures c in ResolveLines(resolve, lines)
      {
        var l' :| l' in lines && ResolveLine(resolve, l') == Some(c);
        if l' != l {
          assert l' in init;
        }
      }
    }
  }

  // ---------------------------------------------------------------------
  // getRecipes

  /**
    `getRecipes`: nothing unless the rule has one target and some
    prerequisite; otherwise the tool's lines for this rule, resolved.
   */
  function GetRecipes(r: MakeRule, env: RecipeEnv): (recipes: seq<string>)
    ensures !ValidateRecipes(r) ==> recipes == []
    ensures forall k :: 0 <= k < |recipes| ==> !JavaStrings.IsBlank(recipes[k])
  {
    if !ValidateRecipes(r) then []
    else
      var target := SingleTarget(r);
      var lines := env.toolRecipes(Flags(r, env, target), env.niceName(target), NameList(r, env.niceName));
      ResolveLines(env.resolve, lines)
  }

  /**
    For a valid rule, the recipes are the tool's lines for the rule's one
    target, resolved in order: never more lines than the tool gave.
   */
  lemma ValidRuleRecipes(r: MakeRule, env: RecipeEnv)
    requires ValidateRecipes(r)
    ensures var target := SingleTarget(r);
            var lines := env.toolRecipes(Flags(r, env, target), env.niceName(target), NameList(r, env.niceName));
            && GetRecipes(r, env) == ResolveLines(env.resolve, lines)
            && |GetRecipes(r, env)| <= |lines|
            && forall c :: c in GetRecipes(r, env) <==> exists l :: l in lines && ResolveLine(env.resolve, l) == Some(c)
  {
    var target := SingleTarget(r);
    var lines := env.toolRecipes(Flags(r, env, target), env.niceName(target), NameList(r, env.niceName));
    ResolveLinesMembership(env.resolve, lines);
  }
}

=== FILE: staleness.dfy ===
/**
  Whether a build rule has to run: its targets must exist, its dependency
  files must exist, no prerequisite may be newer than the oldest target and
  no header named in a dependency file may be as new as the oldest target.
 */
module Staleness {
  import opened Wrappers
  import opened Paths
  import opened FileSystems
  import opened MakeRules
  import JavaStrings

  // ---------------------------------------------------------------------
  // Dependency files

  /** A line of a dependency file that names a header: `name:`. */
  predicate IsHeaderLine(line: string) {
    JavaStrings.EndsWith(line, ":")
  }

  /** The header a `name:` line refers to: the colon dropped, escaped blanks unescaped. */
  function HeaderName(line: string): string
    requires IsHeaderLine(line)
  {
    JavaStrings.Replace(line[..|line| - 1], "\\ ", " ")
  }

  /** The header file, resolved against the build folder. */
  function HeaderPath(build: Path, line: string): Path
    requires IsHeaderLine(line)
  {
    Append(build, HeaderName(line))
  }

  /**
    A header line whose path names neither a file nor a folder. A line that
    resolves to a folder (`:` alone names the build folder itself) is read
    like a file: `readAttributes` succeeds on folders too.
   */
  predicate HeaderMissing(fs: FileSystem, build: Path, line: string) {
    IsHeaderLine(line) && LastModified(fs, HeaderPath(build, line)).None?
  }

  /** The last-modified time of the file or folder a present header line names. */
  function HeaderTime(fs: FileSystem, build: Path, line: string): Time
    requires IsHeaderLine(line) && !HeaderMissing(fs, build, line)
  {
    LastModified(fs, HeaderPath(build, line)).value
  }

  function Max(a: Time, b: Time): (m: Time)
    ensures m >= a && m >= b && (m == a || m == b)
  {
    if a >= b then a else b
  }

  function Min(a: Time, b: Time): (m: Time)
    ensures m <= a && m <= b && (m == a || m == b)
  {
    if a <= b then a else b
  }

  /**
    The scan over the lines of a dependency file: the newest header time so
    far, or `MaxTime` as soon as a header cannot be found (the exception
    leaves the scan).
   */
  function ScanHeaders(fs: FileSystem, build: Path, lines: seq<string>, newest: Time): Time
    decreases |lines|
  {
    if |lines| == 0 then newest
    else if IsHeaderLine(lines[0]) then
      var h := LastModified(fs, HeaderPath(build, lines[0]));
      if h.None? then MaxTime
      else ScanHeaders(fs, build, lines[1..], Max(h.value, newest))
    else ScanHeaders(fs, build, lines[1..], newest)
  }

  /**
    `getDepFileTimeStamp`: the newest time of the headers a dependency file
    names; `MaxTime` when the file cannot be read or a header is missing;
    `MinTime` when it names no header.
   */
  function DepFileTimeStamp(fs: FileSystem, depFile: Path, build: Path): Time {
    if depFile !in fs.contents then MaxTime
    else ScanHeaders(fs, build, fs.contents[depFile], MinTime)
  }

  /** A missing header anywhere in the lines makes the scan end at `MaxTime`. */
  lemma {:induction false} ScanMissingHeader(fs: FileSystem, build: Path, lines: seq<string>, newest: Time)
    requires exists l :: l in lines && HeaderMissing(fs, build, l)
    ensures ScanHeaders(fs, build, lines, newest) == MaxTime
    decreases |lines|
  {
    if !HeaderMissing(fs, build, lines[0]) {
      var l :| l in lines && HeaderMissing(fs, build, l);
      assert l in lines[1..];
      var next := if IsHeaderLine(lines[0]) then Max(HeaderTime(fs, build, lines[0]), newest) else newest;
      ScanMissingHeader(fs, build, lines[1..], next);
    }
  }

  /**
    With every header present, the scan yields the newest of the starting
    time and the header times.
   */
  lemma {:induction false} ScanAllPresent(fs: FileSystem, build: Path, lines: seq<string>, newest: Time)
    requires forall l :: l in lines ==> !HeaderMissing(fs, build, l)
    ensures var t := ScanHeaders(fs, build, lines, newest);
            && t >= newest
            && (forall l :: l in lines && IsHeaderLine(l) ==> t >= HeaderTime(fs, build, l))
            && (t == newest || exists l :: l in lines && IsHeaderLine(l) && t == HeaderTime(fs, build, l))
    decreases |lines|
  {
    if |lines| > 0 {
      assert !HeaderMissing(fs, build, lines[0]) by { assert lines[0] in lines; }
      var next := if IsHeaderLine(lines[0]) then Max(HeaderTime(fs, build, lines[0]), newest) else newest;
      assert forall l :: l in lines[1..] ==> l in lines;
      ScanAllPresent(fs, build, lines[1..], next);
      var t := ScanHeaders(fs, build, lines, newest);
      assert t == ScanHeaders(fs, build, lines[1..], next);
      assert forall l :: l in lines ==> l == lines[0] || l in lines[1..];
      if t == next && IsHeaderLine(lines[0]) && next != newest {
        assert t == HeaderTime(fs, build, lines[0]);
      }
    }
  }

  /** A header line naming an existing folder contributes the folder's time; the scan goes on. */
  lemma FolderHeaderIsRead(fs: FileSystem, build: Path, line: string, rest: seq<string>, newest: Time)
    requires IsHeaderLine(line) && HeaderPath(build, line) in fs.folders && !FileExists(fs, HeaderPath(build, line))
    ensures ScanHeaders(fs, build, [line] + rest, newest) ==
              ScanHeaders(fs, build, rest, Max(fs.folders[HeaderPath(build, line)], newest))
  {
    assert ([line] + rest)[1..] == rest;
  }

  /**
    A dependency file holding the one line `:` names the build folder
    itself, so the result is that folder's time and not `MaxTime`.
   */
  lemma BareColonReadsBuildFolder(fs: FileSystem, depFile: Path, build: Path)
    requires depFile in fs.contents && fs.contents[depFile] == [":"]
    requires build in fs.folders && !FileExists(fs, build)
    ensures DepFileTimeStamp(fs, depFile, build) == fs.folders[build]
  {
    assert JavaStrings.Replace("", "\\ ", " ") == "";
    assert JavaStrings.Pieces("", '/') == [""];
    assert Segments("") == [];
    assert HeaderPath(build, ":") == build;
    FolderHeaderIsRead(fs, build, ":", [], MinTime);
    assert [":"] == [":"] + [];
  }

  /** An unreadable dependency file yields `MaxTime`. */
  lemma UnreadableDepFile(fs: FileSystem, depFile: Path, build: Path)
    requires depFile !in fs.contents
    ensures DepFileTimeStamp(fs, depFile, build) == MaxTime
  {
  }

  /**
    A referenced header that does not exist yields `MaxTime` (the method's
    documentation says 0).
   */
  lemma MissingHeaderIsMax(fs: FileSystem, depFile: Path, build: Path)
    requires depFile in fs.contents && exists l :: l in fs.contents[depFile] && HeaderMissing(fs, build, l)
    ensures DepFileTimeStamp(fs, depFile, build) == MaxTime
  {
    ScanMissingHeader(fs, build, fs.contents[depFile], MinTime);
  }

  /** A readable dependency file without `name:` lines yields `MinTime`. */
  lemma NoHeadersIsMin(fs: FileSystem, depFile: Path, build: Path)
    requires depFile in fs.contents && forall l :: l in fs.contents[depFile] ==> !IsHeaderLine(l)
    ensures DepFileTimeStamp(fs, depFile, build) == MinTime
  {
    ScanAllPresent(fs, build, fs.contents[depFile], MinTime);
  }

  /** With all headers present, the result is the newest header time. */
  lemma DepFileTimeStampIsNewestHeader(fs: FileSystem, depFile: Path, build: Path)
    requires depFile in fs.contents && forall l :: l in fs.contents[depFile] ==> !HeaderMissing(fs, build, l)
    ensures forall l :: l in fs.contents[depFile] && IsHeaderLine(l) ==> DepFileTimeStamp(fs, depFile, build) >= HeaderTime(fs, build, l)
    ensures DepFileTimeStamp(fs, depFile, build) == MinTime ||
            exists l :: l in fs.contents[depFile] && IsHeaderLine(l) && DepFileTimeStamp(fs, depFile, build) == HeaderTime(fs, build, l)
  {
    ScanAllPresent(fs, build, fs.contents[depFile], MinTime);
  }

  // ---------------------------------------------------------------------
  // The staleness decision

  /**
    Reference form of `needsExecuting`, one clause per reason: a missing
    target, a missing dependency file, a prerequisite strictly newer than a
    target, a dependency file whose headers are at least as new as a target,
    or a target stamped `MinTime` (the newest-header start value already
    reaches it).
   */
  ghost predicate Stale(r: MakeRule, fs: FileSystem, build: Path) {
    var ts := TargetFiles(r);
    var ds := DependencyFiles(r).value;
    var ps := PrerequisiteFiles(r);
    || (exists t :: t in ts && !FileExists(fs, t))
    || (exists d :: d in ds && !FileExists(fs, d))
    || (exists p, t :: p in ps && t in ts && Stamp(fs, p) > Stamp(fs, t))
    || (exists d, t :: d in ds && t in ts && DepFileTimeStamp(fs, d, build) >= Stamp(fs, t))
    || (exists t :: t in ts && Stamp(fs, t) == MinTime)
  }

  /**
    `needsExecuting`. Also returns the rule as the call leaves it: the
    dependency cache is rebuilt once every target has been found.
   */
  method NeedsExecuting(r: MakeRule, fs: FileSystem, build: Path) returns (stale: bool, r': MakeRule)
    ensures stale == Stale(r, fs, build)
    ensures (exists t :: t in TargetFiles(r) && !FileExists(fs, t)) ==> r' == r
    ensures (forall t :: t in TargetFiles(r) ==> FileExists(fs, t)) ==> r' == GetDependencies(r)
  {
    // The oldest target time.
    var oldestTarget: Time := MaxTime;
    var todo := TargetFiles(r);
    ghost var seen: set<Path> := {};
    while todo != {}
      invariant todo + seen == TargetFiles(r) && todo !! seen
      invariant forall t :: t in seen ==> FileExists(fs, t) && oldestTarget <= Stamp(fs, t)
      invariant oldestTarget == MaxTime || exists t :: t in seen && oldestTarget == Stamp(fs, t)
      decreases todo
    {
      var t :| t in todo;
      if !FileExists(fs, t) {
        return true, r;
      }
      oldestTarget := Min(oldestTarget, Stamp(fs, t));
      todo := todo - {t};
      seen := seen + {t};
    }
    assert seen == TargetFiles(r);
    r' := GetDependencies(r);
    assert AllDepFiles(r'.dependencies) == DependencyFiles(r).value;
    stale := CheckRest(r, fs, build, oldestTarget);
  }

  /** The part of `needsExecuting` after the targets were found, given the oldest target time. */
  method CheckRest(r: MakeRule, fs: FileSystem, build: Path, oldestTarget: Time) returns (stale: bool)
    requires forall t :: t in TargetFiles(r) ==> FileExists(fs, t) && oldestTarget <= Stamp(fs, t)
    requires oldestTarget == MaxTime || exists t :: t in TargetFiles(r) && oldestTarget == Stamp(fs, t)
    ensures stale == Stale(r, fs, build)
  {
    var deps := DependencyFiles(r).value;
    var missing := CheckDependenciesExist(fs, deps);
    if missing {
      return true;
    }
    var newestPrerequisite := NewestStamp(fs, PrerequisiteFiles(r));
    if newestPrerequisite > oldestTarget {
      PrerequisiteNewer(r, fs, newestPrerequisite, oldestTarget);
      return true;
    }
    var newestHeader := NewestHeaderTime(fs, deps, build);
    stale := newestHeader >= oldestTarget;
    PrerequisitesNotNewer(r, fs, newestPrerequisite, oldestTarget);
    HeaderDecision(r, fs, build, newestHeader, oldestTarget);
  }

  /** Whether some dependency file is missing. */
  method CheckDependenciesExist(fs: FileSystem, deps: set<Path>) returns (missing: bool)
    ensures missing <==> exists d :: d in deps && !FileExists(fs, d)
  {
    var todo := deps;
    while todo != {}
      invariant todo <= deps
      invariant forall d :: d in deps - todo ==> FileExists(fs, d)
      decreases todo
    {
      var d :| d in todo;
      if !FileExists(fs, d) {
        return true;
      }
      todo := todo - {d};
    }
    return false;
  }

  /** The newest local time stamp among `files`, `MinTime` for none. */
  method NewestStamp(fs: FileSystem, files: set<Path>) returns (newest: Time)
    ensures forall f :: f in files ==> newest >= Stamp(fs, f)
    ensures newest == MinTime || exists f :: f in files && newest == Stamp(fs, f)
  {
    newest := MinTime;
    var todo := files;
    while todo != {}
      invariant todo <= files
      invariant forall f :: f in files - todo ==> newest >= Stamp(fs, f)
      invariant newest == MinTime || exists f :: f in files - todo && newest == Stamp(fs, f)
      decreases todo
    {
      var f :| f in todo;
      newest := Max(newest, Stamp(fs, f));
      todo := todo - {f};
    }
  }

  /** The newest header time over all dependency files, `MinTime` for none. */
  method NewestHeaderTime(fs: FileSystem, deps: set<Path>, build: Path) returns (newest: Time)
    ensures forall d :: d in deps ==> newest >= DepFileTimeStamp(fs, d, build)
    ensures newest == MinTime || exists d :: d in deps && newest == DepFileTimeStamp(fs, d, build)
  {
    newest := MinTime;
    var todo := deps;
    while todo != {}
      invariant todo <= deps
      invariant forall d :: d in deps - todo ==> newest >= DepFileTimeStamp(fs, d, build)
      invariant newest == MinTime || exists d :: d in deps - todo && newest == DepFileTimeStamp(fs, d, build)
      decreases todo
    {
      var d :| d in todo;
      newest := Max(newest, DepFileTimeStamp(fs, d, build));
      todo := todo - {d};
    }
  }

  lemma PrerequisiteNewer(r: MakeRule, fs: FileSystem, newestPrerequisite: Time, oldestTarget: Time)
    requires forall t :: t in TargetFiles(r) ==> oldestTarget <= Stamp(fs, t)
    requires oldestTarget == MaxTime || exists t :: t in TargetFiles(r) && oldestTarget == Stamp(fs, t)
    requires newestPrerequisite == MinTime || exists p :: p in PrerequisiteFiles(r) && newestPrerequisite == Stamp(fs, p)
    requires newestPrerequisite > oldestTarget
    ensures exists p, t :: p in PrerequisiteFiles(r) && t in TargetFiles(r) && Stamp(fs, p) > Stamp(fs, t)
  {
    var p :| p in PrerequisiteFiles(r) && newestPrerequisite == Stamp(fs, p);
    var t :| t in TargetFiles(r) && oldestTarget == Stamp(fs, t);
  }

  lemma PrerequisitesNotNewer(r: MakeRule, fs: FileSystem, newestPrerequisite: Time, oldestTarget: Time)
    requires forall t :: t in TargetFiles(r) ==> oldestTarget <= Stamp(fs, t)
    requires forall p :: p in PrerequisiteFiles(r) ==> newestPrerequisite >= Stamp(fs, p)
    requires newestPrerequisite <= oldestTarget
    ensures !exists p, t :: p in PrerequisiteFiles(r) && t in TargetFiles(r) && Stamp(fs, p) > Stamp(fs, t)
  {
  }

  lemma HeaderDecision(r: MakeRule, fs: FileSystem, build: Path, newestHeader: Time, oldestTarget: Time)
    requires forall t :: t in TargetFiles(r) ==> FileExists(fs, t) && oldestTarget <= Stamp(fs, t)
    requires oldestTarget == MaxTime || exists t :: t in TargetFiles(r) && oldestTarget == Stamp(fs, t)
    requires forall d :: d in DependencyFiles(r).value ==> FileExists(fs, d) && newestHeader >= DepFileTimeStamp(fs, d, build)
    requires newestHeader == MinTime || exists d :: d in DependencyFiles(r).value && newestHeader == DepFileTimeStamp(fs, d, build)
    requires !exists p, t :: p in PrerequisiteFiles(r) && t in TargetFiles(r) && Stamp(fs, p) > Stamp(fs, t)
    ensures Stale(r, fs, build) <==> newestHeader >= oldestTarget
  {
    if newestHeader >= oldestTarget {
      if newestHeader == MinTime {
        var t :| t in TargetFiles(r) && oldestTarget == Stamp(fs, t);
      } else {
        var d :| d in DependencyFiles(r).value && newestHeader == DepFileTimeStamp(fs, d, build);
        if oldestTarget != MaxTime {
          var t :| t in TargetFiles(r) && oldestTarget == Stamp(fs, t);
        } else {
          assert newestHeader == MaxTime;
          DependencyNeedsTarget(r, d);
          var t :| t in TargetFiles(r);
        }
      }
    }
  }

  /** Every dependency file comes from some target, so there are no dependency files without targets. */
  lemma DependencyNeedsTarget(r: MakeRule, d: Path)
    requires d in DependencyFiles(r).value
    ensures exists t :: t in TargetFiles(r)
  {
    assert d in DepFilesOf(r.tool, TargetFiles(r));
  }
}

=== FILE: wrappers.dfy ===
/** The optional value used wherever the Java code returns or stores `null`. */
module Wrappers {

  /** `None` stands for a Java `null`; `Some(v)` for a present value. */
  datatype Option<+T> = None | Some(value: T) {

    /** The value, or `default` when absent. */
    function GetOr(default: T): T {
      match this
      case Some(v) => v
      case None => default
    }
  }
}
